=== FILE: README.md ===
# Market admin control, modelled in Dafny

This project models the decision logic of an admin dashboard for a marketplace. The dashboard covers:
- verifying sellers;
- moderating products;
- a product category tree;
- a security overview.

All of it sits on a hosted backend that offers authentication and tables. The dashboard's logic lives in React event handlers and hooks. Here it is lifted into pure functions over immutable records:
- each remote table is a sequence of rows;
- each backend outcome is a parameter: an answer, a `null` payload or an error;
- timestamps and `encodeURIComponent` are parameters too;
- the query cache is a set of invalidation filters, the keys written since, and a key-to-entry map.

Modules follow the source's components and files:

| module | what it models |
|---|---|
| `Common` | shared helpers: optional values, results, JavaScript string truthiness |
| `Text` | ASCII lower/upper case, `\s`, `trim`, `replace(/\s+/g, c)`, `split`/`join`, capitalisation |
| `Seqs` | filter, update-where and count over sequences |
| `Backend` | the shapes of table-service replies |
| `SellersApi`, `ProductsApi`, `AuthApi` | the data-access layer |
| `QueryCache`, `SellerQueries`, `UserQuery`, `AuthMutations`, `ProductMutations` | query keys, `enabled` rules, the user query's decision chain, and which keys each mutation makes stale |
| `AuthContext`, `PrivateRoute` | what the auth provider publishes, and the guarded route's three-way choice |
| `SellerManagement`, `ProductManagement` | the two moderation pages; the second also holds category CRUD |
| `ApprovalWorkflow`, `RejectionModal`, `ConfirmationModal`, `DocumentViewer` | dialogs and their state machines |
| `StatusBadge`, `SellerBadge`, `VerificationInfoCard`, `SellerDetailsHeader`, `DocumentPreview`, `PersonalInfoCard`, `CardStats` | display components whose output depends on their props |
| `Security` | the overall score and the badge maps |
| `Feedback`, `SignInPage`, `SignUpPage`, `SignUpForm`, `SignInForm`, `ProfileForm` | the auth and profile forms |

Three behaviours of the code are easy to misread, and the model follows the code in each:
- `RejectionModal` blocks a blank reason. The product page's reject dialog does not: it confirms with any reason, including an empty one, and never stores it (`ProductManagement.ConfirmIgnoresReason`).
- `fetchAllProducts` and `fetchAllProductCategories` return the service's payload as it is. A `null` payload therefore stays `null`, and only an error becomes `[]`. The seller list fetchers do turn a `null` payload into `[]`.
- `fetchProductById` and `fetchProductCategoryById` do not signal "not found". No match gives `undefined`. A service error, or a `null` payload (which makes `data[0]` throw), gives `null`.

## Model

| member | source | states |
|---|---|---|
| SellersApi.FetchSellersWithStatus | src/lib/sellers.ts:56-73 | On an answer: exactly the rows whose status equals the argument, each as often as the table holds it. An error or a null payload gives `[]` and never throws. |
| SellersApi.FetchSellerVerification | src/lib/sellers.ts:4-18 | The by-status fetch for "pending", with the same error and null handling. |
| SellersApi.FetchVerifiedSellers | src/lib/sellers.ts:21-36 | The by-status fetch for "verified", with the same error and null handling. |
| SellersApi.FetchAllSellers | src/lib/sellers.ts:39-53 | The whole table on an answer; `[]` on an error or a null payload. |
| SellersApi.FetchSellersWithStatusOrder | src/lib/sellers.ts:60-69 | The by-status fetch keeps table order: fetching from `a + b` is fetching from `a`, then from `b`. |
| SellersApi.FetchSellersWithStatusUniform | src/lib/sellers.ts:60-69 | When every row has the status, the fetch returns the whole table unchanged. |
| SellersApi.FetchSellerDetails | src/lib/sellers.ts:76-93 | A row comes back iff the service accepted and exactly one row has the id (`.single()`). That row is in the table and has the id. Zero or several matches, or any error, give "Failed to fetch seller with ID: " + id. |
| SellersApi.UpdateSellerVerification | src/lib/sellers.ts:96-118 | On success, every row with the id gets the given status (any status), verified_by "Admin User" and the timestamp, and keeps its other columns. Every other row is untouched. On an error the table is unchanged and the error is rethrown. |
| SellersApi.UpdateSellerVerificationFrame | src/lib/sellers.ts:101-118 | After an update, the rows with another id are the same rows in the same order. |
| SellersApi.DeleteSellerVerification | src/lib/sellers.ts:121-136 | On success, exactly the rows with another id remain, each as often as before, and the table shrinks by the number of rows with the id. On an error nothing is removed and the error is rethrown. |
| SellersApi.DeleteSellerVerificationOrder | src/lib/sellers.ts:121-136 | The surviving rows keep table order: deleting from `a + b` is deleting from `a`, then from `b`. |
| ProductsApi.FetchAllProducts | src/lib/products.ts:4-13 | The whole table on an answer, `null` exactly for a null payload, `[]` on an error. Never throws. |
| ProductsApi.FetchAllProductCategories | src/lib/products.ts:29-40 | The same three outcomes for the categories table. |
| ProductsApi.FirstOf | src/lib/products.ts:15-27 | `data[0]` inside the try/catch: the first matching row; `undefined` iff the answer has no match; `null` iff the service did not answer with rows. |
| ProductsApi.FetchProductById | src/lib/products.ts:15-27 | The first product with the id (no earlier row has it), `undefined` iff none has it, `null` on an error or null payload. |
| ProductsApi.FetchProductCategoryById | src/lib/products.ts:42-56 | The same three outcomes for categories. |
| ProductsApi.CreateProductCategory | src/lib/products.ts:58-73 | On success the row is appended and returned. On an error the table is unchanged and the result is `null`. |
| ProductsApi.UpdateProductCategory | src/lib/products.ts:75-91 | Returns the category iff the service accepted and exactly one row has its id. That row is then replaced and no other row changes. Otherwise the result is `null` and the table is unchanged. |
| ProductsApi.DeleteProductCategory | src/lib/products.ts:93-100 | On success exactly the rows with another id remain, and the length drops by the number of matches. On an error the table is unchanged. Both cases return nothing. |
| AuthApi.EffectiveRole | src/lib/auth.ts:31 | The role defaults to "admin" when absent. |
| AuthApi.SignUpIgnoresRoleAndStore | src/lib/auth.ts:27-45 | Credentials that differ only in role and store name send the same request. Only `full_name` travels as metadata. |
| AuthApi.ToAuthResponse | src/lib/auth.ts:55-69 | An error becomes `{user: null, session: null, error}`. Otherwise the error is null, the session is passed through, and the user is projected to `{id, email}` exactly when present. |
| AuthApi.SignUp | src/lib/auth.ts:23-70 | Sends email, password and full name. The error is set iff the service refused, and then user and session are null. |
| AuthApi.SignIn | src/lib/auth.ts:72-98 | Never rejects. The error is set iff the service refused, and then user and session are null. Otherwise the session is passed through. |
| AuthApi.SignOut | src/lib/auth.ts:100-117 | The scope is always "global". The local token entry is removed only after an accepted sign-out. An error leaves storage untouched and is returned. |
| AuthApi.SignOutIdempotent | src/lib/auth.ts:100-117 | A second successful sign-out changes nothing further, and the token entry is gone afterwards. |
| AuthApi.GetSession | src/lib/auth.ts:131-140 | `{session, error: null}` on an answer; `{session: null, error}` on a failure. |
| AuthApi.GetCurrentUser | src/lib/auth.ts:119-129 | The error is set iff the call threw. An error the service returns next to a user is dropped and the user kept. |
| AuthApi.UpdateProfile | src/lib/auth.ts:142-162 | On success, the row with the user's id takes each of the six patchable fields from the patch when it is sent and keeps it otherwise, gets the timestamp, and keeps its id, role, email and status. No other row changes. On an error the table is unchanged and `{error}` is returned. |
| QueryCache.Invalidate | src/hooks/mutations/useAuthMutations.ts:20 | The keys stale afterwards are those stale before plus every key the filter prefixes, including keys written earlier. Cached data is untouched. |
| QueryCache.SetQueryData | src/hooks/mutations/useAuthMutations.ts:57 | The key maps to the new entry and is no longer stale, as the library marks a written query valid. Every other key keeps its entry and its staleness, and the filters are unchanged. |
| SellerQueries.SellerKeysDistinct | src/hooks/queries/useSellerQuery.ts:13-47 | By-status keys are equal iff the statuses are. No by-status key equals a details key or any of the three constant keys. |
| SellerQueries.DetailsQueryFn | src/hooks/queries/useSellerQuery.ts:21-26 | A missing or empty id throws "Seller ID is required" before any request. A row comes back iff there is an id, the service accepted, and exactly one row has the id; that row is in the table and has the id. Any other failure names the id it could not fetch. |
| SellerQueries.DetailsGuardAgreesWithEnabled | src/hooks/queries/useSellerQuery.ts:21-27 | When the query is enabled (`!!id`) its function never reports a missing id. When disabled, that is the only thing it could report. |
| SellerQueries.ByStatusQueryFn | src/hooks/queries/useSellerQuery.ts:47-50 | On an answer: every row with the status, exactly as often as the table holds it, and the whole table when every row has that status. `[]` on an error or null payload. |
| SellerQueries.DisabledStatusFetchesNothing | src/hooks/queries/useSellerQuery.ts:45-51 | When every row has a real status, a status the guard disables (`""` or `"all"`) would fetch nothing. A status that some row carries is enabled and fetches that row. |
| UserQuery.Options | src/hooks/queries/useUserQuery.ts:16-49 | The key is `["user"]`, the stale time is 300000 ms, and the query refetches on window focus. |
| UserQuery.SelectProfile | src/hooks/queries/useUserQuery.ts:35-44 | A profile comes back iff the service accepted and exactly one profile has the id. That profile has the id. |
| UserQuery.QueryFn | src/hooks/queries/useUserQuery.ts:17-47 | A session error or no session: `null` after one call. A failed or missing user: `null` after two calls. A session and a user always give a result: that user, after three calls in order. The profile is present iff its select succeeded, and is then the selected row. |
| UserQuery.ProfileErrorKeepsUser | src/hooks/queries/useUserQuery.ts:41-44 | A failing profile lookup yields `{user, profile: null}`, keeping the user. |
| UserQuery.ReturnedUserErrorIgnored | src/hooks/queries/useUserQuery.ts:27-32 | A returned (not thrown) `getUser` error does not stop the query. The result is the same as without the error. |
| AuthMutations.OnSuccess | src/hooks/mutations/useAuthMutations.ts:18-87 | Every success invalidates `["user"]`, and a profile update also `["profile"]`: afterwards a key is stale iff it was before or one of those filters prefixes it. A sign-out then stores `null` under `["user"]`, which leaves that key valid. Every other entry keeps its value. |
| AuthMutations.OnError | src/hooks/mutations/useAuthMutations.ts:22-90 | The error handlers leave the cache unchanged. |
| AuthMutations.RunSignIn | src/hooks/mutations/useAuthMutations.ts:31-42 | The mutation resolves with the sign-in response: the error is set iff the password was refused, and then user and session are null; otherwise the session is passed through. Whatever the answer, the success handler runs: the keys under `["user"]` become stale and the data is untouched. |
| AuthMutations.FailedSignInInvalidatesUser | src/hooks/mutations/useAuthMutations.ts:31-39 | A refused password still returns its error and still makes `["user"]` stale. |
| AuthMutations.SignOutUserNotStale | src/hooks/mutations/useAuthMutations.ts:54-58 | After a sign-out `["user"]` holds `null` and is not stale, because the write follows the invalidation. After a sign-in it is stale. |
| ProductMutations.OnCategorySuccess | src/hooks/mutations/useProductMutation.ts:8-10 | Only `["productCategories"]` is invalidated: a key is stale afterwards iff it was before or starts with it. The data is untouched. |
| ProductMutations.RunCreateCategory | src/hooks/mutations/useProductMutation.ts:6-14 | An accepted create appends and returns the category. A refused one returns `null` and leaves the table alone, and because it does not throw, the keys under `["productCategories"]` become stale in both cases. The data is untouched. |
| ProductMutations.RunUpdateCategory | src/hooks/mutations/useProductMutation.ts:20-28 | The update returns the category iff the service accepted and exactly one row has its id; that row is replaced and no other changes. Otherwise it returns `null` with the table unchanged. Either way the keys under `["productCategories"]` become stale. |
| ProductMutations.CategoryWritesStaleKeys | src/hooks/mutations/useProductMutation.ts:8-24 | A key becomes stale iff it starts with `["productCategories"]`. `["products"]` and `["productCategory", id]` are never made stale. |
| AuthContext.Derive | src/contexts/AuthContext.tsx:44-97 | `isAuthenticated` iff a user is present. User and profile are null when the query data is null. `isLoading` iff the query is loading or the listener is not yet installed. |
| AuthContext.RefetchCount | src/contexts/AuthContext.tsx:59-66 | Counted event by event as the listener sees them, the refetches equal the number of SIGNED_IN, TOKEN_REFRESHED and SIGNED_OUT events in the stream. |
| AuthContext.RefetchCountIsCount | src/contexts/AuthContext.tsx:61-65 | A stream triggers no refetch iff it holds none of those three events. |
| AuthContext.UseAuth | src/contexts/AuthContext.tsx:108-114 | Outside a provider it fails with "useAuth must be used within an AuthProvider". Inside one it returns the provider's value. |
| PrivateRoute.Decide | src/components/PrivateRoute.tsx:20-33 | Loading always shows the placeholder. Not loading and signed out redirects to "/signin" with replace. Children render iff not loading and authenticated. |
| PrivateRoute.Guard | src/components/PrivateRoute.tsx:10-33 | Outside a provider the route fails with the `useAuth` error. Inside one it makes the decision on the context's two flags. |
| PrivateRoute.ChildrenIffSignedIn | src/components/PrivateRoute.tsx:20-33 | Under a provider: children iff a user is cached, the query has settled and the listener is installed. Redirect iff no user under the same conditions. Loading otherwise. |
| DocumentViewer.ResolveType | src/components/modals/DocumentViewerModal.tsx:34 | The document type defaults to image. |
| DocumentViewer.Init | src/components/modals/DocumentViewerModal.tsx:37-39 | Starts loading, with no error and no fallback. |
| DocumentViewer.OnOpenOrUrlChange | src/components/modals/DocumentViewerModal.tsx:42-48 | With the dialog open and a non-empty URL the state resets. Otherwise it is left alone. |
| DocumentViewer.HandleLoad | src/components/modals/DocumentViewerModal.tsx:50-52 | Clears the spinner and changes nothing else. |
| DocumentViewer.HandleError | src/components/modals/DocumentViewerModal.tsx:54-61 | Every error clears the spinner. The first error of a PDF turns on the fallback and leaves the error alone. Any other error sets the fixed message. |
| DocumentViewer.GoogleDocsUrl | src/components/modals/DocumentViewerModal.tsx:121-123 | The viewer prefix, then exactly the encoded URL, then "&embedded=true". |
| DocumentViewer.RenderContent | src/components/modals/DocumentViewerModal.tsx:76-174 | Priority: no URL, then error, then PDF fallback or frame, then image, then "cannot be previewed". Each view is shown iff its condition holds. Frames carry the right source and show the spinner iff loading. |
| DocumentViewer.RunSilent | src/components/modals/DocumentViewerModal.tsx:42-61 | With no URL, or a type that cannot be previewed, no element reports load or error, so whatever happens the state stays as it started. |
| DocumentViewer.RunImage | src/components/modals/DocumentViewerModal.tsx:54-61 | For an image with a URL: the fixed message is set iff some error arrived. The fallback never turns on. The spinner lasts until the first event. |
| DocumentViewer.RunPdf | src/components/modals/DocumentViewerModal.tsx:54-61 | For a PDF with a URL: the message is never set. The fallback is on iff some error arrived. The spinner lasts until the first event. |
| DocumentViewer.RunOutcome | src/components/modals/DocumentViewerModal.tsx:42-61 | Over any sequence of load and error events after opening: with no URL or an unpreviewable type the state stays initial. An image shows the message iff it failed. A PDF never shows the message and falls back iff it failed. The spinner lasts until the first event. |
| DocumentViewer.DownloadNameShape | src/components/modals/DocumentViewerModal.tsx:70 | The download name has no whitespace and no upper case, is no longer than the title, and lower-casing first would give the same name. |
| DocumentViewer.DownloadNameOfWords | src/components/modals/DocumentViewerModal.tsx:70 | Words separated by one space download as the lower-cased words joined by "_". |
| DocumentViewer.DialogTitle | src/components/modals/DocumentViewerModal.tsx:180 | A non-empty title is shown as is, and an empty one gives "Document Viewer", so the heading is never empty. |
| DocumentViewer.DialogDescription | src/components/modals/DocumentViewerModal.tsx:181 | The description is shown iff it is a non-empty string. |
| ApprovalWorkflow.Init | src/hooks/useApprovalWorkflow.ts:6-7 | Both dialogs start closed. |
| ApprovalWorkflow.HandleApprove | src/hooks/useApprovalWorkflow.ts:10-12 | Opens the confirmation and leaves the rejection flag alone. |
| ApprovalWorkflow.ConfirmApproval | src/hooks/useApprovalWorkflow.ts:14-20 | Closes the confirmation and leaves the rejection flag alone. |
| ApprovalWorkflow.HandleReject | src/hooks/useApprovalWorkflow.ts:22-29 | Closes the rejection dialog for any reason and leaves the confirmation flag alone. |
| ApprovalWorkflow.RunFlags | src/hooks/useApprovalWorkflow.ts:6-39 | Over any event sequence each flag is what the last event touching it left. Only the exposed setter ever opens the rejection dialog. |
| RejectionModal.Type | src/components/modals/RejectionModal.tsx:39 | The text area stores exactly what was typed. |
| RejectionModal.RejectDisabledIff | src/components/modals/RejectionModal.tsx:48 | Reject is disabled iff the reason is all whitespace (or empty). |
| RejectionModal.ClickReject | src/components/modals/RejectionModal.tsx:23-26 | A disabled click does nothing. Otherwise the untrimmed reason goes to `onConfirm` and the text resets to "". |
| RejectionModal.ConfirmedReasonNotBlank | src/components/modals/RejectionModal.tsx:23-48 | Every confirmed reason holds a non-whitespace character, and leading whitespace is passed on. |
| RejectionModal.Cancel | src/components/modals/RejectionModal.tsx:44 | Cancel only requests closing and keeps the typed reason. |
| ConfirmationModal.Render | src/components/modals/ConfirmationModal.tsx:32-58 | Labels default to "Confirm"/"Cancel". Loading disables both buttons, shows the spinner and removes dismissal. Destructive styling appears iff the variant is destructive. |
| ConfirmationModal.Dispatch | src/components/modals/ConfirmationModal.tsx:38-55 | A closed dialog reaches nothing. On an open one, `onConfirm` runs iff the confirm button is enabled and clicked, and it runs first. `onClose` runs iff the dialog has a change handler and the interaction is Escape or a click on an enabled button, and it runs last. No callback runs twice. Clicks outside an alert dialog do nothing. |
| ConfirmationModal.LoadingLocksDialog | src/components/modals/ConfirmationModal.tsx:38-55 | While loading or closed, no interaction reaches a callback. Otherwise every interaction closes the dialog, and confirming runs `onConfirm` then `onClose`. |
| StatusBadge.ResolveVariant | src/components/ui/status-badge.tsx:18 | A missing variant means "default". |
| StatusBadge.ColorClassInjective | src/components/ui/status-badge.tsx:23-30 | Every variant selects a non-empty class, and distinct variants select distinct classes. |
| StatusBadge.Render | src/components/ui/status-badge.tsx:18-33 | The label is shown as given, under the chosen (or default) variant's colour. |
| SellerBadge.BadgeFor | src/components/seller/VerificationInfoCard.tsx:69-70 | The pending variant iff the status is "pending", else success. The label has the status's length, with an upper-cased first character and the rest unchanged. |
| SellerBadge.Badge | src/components/seller/VerificationInfoCard.tsx:69-70 | The pending colour exactly for "pending" and the success colour otherwise, under a label of the status's length with its first character upper-cased. |
| SellerBadge.RejectedLooksVerified | src/components/seller/VerificationInfoCard.tsx:69 | "rejected" gets the same colour as "verified", under a different label. |
| VerificationInfoCard.Render | src/components/seller/VerificationInfoCard.tsx:35-110 | Actions show iff the status is exactly "pending", which is iff the badge is the pending colour. "Verified By" shows iff it is a non-empty string. Notes are shown as given. |
| VerificationInfoCard.Use | src/components/seller/VerificationInfoCard.tsx:88-110 | Notes edits are forwarded verbatim. Approve and Reject reach the page iff the actions are shown. |
| SellerDetailsHeader.Render | src/components/seller/SellerDetailsHeader.tsx:15-20 | Business name and "Seller ID: " + id are shown verbatim, with the shared status badge. |
| SellerDetailsHeader.HeaderMatchesCard | src/components/seller/SellerDetailsHeader.tsx:19-20 | The header and the verification card show the same badge for the same status. |
| DocumentPreview.IsImageIgnoresCase | src/components/seller/DocumentPreview.tsx:32 | The image test is case-insensitive. |
| DocumentPreview.IsImageLastChar | src/components/seller/DocumentPreview.tsx:32 | An image URL is non-empty and ends in g, f or p (either case). |
| DocumentPreview.UpperCaseExtensionIsImage | src/components/seller/DocumentPreview.tsx:32 | Any URL ending ".JPG" is an image. |
| DocumentPreview.SuffixAfterExtensionNotImage | src/components/seller/DocumentPreview.tsx:32 | A query string or fragment after the extension makes the URL not an image. |
| DocumentPreview.Render | src/components/seller/DocumentPreview.tsx:38-76 | The image shows iff the URL passes the test. The certification, expiry and description lines show iff their props are non-empty. The button opens the URL. |
| DocumentPreview.PdfNotDistinguished | src/components/seller/DocumentPreview.tsx:31-56 | A PDF is never an image. A PDF and any other non-image render the same card apart from the URL opened. |
| PersonalInfoCard.FullNameEmptyIff | src/components/seller/PersonalInfoCard.tsx:24-26 | The full name is empty iff every part is empty or absent. |
| PersonalInfoCard.FullNameSplits | src/components/seller/PersonalInfoCard.tsx:24-26 | With space-free parts, splitting the name on " " gives exactly the non-empty parts in order: one space between kept parts, none for dropped ones. |
| PersonalInfoCard.Render | src/components/seller/PersonalInfoCard.tsx:24-54 | The website row shows iff the website is non-empty. Name, email and phone are shown. |
| SellerManagement.Initial | src/pages/SellerManagement.tsx:127-137 | Starts with filter "all" and the modal closed, set to approve, with no id. |
| SellerManagement.FilteredSellers | src/pages/SellerManagement.tsx:139-141 | "all" shows the list unchanged. Any other value shows exactly the sellers with that status, and how many there are. |
| SellerManagement.FilteredSellersOrder | src/pages/SellerManagement.tsx:139-141 | Filtering keeps list order. |
| SellerManagement.HandleAction | src/pages/SellerManagement.tsx:143-145 | Opens the modal for the action and the seller. Nothing else changes. |
| SellerManagement.CloseModal | src/pages/SellerManagement.tsx:332 | Hides the modal, keeping its action and id. |
| SellerManagement.ConfirmAction | src/pages/SellerManagement.tsx:147-173 | With no id it is a no-op, modal included. Approve sets verified, "Admin User" and the date on the target. Suspend sets suspended and keeps the approval fields. Both keep the target's id, names, document type and creation date. Delete removes exactly the target id. Others are untouched and the modal resets. |
| SellerManagement.ConfirmActionFrame | src/pages/SellerManagement.tsx:150-164 | After approve or suspend, sellers with another id are the same in the same order. |
| SellerManagement.ConfirmDeleteCount | src/pages/SellerManagement.tsx:166-167 | Delete keeps every other seller in order and shrinks the list by the number with the target id. |
| SellerManagement.ConfirmApproveIgnoresStatus | src/pages/SellerManagement.tsx:150-158 | Confirm does not re-check status: a suspended or rejected target is approved too. |
| SellerManagement.SettleConfirmThenClose | src/pages/SellerManagement.tsx:330-333 | Running `confirmAction` and then `onClose` from the same render gives what `confirmAction` wrote, with the modal set by the close. |
| SellerManagement.DialogProps | src/pages/SellerManagement.tsx:330-358 | The dialog for the modal's action is open iff the modal is. Its title, confirm label and description name that action ("Approve Seller"/"Approve", "Suspend Seller"/"Suspend", "Delete Seller"/"Delete"). Only approving is not destructive. No loading flag or cancel label is passed. |
| SellerManagement.ConfirmClick | src/pages/SellerManagement.tsx:330-358 | With the modal closed there is nothing to click and the page is unchanged. Otherwise the click writes the sellers `confirmAction` writes. Its reset of the modal is overwritten by the dialog's own close, so the modal ends closed with the action and id it had. |
| SellerManagement.MenuActions | src/pages/SellerManagement.tsx:259-271 | Approve iff pending. Suspend iff not suspended. Delete always, last. |
| SellerManagement.StatusBadgeOf | src/pages/SellerManagement.tsx:204-211 | Total over the four statuses. Labels are the capitalised names. Each status has its own variant. |
| SellerManagement.StatusBadgeDistinct | src/pages/SellerManagement.tsx:204-213 | Distinct statuses render in distinct colours. |
| ProductManagement.Initial | src/pages/ProductManagement.tsx:212-241 | Both filters start at "all", both dialogs closed, the reason empty. |
| ProductManagement.FilteredProducts | src/pages/ProductManagement.tsx:244-248 | A product shows iff it passes the status filter and the category filter (each "all" or equal). |
| ProductManagement.FilteredProductsOrder | src/pages/ProductManagement.tsx:244-248 | "all"/"all" shows everything, and filtering keeps list order. |
| ProductManagement.HandleAction | src/pages/ProductManagement.tsx:250-255 | Opens the dialog for the action and product. Choosing reject clears the reason. |
| ProductManagement.TypeRejectReason | src/pages/ProductManagement.tsx:683 | The reason takes the typed text. Products, categories, both filters, both dialogs and the category form are unchanged. |
| ProductManagement.CloseModal | src/pages/ProductManagement.tsx:661 | Hides the dialog, keeping action, id and reason. |
| ProductManagement.Target | src/pages/ProductManagement.tsx:262-268 | Approve, reject and flag map one-to-one onto approved, rejected and flagged. |
| ProductManagement.ConfirmAction | src/pages/ProductManagement.tsx:257-275 | With no id it is a no-op. Otherwise the target takes the action's status, every other product is identical, and the dialog resets. |
| ProductManagement.ConfirmIgnoresReason | src/pages/ProductManagement.tsx:680-692 | The result does not depend on the reason. An empty reason still rejects. |
| ProductManagement.ConfirmActionFrame | src/pages/ProductManagement.tsx:260-271 | Products with another id are the same in the same order afterwards. |
| ProductManagement.SettleConfirmThenClose | src/pages/ProductManagement.tsx:659-662 | Running `confirmAction` and then `onClose` from the same render gives what `confirmAction` wrote, with the modal set by the close. |
| ProductManagement.DialogProps | src/pages/ProductManagement.tsx:659-704 | A confirmation dialog is open iff the modal is open for approve or flag; for reject only the separate reject dialog opens. Approve shows "Approve Product" with "Approve" in the default style. Flag shows "Flag Product" with "Flag Product" in the destructive style. No loading flag or cancel label is passed. |
| ProductManagement.ConfirmClick | src/pages/ProductManagement.tsx:659-704 | With the modal closed nothing can be clicked and the page is unchanged. Otherwise confirming writes the products `confirmAction` writes. The reject dialog's plain button keeps `confirmAction`'s reset of the modal. The approve and flag dialogs close themselves afterwards, so the modal ends closed with the action and id it had. |
| ProductManagement.MenuActions | src/pages/ProductManagement.tsx:423-437 | Approve and Reject iff pending. Flag iff not flagged. |
| ProductManagement.StatusBadgeOf | src/pages/ProductManagement.tsx:379-386 | Labels are the capitalised names. The four statuses get four distinct variants. |
| ProductManagement.FlaggedCount | src/pages/ProductManagement.tsx:460 | Zero iff no product is flagged; never more than the list. |
| ProductManagement.FlaggedCountMatchesFilter | src/pages/ProductManagement.tsx:460 | The tab count equals the length of the list the "flagged" filter shows. |
| ProductManagement.TopLevel | src/pages/ProductManagement.tsx:757 | Exactly the categories with no parent, each as often as the list holds it. |
| ProductManagement.TopLevelOrder | src/pages/ProductManagement.tsx:757 | The list keeps the categories' order: the top-level categories of a prefix come before those of the rest. |
| ProductManagement.CategoryFilterOptions | src/pages/ProductManagement.tsx:499-505 | The names of the top-level categories, in order. |
| ProductManagement.ParentOptions | src/pages/ProductManagement.tsx:755-759 | The ids of the top-level categories, in order. |
| ProductManagement.ParentOptionsExactlyTopLevel | src/pages/ProductManagement.tsx:755-759 | Every top-level category, the edited one included, is offered. Every offered id belongs to a top-level category. |
| ProductManagement.ParentSelectValue | src/pages/ProductManagement.tsx:749 | No parent shows as "". |
| ProductManagement.ParentFromSelect | src/pages/ProductManagement.tsx:750 | "" means no parent; any other value is the parent id. |
| ProductManagement.ParentSelectRoundTrip | src/pages/ProductManagement.tsx:749-750 | Select value and stored parent convert into each other. The only exception is an empty-string parent, which reads back as none. |
| ProductManagement.HandleCategoryAction | src/pages/ProductManagement.tsx:277-289 | Editing a category loads its fields. Anything else clears the form and opens with no category. |
| ProductManagement.SlugFor | src/pages/ProductManagement.tsx:297 | A typed slug is used as is. |
| ProductManagement.GeneratedSlugShape | src/pages/ProductManagement.tsx:297 | A generated slug has no whitespace or upper case and is no longer than the name. A name already in that form is its own slug, so nothing else is stripped. |
| ProductManagement.SlugOfWords | src/pages/ProductManagement.tsx:297 | A word, one space, and the rest give the lower-cased word, "-" and the rest's slug. |
| ProductManagement.NewCategoryId | src/pages/ProductManagement.tsx:295 | "c" followed by decimal digits without a leading zero, whose value is the list length plus one. |
| ProductManagement.NewCategoryIdInjective | src/pages/ProductManagement.tsx:295 | Two lists get the same new id iff they have the same length. |
| Text.NatToString | src/pages/ProductManagement.tsx:295 | The template literal writes a count as decimal digits, with a leading zero only for zero. |
| Text.NatToStringRoundTrip | src/pages/ProductManagement.tsx:295 | Reading the digits back gives the number. |
| Text.NatToStringInjective | src/pages/ProductManagement.tsx:295 | Two numbers are written the same iff they are equal. |
| ProductManagement.SaveCategoryChanges | src/pages/ProductManagement.tsx:291-319 | Add appends a category with the new id, the derived slug, the parent and zero products. Edit replaces name, slug (verbatim, even empty) and parent on the matching id only. Edit with no category changes nothing. The dialog closes. |
| ProductManagement.DeleteCategory | src/pages/ProductManagement.tsx:321-323 | Removes exactly the categories with that id. Children are kept as they are. |
| ProductManagement.ParentCellOf | src/pages/ProductManagement.tsx:559-561 | A dash iff there is no parent. A blank iff the parent id matches no category. Otherwise the name of the first category with that id, since ids can repeat. |
| ProductManagement.DeleteLeavesChildrenDangling | src/pages/ProductManagement.tsx:321-323 | After deleting a parent its children remain, still pointing at it, and their parent cell goes blank. |
| ProductManagement.NewCategoryIdCanCollide | src/pages/ProductManagement.tsx:295 | After deleting "c1" from [c1, c2], adding gives a second "c2". |
| Security.RoundQuotient | src/pages/Security.tsx:251 | The nearest integer to the quotient, with halves rounded up. |
| Security.OverallScore | src/pages/Security.tsx:249-251 | No finite number iff the maximum sum is zero. Otherwise the rounded percentage of total over maximum, with signs normalised. |
| Security.TotalWithinMax | src/pages/Security.tsx:249-250 | Scores within their maxima sum to within the summed maximum, with equality when all are at their maxima. |
| Security.RoundPercentage | src/pages/Security.tsx:251 | A quotient between 0 and 100 rounds to between 0 and 100. Exactly 100 stays 100. |
| Security.ScoreIsPercentage | src/pages/Security.tsx:249-251 | With valid items and a positive maximum the score is in 0..100, and 100 when every item is at its maximum. |
| Security.PageScore | src/pages/Security.tsx:234-251 | The page's five items give 90. |
| Security.RiskVariant | src/pages/Security.tsx:287-291 | high → error, medium → warning, low → info, one-to-one. |
| Security.AlertRiskVariant | src/pages/Security.tsx:521 | error iff "high", warning iff "medium", info for every other string. |
| Security.RiskMapsAgree | src/pages/Security.tsx:521 | The alert list and the table colour every risk the same way. |
| Security.ActivityStatusVariant | src/pages/Security.tsx:306-310 | pending → pending, investigating → warning, resolved → success, one-to-one. |
| Security.ComplianceVariant | src/pages/Security.tsx:600 | success iff "compliant", else warning. |
| Security.Label | src/pages/Security.tsx:296 | Same length, first character upper-cased, rest unchanged. |
| Security.VariantMapsInjective | src/pages/Security.tsx:287-310 | Distinct risks, and distinct statuses, get distinct colours. |
| Security.RecentAlerts | src/pages/Security.tsx:507 | The first min(3, n) activities, in order. |
| CardStats.RenderFooter | src/components/ui/card-stats.tsx:35-44 | With a trend: "+" and green iff positive, "-" and red otherwise, magnitude the absolute value. Without one: the description iff it is non-empty. |
| CardStats.TrendIgnoresValueSign | src/components/ui/card-stats.tsx:38 | Negating the value, or changing the description, changes nothing when a trend is given. |
| Feedback.ErrorMessage | src/components/auth/SignInForm.tsx:49 | A non-empty message is kept; an empty one gives way to the fallback. |
| SignInPage.RedirectIfAuthenticated | src/pages/auth/SignIn.tsx:26-31 | Redirects to "/dashboard" iff authenticated. |
| SignInPage.Submit | src/pages/auth/SignIn.tsx:33-80 | `signIn` is called iff both fields are non-empty; otherwise the fixed error is shown. Navigation happens iff the reply has a session and no error. A refusal shows its message or the fallback. A missing session shows "No session returned from sign in". Loading always ends. |
| SignInPage.SubmitOutcomeExclusive | src/pages/auth/SignIn.tsx:52-76 | A validated submit navigates iff it shows no error, and any error it shows is non-empty. |
| SignUpPage.CredentialsOf | src/pages/auth/SignUp.tsx:55-60 | Email, password, name as full name, role "admin", no store name. |
| SignUpPage.Submit | src/pages/auth/SignUp.tsx:35-87 | `signUp` is called iff name, email and password are all non-empty. Success schedules "/signin" after 1500 ms. A refusal toasts its message. Loading always ends. |
| SignUpPage.StoreNameAndRoleNeverSent | src/pages/auth/SignUp.tsx:55-60 | The store name field changes nothing, and the auth service receives only email, password and full name. |
| SignUpForm.CredentialsOf | src/components/auth/SignUpForm.tsx:38-44 | Role "vendor" iff the store field is shown, else "user". The store name is sent iff the field is shown. |
| SignUpForm.Submit | src/components/auth/SignUpForm.tsx:26-70 | Only email and password are required. `onSuccess` is called iff there is no error and the prop is given. Loading always ends. |
| SignUpForm.VendorFieldsDropped | src/components/auth/SignUpForm.tsx:38-44 | Vendor and user sign-ups with the same fields send the same request and get the same result. |
| SignInForm.Submit | src/components/auth/SignInForm.tsx:20-54 | `signIn` is called iff both fields are non-empty. `onSuccess` is called iff there is no error. A refusal toasts its message or the fallback. |
| SignInForm.SessionlessReplyDisagreement | src/components/auth/SignInForm.tsx:38-45 | A reply with no error and no session triggers `onSuccess` in the form, but no navigation on the page. |
| ProfileForm.InitFrom | src/components/profile/ProfileForm.tsx:20-31 | A loaded profile fills all six fields. No profile leaves the form alone. |
| ProfileForm.HandleChange | src/components/profile/ProfileForm.tsx:33-38 | The named field takes the value and every other field is unchanged. |
| ProfileForm.HandleChangeUndo | src/components/profile/ProfileForm.tsx:33-38 | Typing a field back to its old value restores the form. |
| ProfileForm.PatchOf | src/components/profile/ProfileForm.tsx:55 | All six fields are sent, store name included whatever the role. |
| ProfileForm.Submit | src/components/profile/ProfileForm.tsx:43-74 | No update is made iff there is no user id, and then the fixed toast shows. Success toasts "Profile updated successfully." An error leaves the rows unchanged and toasts. |
| ProfileForm.SubmitWritesForm | src/components/profile/ProfileForm.tsx:55 | A saved form lands in full on the user's row with the timestamp, and every other row is unchanged. |
| ProfileForm.SaveUnchangedTouchesOnlyTimestamp | src/components/profile/ProfileForm.tsx:20-55 | Saving a freshly loaded form rewrites only the timestamp. |

## Left out

- Network, toasts, navigation, `setTimeout`, `window.open` and DOM download links are not modelled as effects. Toasts, navigation targets and delays are returned as values, and each backend answer is a parameter.
- Timestamps (`new Date().toISOString()`) are an opaque `now` parameter, and `encodeURIComponent` is an uninterpreted function parameter.
- Floating point is not modelled. The security score uses exact integer round-half-up, prices and percentages are left out, and the trend value is an integer.
- Security.OverallScore: a zero maximum gives `None`. The page then shows NaN for 0/0 and an infinity for a non-zero total, and the model does not tell those apart.
- Case mapping is ASCII only, and the JavaScript `\s` class is taken to be ASCII whitespace.
- React-query internals are not modelled: deduplication, stale timers and refetch scheduling belong to the library. An invalidation is recorded as a key filter. A key is stale when some filter prefixes it and it has not been written by `setQueryData` since.
- The auth listener is modelled as the number of refetches an event stream triggers (`AuthContext.RefetchCount`). The subscription and its cleanup are left out.
- DocumentViewer.RunOutcome: events are assumed to arrive only while a frame is rendered, since the error panel and the fallback hold no element that could report one.
- The PDF frame's own error message in the DocumentViewer is not a separate case. It needs an error while the frame is shown, which the error branch rules out.
- The alert icon colour classes in the Security page (lines 510-512) are left out because they repeat the risk map.
- Profile row fields are non-null strings in the generated table types. `x || ""` is therefore the identity and is modelled as such.
- `.single()` is modelled as "exactly one matching row", otherwise the call's error path.
- `useSellerMutation` and `useProductsQuery` are thin pass-throughs and are left out. `useSellerMutation` invalidates nothing, and `useProductsQuery` has no logic beyond keys.
- The route table, the backend client set-up, the mock-data pages, `useSellerData`, `SellerDetails` and the logout button are wiring or mock data with no behaviour to state. Only `/dashboard` is wrapped in the private route.
- ProfileForm's store-name field is shown to vendors only. This is the predicate `ProfileForm.ShowsStoreField` and has no further contract.

=== FILE: auth_api.dfy ===
/** The authentication wrappers. None of them rejects: whatever the auth
    service does becomes a structured result with an `error` field. */
module AuthApi {
  import opened Common
  import opened Seqs
  import opened Backend

  /** A user as the auth service returns it. */
  datatype AuthUser = AuthUser(id: string, email: Option<string>, phone: Option<string>)

  /** An opaque session. */
  datatype Session = Session(access_token: string, user_id: string)

  /** The `{id, email}` projection the wrappers hand out. */
  datatype UserSummary = UserSummary(id: string, email: Option<string>)

  /** `AuthResponse`. */
  datatype AuthResponse = AuthResponse(user: Option<UserSummary>, session: Option<Session>, error: Option<string>)

  /** What `signUp` / `signInWithPassword` answered. */
  datatype AuthReply = AuthOk(user: Option<AuthUser>, session: Option<Session>) | AuthFailed(message: string)

  datatype SignUpCredentials = SignUpCredentials(
    email: string,
    password: string,
    full_name: Option<string>,
    role: Option<string>,
    store_name: Option<string>)

  datatype SignInCredentials = SignInCredentials(email: string, password: string)

  /** What reaches `supabase.auth.signUp`: the credentials and one piece of
      user metadata, `full_name`. */
  datatype SignUpRequest = SignUpRequest(email: string, password: string, full_name: Option<string>)

  const DEFAULT_ROLE := "admin"
  const SIGN_OUT_SCOPE := "global"
  const TOKEN_KEY := "supabase.auth.token"

  /** The role `signUp` destructures, defaulted to "admin" when absent. It is
      never used afterwards. */
  function EffectiveRole(c: SignUpCredentials): (r: string)
    ensures c.role.None? ==> r == "admin"
    ensures c.role.Some? ==> r == c.role.value
  {
    c.role.GetOr(DEFAULT_ROLE)
  }

  /** The request `signUp` sends. */
  function SignUpRequestOf(c: SignUpCredentials): SignUpRequest {
    SignUpRequest(c.email, c.password, c.full_name)
  }

  /** Role and store name never reach the auth service: two credential sets
      that differ only in them send the same request. */
  lemma SignUpIgnoresRoleAndStore(c: SignUpCredentials, role: Option<string>, store: Option<string>)
    ensures SignUpRequestOf(c.(role := role, store_name := store)) == SignUpRequestOf(c)
    ensures SignUpRequestOf(c).full_name == c.full_name
  {
  }

  /** The shared result shape of `signUp` and `signIn`: an error becomes
      `{user: null, session: null, error}`; otherwise the user is projected
      to `{id, email}` and the session passed through. */
  function ToAuthResponse(reply: AuthReply): (r: AuthResponse)
    ensures reply.AuthFailed? ==> r == AuthResponse(None, None, Some(reply.message))
    ensures reply.AuthOk? ==> r.error.None? && r.session == reply.session
    ensures reply.AuthOk? ==> (r.user.Some? <==> reply.user.Some?)
    ensures reply.AuthOk? && reply.user.Some? ==>
              r.user.value.id == reply.user.value.id && r.user.value.email == reply.user.value.email
  {
    match reply
    case AuthFailed(m) => AuthResponse(None, None, Some(m))
    case AuthOk(u, s) =>
      AuthResponse(if u.Some? then Some(UserSummary(u.value.id, u.value.email)) else None, s, None)
  }

  /** `signUp(credentials)`: the request sent and the result returned. */
  function SignUp(c: SignUpCredentials, reply: AuthReply): (r: (SignUpRequest, AuthResponse))
    ensures r.0 == SignUpRequest(c.email, c.password, c.full_name)
    ensures r.1.error.Some? <==> reply.AuthFailed?
    ensures r.1.error.Some? ==> r.1.user.None? && r.1.session.None?
  {
    (SignUpRequestOf(c), ToAuthResponse(reply))
  }

  /** `signIn(credentials)`. */
  function SignIn(c: SignInCredentials, reply: AuthReply): (r: AuthResponse)
    ensures r.error.Some? <==> reply.AuthFailed?
    ensures r.error.Some? ==> r.user.None? && r.session.None?
    ensures reply.AuthOk? ==> r.session == reply.session
  {
    ToAuthResponse(reply)
  }

  /** A sign-out: the scope requested, the error returned, and the local
      storage keys left afterwards. */
  datatype SignOutResult = SignOutResult(scope: string, error: Option<string>, storage: set<string>)

  /** `signOut()`: asks for a "global" sign-out; the local token entry is
      removed only after the service accepted it; on an error local storage
      is untouched and the error returned. */
  function SignOut(storage: set<string>, ack: Ack): (r: SignOutResult)
    ensures r.scope == "global"
    ensures ack.Done? ==> r.error.None? && r.storage == storage - {"supabase.auth.token"}
    ensures ack.Rejected? ==> r.error == Some(ack.message) && r.storage == storage
  {
    match ack
    case Done => SignOutResult(SIGN_OUT_SCOPE, None, storage - {TOKEN_KEY})
    case Rejected(m) => SignOutResult(SIGN_OUT_SCOPE, Some(m), storage)
  }

  /** Signing out again after a successful sign-out succeeds and changes
      nothing more. */
  lemma SignOutIdempotent(storage: set<string>)
    ensures SignOut(SignOut(storage, Done).storage, Done) == SignOut(storage, Done)
    ensures TOKEN_KEY !in SignOut(storage, Done).storage
  {
    assert (storage - {TOKEN_KEY}) - {TOKEN_KEY} == storage - {TOKEN_KEY};
  }

  /** What `getSession()` answered. */
  datatype SessionReply = SessionOk(session: Option<Session>) | SessionFailed(message: string)

  /** `getSession()`: `{session, error: null}` or `{session: null, error}`. */
  function GetSession(reply: SessionReply): (r: (Option<Session>, Option<string>))
    ensures reply.SessionOk? ==> r == (reply.session, None)
    ensures reply.SessionFailed? ==> r == (None, Some(reply.message))
  {
    match reply
    case SessionOk(s) => (s, None)
    case SessionFailed(m) => (None, Some(m))
  }

  /** What `getUser()` did: returned `{data: {user}, error}`, or threw. */
  datatype UserReply = UserReturned(user: Option<AuthUser>, error: Option<string>) | UserThrew(message: string)

  /** `getCurrentUser()`: only a thrown exception yields an error; an
      `error` the service returns is not looked at. */
  function GetCurrentUser(reply: UserReply): (r: (Option<AuthUser>, Option<string>))
    ensures r.1.Some? <==> reply.UserThrew?
    ensures reply.UserThrew? ==> r == (None, Some(reply.message))
    ensures reply.UserReturned? ==> r.0 == reply.user
  {
    match reply
    case UserReturned(u, _) => (u, None)
    case UserThrew(m) => (None, Some(m))
  }

  /** A `profiles` row. */
  datatype ProfileRow = ProfileRow(
    id: string,
    username: string,
    full_name: string,
    avatar_url: string,
    email: string,
    phone: string,
    bio: string,
    role: string,
    status: string,
    store_name: string,
    updated_at: string)

  /** `ProfileUpdateData`: absent fields are not sent. */
  datatype ProfilePatch = ProfilePatch(
    username: Option<string>,
    full_name: Option<string>,
    avatar_url: Option<string>,
    phone: Option<string>,
    bio: Option<string>,
    store_name: Option<string>)

  /** `{...data, updated_at: now}` applied to a row. */
  function ApplyPatch(row: ProfileRow, patch: ProfilePatch, now: string): ProfileRow {
    row.(username := patch.username.GetOr(row.username),
         full_name := patch.full_name.GetOr(row.full_name),
         avatar_url := patch.avatar_url.GetOr(row.avatar_url),
         phone := patch.phone.GetOr(row.phone),
         bio := patch.bio.GetOr(row.bio),
         store_name := patch.store_name.GetOr(row.store_name),
         updated_at := now)
  }

  /** A patched field: the sent value when present, the old one otherwise. */
  predicate Takes(sent: Option<string>, before: string, after: string) {
    (sent.Some? ==> after == sent.value) && (sent.None? ==> after == before)
  }

  /** `updateProfile(userId, data)`: writes the patch and the timestamp to
      the row whose id is `userId` and no other; returns `{error}`. */
  function UpdateProfile(rows: seq<ProfileRow>, userId: string, patch: ProfilePatch, now: string, ack: Ack)
    : (w: Write<ProfileRow, Option<string>>)
    ensures ack.Rejected? ==> w.table == rows && w.value == Some(ack.message)
    ensures ack.Done? ==> w.value.None?
    ensures |w.table| == |rows|
    ensures ack.Done? ==> forall i :: 0 <= i < |rows| ==>
      if rows[i].id == userId then
        w.table[i].id == userId && w.table[i].updated_at == now
        && w.table[i].role == rows[i].role && w.table[i].email == rows[i].email
        && w.table[i].status == rows[i].status
        && Takes(patch.username, rows[i].username, w.table[i].username)
        && Takes(patch.full_name, rows[i].full_name, w.table[i].full_name)
        && Takes(patch.avatar_url, rows[i].avatar_url, w.table[i].avatar_url)
        && Takes(patch.phone, rows[i].phone, w.table[i].phone)
        && Takes(patch.bio, rows[i].bio, w.table[i].bio)
        && Takes(patch.store_name, rows[i].store_name, w.table[i].store_name)
      else w.table[i] == rows[i]
  {
    match ack
    case Rejected(m) => Write(rows, Some(m))
    case Done =>
      var p := (x: ProfileRow) => x.id == userId;
      var f := (x: ProfileRow) => ApplyPatch(x, patch, now);
      UpdateWhereSpec(rows, p, f);
      Write(UpdateWhere(rows, p, f), None)
  }
}

=== FILE: auth_context.dfy ===
/** `AuthProvider` / `useAuth`: what the context exposes, derived from the
    cached user query and the listener flag. */
module AuthContext {
  import opened Common
  import opened Seqs
  import opened AuthApi
  import opened UserQuery

  /** The context value, without the four pass-through callbacks. */
  datatype Context = Context(
    user: Option<AuthUser>,
    profile: Option<ProfileRow>,
    isLoading: bool,
    isAuthenticated: bool)

  /** The value the provider publishes. `data` is the user query's data,
      `queryLoading` its loading flag, `initialized` whether the auth
      listener has been installed. */
  function Derive(data: Option<UserData>, queryLoading: bool, initialized: bool): (c: Context)
    ensures c.isAuthenticated <==> c.user.Some?
    ensures data.None? ==> c.user.None? && c.profile.None?
    ensures data.Some? ==> c.user == Some(data.value.user) && c.profile == data.value.profile
    ensures c.isLoading <==> queryLoading || !initialized
  {
    match data
    case None => Context(None, None, queryLoading || !initialized, false)
    case Some(d) => Context(Some(d.user), d.profile, queryLoading || !initialized, true)
  }

  /** The events the auth listener can receive. */
  datatype AuthEvent =
    | InitialSession
    | SignedIn
    | SignedOut
    | TokenRefreshed
    | UserUpdated
    | PasswordRecovery

  /** The listener refetches the user query on sign-in, token refresh and
      sign-out, and does nothing on every other event. */
  predicate Refetches(e: AuthEvent) {
    e == SignedIn || e == TokenRefreshed || e == SignedOut
  }

  /** The refetches a stream of events triggers, one per qualifying event,
      counted from the back as the events arrive: exactly the number of
      refetching events the stream holds. */
  function RefetchCount(events: seq<AuthEvent>): (n: nat)
    ensures n <= |events|
    ensures n == Count(events, Refetches)
    decreases |events|
  {
    if |events| == 0 then 0
    else
      var init := events[..|events| - 1];
      var last := events[|events| - 1];
      assert events == init + [last];
      FilterAppend(init, [last], Refetches);
      assert [last][1..] == [];
      RefetchCount(init) + (if Refetches(last) then 1 else 0)
  }

  /** A stream without sign-in, token refresh or sign-out triggers nothing,
      and one with any of them triggers a refetch. */
  lemma RefetchCountIsCount(events: seq<AuthEvent>)
    ensures RefetchCount(events) == 0 <==> forall i :: 0 <= i < |events| ==> !Refetches(events[i])
  {
  }

  const OUTSIDE_PROVIDER := "useAuth must be used within an AuthProvider"

  /** `useAuth()`: the nearest provider's value, or the fixed error outside
      any provider. */
  function UseAuth(provided: Option<Context>): (r: Result<Context>)
    ensures provided.None? <==> r == Err("useAuth must be used within an AuthProvider")
    ensures provided.Some? ==> r == Ok(provided.value)
  {
    match provided
    case None => Err(OUTSIDE_PROVIDER)
    case Some(c) => Ok(c)
  }
}

/** `PrivateRoute`: the three-way choice a guarded route makes. */
module PrivateRoute {
  import opened Common
  import opened UserQuery
  import AuthContext

  datatype Outcome = LoadingScreen | Redirect(to: string, replace: bool) | RenderChildren

  /** Loading wins over everything; then an unauthenticated user is sent to
      the sign-in page, replacing the history entry. */
  function Decide(isAuthenticated: bool, isLoading: bool): (o: Outcome)
    ensures isLoading ==> o == LoadingScreen
    ensures !isLoading && !isAuthenticated ==> o == Redirect("/signin", true)
    ensures o == RenderChildren <==> !isLoading && isAuthenticated
  {
    if isLoading then LoadingScreen
    else if !isAuthenticated then Redirect("/signin", true)
    else RenderChildren
  }

  /** The route as mounted: it reads the context through `useAuth`, so
      outside a provider it fails with that hook's error. */
  function Guard(provided: Option<AuthContext.Context>): (r: Result<Outcome>)
    ensures provided.None? ==> r == Err(AuthContext.OUTSIDE_PROVIDER)
    ensures provided.Some? ==> r == Ok(Decide(provided.value.isAuthenticated, provided.value.isLoading))
  {
    match AuthContext.UseAuth(provided)
    case Err(m) => Err(m)
    case Ok(c) => Ok(Decide(c.isAuthenticated, c.isLoading))
  }

  /** Under a provider, the children are shown exactly when the user query
      has settled with a user and the auth listener is installed; until the
      listener is installed the loading screen shows even for a cached
      user. */
  lemma ChildrenIffSignedIn(data: Option<UserData>, queryLoading: bool, initialized: bool)
    ensures var o := Guard(Some(AuthContext.Derive(data, queryLoading, initialized)));
            (o == Ok(RenderChildren) <==> data.Some? && !queryLoading && initialized)
            && (o == Ok(Redirect("/signin", true)) <==> data.None? && !queryLoading && initialized)
            && (o == Ok(LoadingScreen) <==> queryLoading || !initialized)
  {
  }
}

=== FILE: auth_forms.dfy ===
/** The notifications the sign-in, sign-up and profile forms raise. */
module Feedback {

  datatype Toast = Toast(title: string, description: string, destructive: bool)

  /** `err.message || fallback`: an empty message gives way to the form's
      own text. */
  function ErrorMessage(message: string, fallback: string): (r: string)
    ensures message != "" ==> r == message
    ensures message == "" ==> r == fallback
  {
    if message != "" then message else fallback
  }

  function ErrorToast(message: string, fallback: string): (t: Toast)
    ensures t.title == "Error" && t.destructive && t.description == ErrorMessage(message, fallback)
  {
    Toast("Error", ErrorMessage(message, fallback), true)
  }

  function SuccessToast(description: string): (t: Toast)
    ensures t.title == "Success" && !t.destructive && t.description == description
  {
    Toast("Success", description, false)
  }
}

/** The sign-in page. */
module SignInPage {
  import opened Common
  import opened AuthApi
  import opened Feedback

  datatype Page = Page(email: string, password: string, error: Option<string>, isLoading: bool)

  const MISSING_FIELDS := "Please enter both email and password."
  const NO_SESSION := "No session returned from sign in"
  const SIGN_IN_FAILED := "Failed to sign in. Please try again."

  /** What one submit does: the page afterwards, the credentials sent (if
      any), the toast raised (if any) and where it navigates (if
      anywhere). */
  datatype Submission = Submission(
    page: Page,
    request: Option<SignInCredentials>,
    toast: Option<Toast>,
    navigate: Option<string>)

  /** The page sends an already signed-in visitor to the dashboard. */
  function RedirectIfAuthenticated(isAuthenticated: bool): (r: Option<string>)
    ensures r.Some? <==> isAuthenticated
    ensures r.Some? ==> r.value == "/dashboard"
  {
    if isAuthenticated then Some("/dashboard") else None
  }

  /** `handleSubmit`. `reply` is what the auth service answers if it is
      asked. */
  function Submit(p: Page, reply: AuthReply): (s: Submission)
    ensures s.request.Some? <==> p.email != "" && p.password != ""
    ensures s.request.None? ==>
              s.page == p.(error := Some("Please enter both email and password.")) && s.toast.None? && s.navigate.None?
    ensures s.request.Some? ==> s.request.value == SignInCredentials(p.email, p.password) && !s.page.isLoading
    ensures s.request.Some? ==> s.page.email == p.email && s.page.password == p.password
    ensures s.navigate.Some? <==> s.request.Some? && reply.AuthOk? && reply.session.Some?
    ensures s.navigate.Some? ==> s.navigate.value == "/dashboard" && s.page.error.None?
    ensures s.request.Some? && reply.AuthFailed? ==>
              s.page.error == Some(ErrorMessage(reply.message, "Failed to sign in. Please try again."))
    ensures s.request.Some? && reply.AuthOk? && reply.session.None? ==>
              s.page.error == Some("No session returned from sign in")
    ensures s.request.Some? && s.navigate.None? ==>
              s.page.error.Some? && s.toast == Some(ErrorToast(s.page.error.value, SIGN_IN_FAILED))
  {
    if p.email == "" || p.password == "" then
      Submission(p.(error := Some(MISSING_FIELDS)), None, None, None)
    else
      var creds := SignInCredentials(p.email, p.password);
      var response := SignIn(creds, reply);
      var done := p.(isLoading := false);
      if response.error.Some? then
        var m := ErrorMessage(response.error.value, SIGN_IN_FAILED);
        Submission(done.(error := Some(m)), Some(creds), Some(ErrorToast(m, SIGN_IN_FAILED)), None)
      else if response.session.None? then
        Submission(done.(error := Some(NO_SESSION)), Some(creds), Some(ErrorToast(NO_SESSION, SIGN_IN_FAILED)), None)
      else
        Submission(done.(error := None), Some(creds), Some(SuccessToast("Signed in successfully.")), Some("/dashboard"))
  }

  /** Every validated submit ends in exactly one of two ways: it navigates
      with no error shown, or it shows an error and stays; and the error it
      shows is never empty. */
  lemma SubmitOutcomeExclusive(p: Page, reply: AuthReply)
    requires p.email != "" && p.password != ""
    ensures Submit(p, reply).navigate.Some? <==> Submit(p, reply).page.error.None?
    ensures Submit(p, reply).page.error.Some? ==> Submit(p, reply).page.error.value != ""
  {
  }
}

/** The sign-up page of the admin app. */
module SignUpPage {
  import opened Common
  import opened AuthApi
  import opened Feedback

  datatype Form = Form(name: string, email: string, password: string, storeName: string)

  const ACCOUNT_TYPE := "admin"
  const MISSING_FIELDS := "Please fill in all required fields."
  const SIGN_UP_FAILED := "Failed to create account. Please try again."
  const CREATED := "Account created successfully. Please check your email to confirm your account."

  /** A navigation scheduled after a delay in milliseconds. */
  datatype Delayed = Delayed(path: string, afterMs: nat)

  datatype Submission = Submission(
    request: Option<SignUpCredentials>,
    toast: Toast,
    navigate: Option<Delayed>,
    isLoading: bool)

  /** The credentials the page hands to `signUp`. */
  function CredentialsOf(f: Form): (c: SignUpCredentials)
    ensures c.email == f.email && c.password == f.password && c.full_name == Some(f.name)
    ensures c.role == Some("admin") && c.store_name.None?
  {
    SignUpCredentials(f.email, f.password, Some(f.name), Some(ACCOUNT_TYPE), None)
  }

  /** `handleSubmit`. `isLoading` is the flag before the submit. */
  function Submit(f: Form, isLoading: bool, reply: AuthReply): (s: Submission)
    ensures s.request.Some? <==> f.name != "" && f.email != "" && f.password != ""
    ensures s.request.None? ==> s.toast == ErrorToast(MISSING_FIELDS, MISSING_FIELDS) && s.navigate.None?
                                && s.isLoading == isLoading
    ensures s.request.Some? ==> s.request.value == CredentialsOf(f) && !s.isLoading
    ensures s.navigate.Some? <==> s.request.Some? && reply.AuthOk?
    ensures s.navigate.Some? ==> s.navigate.value == Delayed("/signin", 1500) && s.toast == SuccessToast(CREATED)
    ensures s.request.Some? && reply.AuthFailed? ==> s.toast == ErrorToast(reply.message, SIGN_UP_FAILED)
  {
    if f.email == "" || f.password == "" || f.name == "" then
      Submission(None, ErrorToast(MISSING_FIELDS, MISSING_FIELDS), None, isLoading)
    else
      var creds := CredentialsOf(f);
      var (_, response) := SignUp(creds, reply);
      if response.error.Some? then
        Submission(Some(creds), ErrorToast(response.error.value, SIGN_UP_FAILED), None, false)
      else
        Submission(Some(creds), SuccessToast(CREATED), Some(Delayed("/signin", 1500)), false)
  }

  /** The store name field is never sent, and of the fixed "admin" role the
      auth service receives nothing: it sees only email, password and the
      name as `full_name`. */
  lemma StoreNameAndRoleNeverSent(f: Form, store: string, isLoading: bool, reply: AuthReply)
    ensures Submit(f.(storeName := store), isLoading, reply) == Submit(f, isLoading, reply)
    ensures SignUp(CredentialsOf(f), reply).0 == SignUpRequest(f.email, f.password, Some(f.name))
  {
  }
}

/** The reusable sign-up form. */
module SignUpForm {
  import opened Common
  import opened AuthApi
  import opened Feedback

  datatype Form = Form(email: string, password: string, fullName: string, storeName: string)

  const MISSING_FIELDS := "Please enter email and password."
  const SIGN_UP_FAILED := "Failed to create account. Please try again."
  const CREATED := "Account created successfully. Please check your email to confirm your account."

  datatype Submission = Submission(
    request: Option<SignUpCredentials>,
    toast: Toast,
    onSuccessCalled: bool,
    isLoading: bool)

  /** The credentials built from the fields: a vendor role and the store
      name when the store field is shown, a user role and no store name
      otherwise. The full name is sent even when empty. */
  function CredentialsOf(f: Form, showStoreField: bool): (c: SignUpCredentials)
    ensures c.email == f.email && c.password == f.password && c.full_name == Some(f.fullName)
    ensures c.role == Some("vendor") <==> showStoreField
    ensures c.role == Some("user") <==> !showStoreField
    ensures c.store_name.Some? <==> showStoreField
    ensures c.store_name.Some? ==> c.store_name.value == f.storeName
  {
    SignUpCredentials(f.email, f.password, Some(f.fullName),
                      Some(if showStoreField then "vendor" else "user"),
                      if showStoreField then Some(f.storeName) else None)
  }

  /** `handleSubmit`. `showStoreField` is the prop (default false),
      `hasOnSuccess` whether the `onSuccess` prop was given. */
  function Submit(f: Form, showStoreField: bool, hasOnSuccess: bool, isLoading: bool, reply: AuthReply)
    : (s: Submission)
    ensures s.request.Some? <==> f.email != "" && f.password != ""
    ensures s.request.None? ==> s.toast == ErrorToast(MISSING_FIELDS, MISSING_FIELDS) && !s.onSuccessCalled
                                && s.isLoading == isLoading
    ensures s.request.Some? ==> s.request.value == CredentialsOf(f, showStoreField) && !s.isLoading
    ensures s.onSuccessCalled <==> s.request.Some? && reply.AuthOk? && hasOnSuccess
    ensures s.request.Some? && reply.AuthOk? ==> s.toast == SuccessToast(CREATED)
    ensures s.request.Some? && reply.AuthFailed? ==> s.toast == ErrorToast(reply.message, SIGN_UP_FAILED)
  {
    if f.email == "" || f.password == "" then
      Submission(None, ErrorToast(MISSING_FIELDS, MISSING_FIELDS), false, isLoading)
    else
      var creds := CredentialsOf(f, showStoreField);
      var (_, response) := SignUp(creds, reply);
      if response.error.Some? then
        Submission(Some(creds), ErrorToast(response.error.value, SIGN_UP_FAILED), false, false)
      else
        Submission(Some(creds), SuccessToast(CREATED), hasOnSuccess, false)
  }

  /** The role and store name the form derives are dropped by `signUp`: a
      vendor sign-up and a user sign-up with the same fields send the same
      request to the auth service. */
  lemma VendorFieldsDropped(f: Form, reply: AuthReply)
    ensures SignUp(CredentialsOf(f, true), reply) == SignUp(CredentialsOf(f, false), reply)
  {
  }
}

/** The reusable sign-in form. */
module SignInForm {
  import opened Common
  import opened AuthApi
  import opened Feedback
  import SignInPage

  const MISSING_FIELDS := "Please enter both email and password."
  const SIGN_IN_FAILED := "Failed to sign in. Please try again."

  datatype Submission = Submission(
    request: Option<SignInCredentials>,
    toast: Toast,
    onSuccessCalled: bool,
    isLoading: bool)

  /** `handleSubmit`. Unlike the sign-in page, a missing session is not
      an error here: only the `error` field decides. */
  function Submit(email: string, password: string, hasOnSuccess: bool, isLoading: bool, reply: AuthReply)
    : (s: Submission)
    ensures s.request.Some? <==> email != "" && password != ""
    ensures s.request.None? ==> s.toast == ErrorToast(MISSING_FIELDS, MISSING_FIELDS) && !s.onSuccessCalled
                                && s.isLoading == isLoading
    ensures s.request.Some? ==> s.request.value == SignInCredentials(email, password) && !s.isLoading
    ensures s.onSuccessCalled <==> s.request.Some? && reply.AuthOk? && hasOnSuccess
    ensures s.request.Some? && reply.AuthOk? ==> s.toast == SuccessToast("Signed in successfully.")
    ensures s.request.Some? && reply.AuthFailed? ==> s.toast == ErrorToast(reply.message, SIGN_IN_FAILED)
  {
    if email == "" || password == "" then
      Submission(None, ErrorToast(MISSING_FIELDS, MISSING_FIELDS), false, isLoading)
    else
      var creds := SignInCredentials(email, password);
      var response := SignIn(creds, reply);
      if response.error.Some? then
        Submission(Some(creds), ErrorToast(response.error.value, SIGN_IN_FAILED), false, false)
      else
        Submission(Some(creds), SuccessToast("Signed in successfully."), hasOnSuccess, false)
  }

  /** The form and the page disagree on one answer: a reply with no error
      and no session counts as success for the form but is an error, with
      no navigation, on the page. */
  lemma SessionlessReplyDisagreement(email: string, password: string, user: Option<AuthUser>)
    requires email != "" && password != ""
    ensures Submit(email, password, true, false, AuthOk(user, None)).onSuccessCalled
    ensures SignInPage.Submit(SignInPage.Page(email, password, None, false), AuthOk(user, None)).navigate.None?
  {
  }
}

/** The profile form. */
module ProfileForm {
  import opened Common
  import opened Seqs
  import opened Backend
  import opened AuthApi
  import opened Feedback

  /** The six editable fields. */
  datatype FormData = FormData(
    username: string,
    full_name: string,
    avatar_url: string,
    phone: string,
    bio: string,
    store_name: string)

  const EMPTY_FORM := FormData("", "", "", "", "", "")

  /** The input names `handleChange` dispatches on. */
  datatype Field = Username | FullName | AvatarUrl | Phone | Bio | StoreName

  function Get(f: FormData, field: Field): string {
    match field
    case Username => f.username
    case FullName => f.full_name
    case AvatarUrl => f.avatar_url
    case Phone => f.phone
    case Bio => f.bio
    case StoreName => f.store_name
  }

  /** The effect on `profile`: a loaded profile fills every field (a row
      field is a string, so `x || ""` keeps it); no profile leaves the form
      as it is. */
  function InitFrom(profile: Option<ProfileRow>, current: FormData): (r: FormData)
    ensures profile.None? ==> r == current
    ensures profile.Some? ==>
              r.username == profile.value.username && r.full_name == profile.value.full_name
              && r.avatar_url == profile.value.avatar_url && r.phone == profile.value.phone
              && r.bio == profile.value.bio && r.store_name == profile.value.store_name
  {
    match profile
    case None => current
    case Some(p) => FormData(p.username, p.full_name, p.avatar_url, p.phone, p.bio, p.store_name)
  }

  /** `handleChange`: the named field takes the typed value. */
  function HandleChange(f: FormData, field: Field, value: string): (r: FormData)
    ensures Get(r, field) == value
    ensures forall other :: other != field ==> Get(r, other) == Get(f, other)
  {
    match field
    case Username => f.(username := value)
    case FullName => f.(full_name := value)
    case AvatarUrl => f.(avatar_url := value)
    case Phone => f.(phone := value)
    case Bio => f.(bio := value)
    case StoreName => f.(store_name := value)
  }

  /** Typing into one field and back restores the form. */
  lemma HandleChangeUndo(f: FormData, field: Field, value: string)
    ensures HandleChange(HandleChange(f, field, value), field, Get(f, field)) == f
  {
  }

  /** The store name input is shown to vendors only. */
  predicate ShowsStoreField(profile: ProfileRow) {
    profile.role == "vendor"
  }

  /** The form as the update payload: every field, the store name
      included whatever the role. */
  function PatchOf(f: FormData): (p: ProfilePatch)
    ensures p.username == Some(f.username) && p.full_name == Some(f.full_name)
    ensures p.avatar_url == Some(f.avatar_url) && p.phone == Some(f.phone)
    ensures p.bio == Some(f.bio) && p.store_name == Some(f.store_name)
  {
    ProfilePatch(Some(f.username), Some(f.full_name), Some(f.avatar_url), Some(f.phone), Some(f.bio),
                 Some(f.store_name))
  }

  const NO_USER := "User not found. Please sign in again."
  const UPDATE_FAILED := "Failed to update profile. Please try again."

  datatype Submission = Submission(rows: seq<ProfileRow>, called: bool, toast: Toast)

  /** `handleSubmit` against the `profiles` table: without a user id it
      only raises a toast; otherwise it writes the whole form to the row
      with the user's id. */
  function Submit(user: Option<AuthUser>, f: FormData, rows: seq<ProfileRow>, now: string, ack: Ack)
    : (s: Submission)
    ensures s.called <==> user.Some? && user.value.id != ""
    ensures !s.called ==> s.rows == rows && s.toast == ErrorToast(NO_USER, NO_USER)
    ensures s.called ==> s.rows == UpdateProfile(rows, user.value.id, PatchOf(f), now, ack).table
    ensures s.called && ack.Done? ==> s.toast == SuccessToast("Profile updated successfully.")
    ensures s.called && ack.Rejected? ==> s.rows == rows && s.toast == ErrorToast(ack.message, UPDATE_FAILED)
  {
    if user.None? || user.value.id == "" then Submission(rows, false, ErrorToast(NO_USER, NO_USER))
    else
      var w := UpdateProfile(rows, user.value.id, PatchOf(f), now, ack);
      match w.value
      case Some(m) => Submission(w.table, true, ErrorToast(m, UPDATE_FAILED))
      case None => Submission(w.table, true, SuccessToast("Profile updated successfully."))
  }

  /** A saved form lands in full on the user's row: all six fields take the
      form's values, the timestamp is `now`, everything else on that row and
      every other row stays. */
  lemma {:induction false} SubmitWritesForm(u: AuthUser, f: FormData, rows: seq<ProfileRow>, now: string)
    requires u.id != ""
    ensures var out := Submit(Some(u), f, rows, now, Done).rows;
            |out| == |rows|
            && forall i :: 0 <= i < |rows| ==>
                 if rows[i].id == u.id then
                   out[i] == rows[i].(username := f.username, full_name := f.full_name,
                                      avatar_url := f.avatar_url, phone := f.phone, bio := f.bio,
                                      store_name := f.store_name, updated_at := now)
                 else out[i] == rows[i]
  {
    UpdateWhereSpec(rows, (x: ProfileRow) => x.id == u.id, (x: ProfileRow) => ApplyPatch(x, PatchOf(f), now));
  }

  /** Saving a form freshly loaded from a row, without edits, rewrites that
      row with its own values: only the timestamp changes. */
  lemma SaveUnchangedTouchesOnlyTimestamp(row: ProfileRow, now: string)
    ensures ApplyPatch(row, PatchOf(InitFrom(Some(row), EMPTY_FORM)), now) == row.(updated_at := now)
  {
  }
}

=== FILE: backend.dfy ===
/** The hosted table service as the data-access layer sees it. A remote
    table is a sequence of rows; what the service answered is a parameter,
    so every error path can be chosen by the caller of the model. */
module Backend {
  import opened Common
  import opened Seqs

  /** Answer to a plain `select`: the rows the filter selects, a `null`
      payload without an error, or an error. */
  datatype Reply = Answered | AnsweredNull | Failed(message: string)

  /** Answer to a write, or to a call ending in `.single()`: the service
      accepted it, or returned an error. */
  datatype Ack = Done | Rejected(message: string)

  /** A table after a call together with what the call returned. */
  datatype Write<T, V> = Write(table: seq<T>, value: V)

  /** Result of `data[0]` on an `eq` select inside a try/catch that returns
      `null`: a row, `undefined` (no row matched), or `null`. */
  datatype Lookup<T> = Found(row: T) | Undefined | Null

  /** The first element satisfying `p`, as `Filter(s, p)[0]`. */
  lemma {:induction false} FilterHeadIsFirst<T(!new)>(s: seq<T>, p: T -> bool)
    requires |Filter(s, p)| > 0
    ensures exists k :: 0 <= k < |s| && s[k] == Filter(s, p)[0] && p(s[k])
                        && forall j :: 0 <= j < k ==> !p(s[j])
    decreases |s|
  {
    if p(s[0]) {
      assert s[0] == Filter(s, p)[0];
    } else {
      assert Filter(s, p) == Filter(s[1..], p);
      FilterHeadIsFirst(s[1..], p);
      var k :| 0 <= k < |s[1..]| && s[1..][k] == Filter(s[1..], p)[0] && p(s[1..][k])
               && forall j :: 0 <= j < k ==> !p(s[1..][j]);
      assert s[k + 1] == s[1..][k];
      assert forall j :: 0 <= j < k + 1 ==> !p(s[j]) by {
        forall j | 0 <= j < k + 1 ensures !p(s[j]) {
          if j > 0 {
            assert s[j] == s[1..][j - 1];
          }
        }
      }
    }
  }
}

=== FILE: card_stats.dfy ===
/** `CardStats`: a statistic card whose footer is a month-on-month trend or,
    without a trend, an optional description. */
module CardStats {
  import opened Common

  /** A trend. The source's value is a number; it is an integer here. */
  datatype Trend = Trend(value: int, isPositive: bool)

  /** What the footer shows. */
  datatype Footer =
    | TrendLine(colorClass: string, sign: string, magnitude: nat)
    | DescriptionLine(text: string)
    | NoFooter

  function Abs(x: int): (r: nat)
    ensures r == x || r == -x
  {
    if x < 0 then -x else x
  }

  /** The card's footer. The sign follows the flag, not the value: a
      positive flag on a negative value still shows "+". */
  function RenderFooter(trend: Option<Trend>, description: Option<string>): (f: Footer)
    ensures f.TrendLine? <==> trend.Some?
    ensures f.TrendLine? ==> (f.sign == "+" <==> trend.value.isPositive)
    ensures f.TrendLine? ==> (f.sign == "-" <==> !trend.value.isPositive)
    ensures f.TrendLine? ==> (f.colorClass == "text-green-500" <==> trend.value.isPositive)
    ensures f.TrendLine? ==> (f.colorClass == "text-red-500" <==> !trend.value.isPositive)
    ensures f.TrendLine? ==> f.magnitude == Abs(trend.value.value)
    ensures f.DescriptionLine? <==> trend.None? && Truthy(description)
    ensures f.DescriptionLine? ==> f.text == description.value
  {
    match trend
    case Some(t) =>
      TrendLine(if t.isPositive then "text-green-500" else "text-red-500",
                if t.isPositive then "+" else "-",
                Abs(t.value))
    case None => if Truthy(description) then DescriptionLine(description.value) else NoFooter
  }

  /** Negating the value changes nothing on screen, and a trend hides the
      description whatever it is. */
  lemma TrendIgnoresValueSign(v: int, positive: bool, d: Option<string>, e: Option<string>)
    ensures RenderFooter(Some(Trend(v, positive)), d) == RenderFooter(Some(Trend(-v, positive)), e)
  {
  }
}

=== FILE: common.dfy ===
/** Failure-carrying wrappers shared by every module of the model.
    `Option` stands for a JavaScript value that may be `null`/`undefined`,
    `Result` for a promise that resolves with a value or rejects with an
    error message. */
module Common {

  datatype Option<+T> = None | Some(value: T) {
    /** The value, or `d` when absent (JavaScript's `x ?? d`). */
    function GetOr(d: T): T {
      match this
      case Some(v) => v
      case None => d
    }
  }

  datatype Result<+T> = Ok(value: T) | Err(message: string)

  /** JavaScript truthiness of an optional string: `null`, `undefined` and
      the empty string are all falsy. */
  predicate Truthy(s: Option<string>) {
    s.Some? && s.value != ""
  }

  /** `a || b` on two optional strings, as used for `x || ""` and `x || null`. */
  function OrElse(a: Option<string>, b: Option<string>): (r: Option<string>)
    ensures Truthy(a) ==> r == a
    ensures !Truthy(a) ==> r == b
  {
    if Truthy(a) then a else b
  }
}

=== FILE: document_viewer.dfy ===
/** `DocumentViewerModal`: a dialog that embeds an image or a PDF (through
    the Google Docs viewer), tracks whether the embedded element has loaded
    or failed, and falls back to links when it cannot show the document. */
module DocumentViewer {
  import opened Common
  import opened Text

  datatype DocType = Image | Pdf | Other

  /** The `documentType` prop, defaulted to "image" when absent. */
  function ResolveType(t: Option<DocType>): (r: DocType)
    ensures t.None? ==> r == Image
    ensures t.Some? ==> r == t.value
  {
    t.GetOr(Image)
  }

  /** The three pieces of component state. */
  datatype ViewerState = ViewerState(isLoading: bool, error: Option<string>, showFallback: bool)

  const LOAD_ERROR := "Failed to load document. Please try again later."

  /** The initial state: loading, no error, no fallback. */
  function Init(): (st: ViewerState)
    ensures st.isLoading && st.error.None? && !st.showFallback
  {
    ViewerState(true, None, false)
  }

  /** The reset effect, run when the dialog opens or the URL changes: with
      the dialog open and a non-empty URL the state starts over; otherwise
      it is left alone. */
  function OnOpenOrUrlChange(isOpen: bool, url: string, st: ViewerState): (r: ViewerState)
    ensures isOpen && url != "" ==> r == Init()
    ensures !(isOpen && url != "") ==> r == st
  {
    if isOpen && url != "" then Init() else st
  }

  /** `handleLoad`: the spinner goes away; nothing else changes. */
  function HandleLoad(st: ViewerState): (r: ViewerState)
    ensures !r.isLoading && r.error == st.error && r.showFallback == st.showFallback
  {
    st.(isLoading := false)
  }

  /** `handleError`: the first failure of a PDF switches to the fallback;
      any other failure sets the fixed error message. */
  function HandleError(t: DocType, st: ViewerState): (r: ViewerState)
    ensures !r.isLoading
    ensures t == Pdf && !st.showFallback ==> r.showFallback && r.error == st.error
    ensures !(t == Pdf && !st.showFallback) ==> r.error == Some(LOAD_ERROR) && r.showFallback == st.showFallback
  {
    if t == Pdf && !st.showFallback then st.(isLoading := false, showFallback := true)
    else st.(isLoading := false, error := Some(LOAD_ERROR))
  }

  /** The Google Docs viewer address for a PDF. `encode` stands for
      `encodeURIComponent`. */
  function GoogleDocsUrl(url: string, encode: string -> string): (r: string)
    ensures |r| == 35 + |encode(url)| + 14
    ensures r[..35] == "https://docs.google.com/viewer?url="
    ensures r[|r| - 14..] == "&embedded=true"
    ensures r[35..|r| - 14] == encode(url)
  {
    "https://docs.google.com/viewer?url=" + encode(url) + "&embedded=true"
  }

  /** What `renderContent` shows. The frames carry their source and whether
      the spinner overlay is drawn over them. */
  datatype Content =
    | NoDocument
    | ErrorPanel(message: string)
    | PdfFallback
    | PdfFrame(src: string, spinner: bool)
    | ImageFrame(src: string, spinner: bool)
    | CannotPreview

  /** Whether the content holds an element that reports load and error. */
  predicate Emits(c: Content) {
    c.PdfFrame? || c.ImageFrame?
  }

  /** `renderContent()`: no URL first, then an error, then by type. */
  function RenderContent(url: string, t: DocType, st: ViewerState, encode: string -> string): (c: Content)
    ensures url == "" <==> c == NoDocument
    ensures url != "" && Truthy(st.error) ==> c == ErrorPanel(st.error.value)
    ensures c.PdfFallback? <==> url != "" && !Truthy(st.error) && t == Pdf && st.showFallback
    ensures c.PdfFrame? <==> url != "" && !Truthy(st.error) && t == Pdf && !st.showFallback
    ensures c.PdfFrame? ==> c.src == GoogleDocsUrl(url, encode) && c.spinner == st.isLoading
    ensures c.ImageFrame? <==> url != "" && !Truthy(st.error) && t == Image
    ensures c.ImageFrame? ==> c.src == url && c.spinner == st.isLoading
    ensures c == CannotPreview <==> url != "" && !Truthy(st.error) && t == Other
  {
    if url == "" then NoDocument
    else if Truthy(st.error) then ErrorPanel(st.error.value)
    else match t
      case Pdf => if st.showFallback then PdfFallback else PdfFrame(GoogleDocsUrl(url, encode), st.isLoading)
      case Image => ImageFrame(url, st.isLoading)
      case Other => CannotPreview
  }

  /** A load or error reported by the embedded element. */
  datatype MediaEvent = LoadEvent | ErrorEvent

  /** Whether anything is on screen to report an event: an embedded frame,
      which does not depend on how the PDF address is encoded. */
  predicate Listening(url: string, t: DocType, st: ViewerState) {
    url != "" && !Truthy(st.error) && (t == Image || (t == Pdf && !st.showFallback))
  }

  /** `Listening` is exactly "the rendered content is a frame". */
  lemma ListeningIffEmits(url: string, t: DocType, st: ViewerState, encode: string -> string)
    ensures Listening(url, t, st) <==> Emits(RenderContent(url, t, st, encode))
  {
  }

  /** An event reaches its handler only while an element is listening. */
  function Deliver(url: string, t: DocType, st: ViewerState, e: MediaEvent): ViewerState {
    if !Listening(url, t, st) then st
    else match e
      case LoadEvent => HandleLoad(st)
      case ErrorEvent => HandleError(t, st)
  }

  /** The state after the dialog opens on a URL and the element reports
      `events`. */
  function Run(url: string, t: DocType, events: seq<MediaEvent>): ViewerState
    decreases |events|
  {
    if |events| == 0 then OnOpenOrUrlChange(true, url, Init())
    else Deliver(url, t, Run(url, t, events[..|events| - 1]), events[|events| - 1])
  }

  /** Without a URL, or for a type that cannot be previewed, nothing
      listens, so the state stays initial. */
  lemma {:induction false} RunSilent(url: string, t: DocType, events: seq<MediaEvent>)
    requires url == "" || t == Other
    ensures Run(url, t, events) == Init()
    decreases |events|
  {
    if |events| > 0 {
      RunSilent(url, t, events[..|events| - 1]);
    }
  }

  /** An image: the message is set exactly when an error arrived, after
      which nothing listens any more; the spinner is up until the first
      event. */
  lemma {:induction false} RunImage(url: string, events: seq<MediaEvent>)
    requires url != ""
    ensures !Run(url, Image, events).showFallback
    ensures Run(url, Image, events).error.Some? <==> ErrorEvent in events
    ensures Run(url, Image, events).error.Some? ==> Run(url, Image, events).error.value == LOAD_ERROR
    ensures Run(url, Image, events).isLoading <==> |events| == 0
    decreases |events|
  {
    if |events| > 0 {
      var init := events[..|events| - 1];
      var last := events[|events| - 1];
      RunImage(url, init);
      assert events == init + [last];
      assert ErrorEvent in events <==> ErrorEvent in init || last == ErrorEvent;
    }
  }

  /** A PDF: the first error switches to the fallback, which removes the
      frame, so the message is never set. */
  lemma {:induction false} RunPdf(url: string, events: seq<MediaEvent>)
    requires url != ""
    ensures Run(url, Pdf, events).error.None?
    ensures Run(url, Pdf, events).showFallback <==> ErrorEvent in events
    ensures Run(url, Pdf, events).isLoading <==> |events| == 0
    decreases |events|
  {
    if |events| > 0 {
      var init := events[..|events| - 1];
      var last := events[|events| - 1];
      RunPdf(url, init);
      assert events == init + [last];
      assert ErrorEvent in events <==> ErrorEvent in init || last == ErrorEvent;
    }
  }

  /** The whole life of one opening. Nothing listens without a URL or for
      an unpreviewable type. An image shows the error message exactly when
      it has failed. A PDF falls back on its first failure, after which its
      frame is gone, so the error message is never shown for a PDF. The
      spinner is up until the first event. */
  lemma {:induction false} RunOutcome(url: string, t: DocType, events: seq<MediaEvent>)
    ensures url == "" || t == Other ==> Run(url, t, events) == Init()
    ensures url != "" && t == Image ==>
              (Run(url, t, events).error.Some? <==> ErrorEvent in events)
              && (Run(url, t, events).error.Some? ==> Run(url, t, events).error.value == LOAD_ERROR)
              && !Run(url, t, events).showFallback
              && (Run(url, t, events).isLoading <==> |events| == 0)
    ensures url != "" && t == Pdf ==>
              Run(url, t, events).error.None?
              && (Run(url, t, events).showFallback <==> ErrorEvent in events)
              && (Run(url, t, events).isLoading <==> |events| == 0)
  {
    if url == "" || t == Other {
      RunSilent(url, t, events);
    } else if t == Image {
      RunImage(url, events);
    } else {
      RunPdf(url, events);
    }
  }

  /** The download file name: whitespace runs become `_`, then lower-case. */
  function DownloadName(title: string): string {
    Lower(ReplaceSpaceRuns(title, '_'))
  }

  /** The download name holds no whitespace and no upper-case letter, is no
      longer than the title, and lower-casing first gives the same name. */
  lemma DownloadNameShape(title: string)
    ensures var n := DownloadName(title);
            |n| <= |title|
            && (forall i :: 0 <= i < |n| ==> !IsSpace(n[i]) && !IsUpper(n[i]))
            && n == ReplaceSpaceRuns(Lower(title), '_')
  {
    ReplaceSpaceRunsSpec(Lower(title), '_');
    ReplaceSpaceRunsLower(title, '_');
    LowerIdempotent(ReplaceSpaceRuns(title, '_'));
  }

  /** A title made of words separated by single spaces downloads as the
      words lower-cased and joined by `_`. */
  lemma DownloadNameOfWords(word: string, rest: string)
    requires forall i :: 0 <= i < |word| ==> !IsSpace(word[i])
    requires |rest| == 0 || !IsSpace(rest[0])
    ensures DownloadName(word + [' '] + rest) == Lower(word) + ['_'] + DownloadName(rest)
  {
    ReplaceSpaceRunsWord(word, rest, '_');
    assert Lower(word + ['_'] + ReplaceSpaceRuns(rest, '_'))
        == Lower(word) + ['_'] + Lower(ReplaceSpaceRuns(rest, '_'));
  }

  /** The dialog heading: the title, or "Document Viewer" when it is empty. */
  function DialogTitle(title: string): (r: string)
    ensures title != "" ==> r == title
    ensures title == "" ==> r == "Document Viewer"
    ensures r != ""
  {
    if title != "" then title else "Document Viewer"
  }

  /** The description line is shown exactly when the prop is truthy. */
  function DialogDescription(description: Option<string>): (r: Option<string>)
    ensures r.Some? <==> Truthy(description)
    ensures r.Some? ==> r == description
  {
    if Truthy(description) then description else None
  }
}

=== FILE: modals.dfy ===
/** `useApprovalWorkflow`: two dialog flags for the seller details page. */
module ApprovalWorkflow {

  datatype Workflow = Workflow(rejectionModalOpen: bool, confirmModalOpen: bool)

  /** The hook's starting state. */
  function Init(): (w: Workflow)
    ensures !w.rejectionModalOpen && !w.confirmModalOpen
  {
    Workflow(false, false)
  }

  /** `handleApprove`: opens the confirmation. */
  function HandleApprove(w: Workflow): (r: Workflow)
    ensures r.confirmModalOpen && r.rejectionModalOpen == w.rejectionModalOpen
  {
    w.(confirmModalOpen := true)
  }

  /** `confirmApproval`: shows a toast and closes the confirmation. */
  function ConfirmApproval(w: Workflow): (r: Workflow)
    ensures !r.confirmModalOpen && r.rejectionModalOpen == w.rejectionModalOpen
  {
    w.(confirmModalOpen := false)
  }

  /** `handleReject(reason)`: shows a toast and closes the rejection dialog;
      the reason is not used. */
  function HandleReject(w: Workflow, reason: string): (r: Workflow)
    ensures !r.rejectionModalOpen && r.confirmModalOpen == w.confirmModalOpen
  {
    w.(rejectionModalOpen := false)
  }

  /** Everything the hook exposes, as events. */
  datatype Event =
    | Approve
    | ConfirmApprovalEvent
    | Reject(reason: string)
    | SetRejectionOpen(open: bool)
    | SetConfirmOpen(open: bool)

  function Step(w: Workflow, e: Event): Workflow {
    match e
    case Approve => HandleApprove(w)
    case ConfirmApprovalEvent => ConfirmApproval(w)
    case Reject(reason) => HandleReject(w, reason)
    case SetRejectionOpen(b) => w.(rejectionModalOpen := b)
    case SetConfirmOpen(b) => w.(confirmModalOpen := b)
  }

  /** The state after a sequence of events from `Init`. */
  function Run(events: seq<Event>): Workflow
    decreases |events|
  {
    if |events| == 0 then Init() else Step(Run(events[..|events| - 1]), events[|events| - 1])
  }

  /** What an event says about the confirmation flag, if anything. */
  function ConfirmEffect(e: Event): (r: int)
    ensures -1 <= r <= 1
  {
    match e
    case Approve => 1
    case ConfirmApprovalEvent => 0
    case SetConfirmOpen(b) => if b then 1 else 0
    case _ => -1
  }

  /** The confirmation flag as the last event that set it left it. */
  function LastConfirm(events: seq<Event>): bool
    decreases |events|
  {
    if |events| == 0 then false
    else if ConfirmEffect(events[|events| - 1]) >= 0 then ConfirmEffect(events[|events| - 1]) == 1
    else LastConfirm(events[..|events| - 1])
  }

  /** The rejection flag as the last event that set it left it. */
  function LastRejection(events: seq<Event>): bool
    decreases |events|
  {
    if |events| == 0 then false
    else match events[|events| - 1]
      case Reject(_) => false
      case SetRejectionOpen(b) => b
      case _ => LastRejection(events[..|events| - 1])
  }

  /** The two flags are independent: each is decided by the last event that
      touches it, and only the setter ever opens the rejection dialog. */
  lemma {:induction false} RunFlags(events: seq<Event>)
    ensures Run(events).confirmModalOpen == LastConfirm(events)
    ensures Run(events).rejectionModalOpen == LastRejection(events)
    ensures Run(events).rejectionModalOpen ==> exists i :: 0 <= i < |events| && events[i] == SetRejectionOpen(true)
    decreases |events|
  {
    if |events| > 0 {
      var init := events[..|events| - 1];
      RunFlags(init);
      if Run(events).rejectionModalOpen && !events[|events| - 1].SetRejectionOpen? {
        var i :| 0 <= i < |init| && init[i] == SetRejectionOpen(true);
        assert events[i] == init[i];
      }
    }
  }
}

/** `RejectionModal`: a reason text area gating a Reject button. */
module RejectionModal {
  import opened Text

  datatype Modal = Modal(reason: string)

  /** What a click asks the parent to do. */
  datatype Effect = ConfirmWith(reason: string) | CloseRequested | NoEffect

  /** The text area's change handler. */
  function Type(m: Modal, text: string): (r: Modal)
    ensures r.reason == text
  {
    Modal(text)
  }

  /** `disabled={!reason.trim()}`. */
  predicate RejectDisabled(m: Modal) {
    Trim(m.reason) == ""
  }

  /** The Reject button is disabled exactly when the reason is empty or
      whitespace only. */
  lemma RejectDisabledIff(m: Modal)
    ensures RejectDisabled(m) <==> forall i :: 0 <= i < |m.reason| ==> IsSpace(m.reason[i])
  {
    TrimEmptyIff(m.reason);
  }

  /** Clicking Reject: a disabled button does nothing; otherwise
      `handleSubmit` passes the reason as typed, untrimmed, to `onConfirm`
      and then clears it. */
  function ClickReject(m: Modal): (r: (Modal, Effect))
    ensures RejectDisabled(m) ==> r == (m, NoEffect)
    ensures !RejectDisabled(m) ==> r.1 == ConfirmWith(m.reason) && r.0.reason == ""
  {
    if RejectDisabled(m) then (m, NoEffect) else (Modal(""), ConfirmWith(m.reason))
  }

  /** Whatever reaches `onConfirm` holds a non-whitespace character, and
      it is the typed text itself: leading whitespace is passed on. */
  lemma ConfirmedReasonNotBlank(m: Modal)
    ensures ClickReject(m).1.ConfirmWith? ==>
              exists i :: 0 <= i < |ClickReject(m).1.reason| && !IsSpace(ClickReject(m).1.reason[i])
    ensures ClickReject(m).1.ConfirmWith? && |m.reason| > 0 && IsSpace(m.reason[0]) ==>
              IsSpace(ClickReject(m).1.reason[0])
  {
    TrimEmptyIff(m.reason);
  }

  /** Cancel, and dismissing the dialog: only `onClose`; the typed reason is
      kept for the next opening. */
  function Cancel(m: Modal): (r: (Modal, Effect))
    ensures r.0 == m && r.1 == CloseRequested
  {
    (m, CloseRequested)
  }
}

/** `ConfirmationModal`: a confirm/cancel alert dialog. */
module ConfirmationModal {
  import opened Common

  datatype Variant = DefaultVariant | Destructive

  datatype Props = Props(
    isOpen: bool,
    title: string,
    description: string,
    confirmLabel: Option<string>,
    cancelLabel: Option<string>,
    variant: Option<Variant>,
    isLoading: Option<bool>)

  /** What the dialog renders. `dismissible` is whether the dialog has a
      change handler, through which Escape and both buttons reach
      `onClose`; an alert dialog ignores clicks outside it. */
  datatype View = View(
    open: bool,
    dismissible: bool,
    title: string,
    description: string,
    cancelText: string,
    cancelDisabled: bool,
    confirmText: string,
    confirmDisabled: bool,
    confirmClass: string,
    spinner: bool)

  const DESTRUCTIVE_CLASS := "bg-destructive hover:bg-destructive/90"

  function Render(p: Props): (v: View)
    ensures v.confirmText == (if p.confirmLabel.Some? then p.confirmLabel.value else "Confirm")
    ensures v.cancelText == (if p.cancelLabel.Some? then p.cancelLabel.value else "Cancel")
    ensures var loading := p.isLoading.Some? && p.isLoading.value;
            v.cancelDisabled == loading && v.confirmDisabled == loading && v.spinner == loading
            && v.dismissible == !loading
    ensures v.confirmClass != "" <==> p.variant == Some(Destructive)
    ensures v.open == p.isOpen && v.title == p.title && v.description == p.description
  {
    var loading := p.isLoading.GetOr(false);
    View(
      p.isOpen,
      !loading,
      p.title,
      p.description,
      p.cancelLabel.GetOr("Cancel"),
      loading,
      p.confirmLabel.GetOr("Confirm"),
      loading,
      if p.variant.GetOr(DefaultVariant) == Destructive then DESTRUCTIVE_CLASS else "",
      loading)
  }

  datatype Interaction = ClickConfirm | ClickCancel | PressEscape

  datatype Callback = OnConfirm | OnClose

  /** The callbacks an interaction reaches, in order. A closed dialog
      renders nothing to interact with. Both buttons close the dialog: the
      confirm button runs its `onClick` first and then the dialog's change
      handler, which is `onClose` except while loading. A disabled button
      reaches nothing. */
  function Dispatch(v: View, i: Interaction): (r: seq<Callback>)
    ensures !v.open ==> r == []
    ensures OnConfirm in r <==> v.open && i == ClickConfirm && !v.confirmDisabled
    ensures OnClose in r <==>
              v.open && v.dismissible
              && (i == PressEscape || (i == ClickConfirm && !v.confirmDisabled) || (i == ClickCancel && !v.cancelDisabled))
    ensures OnConfirm in r ==> r[0] == OnConfirm
    ensures OnClose in r ==> r[|r| - 1] == OnClose
    ensures forall j, k :: 0 <= j < k < |r| ==> r[j] != r[k]
  {
    var close := if v.dismissible then [OnClose] else [];
    if !v.open then []
    else match i
    case ClickConfirm => if v.confirmDisabled then [] else [OnConfirm] + close
    case ClickCancel => if v.cancelDisabled then [] else close
    case PressEscape => close
  }

  /** While loading, or while closed, the dialog cannot be left or
      confirmed by any interaction; an open dialog that is not loading is
      closed by every interaction, and confirming runs `onConfirm` and then
      `onClose`. */
  lemma LoadingLocksDialog(p: Props, i: Interaction)
    ensures p.isLoading == Some(true) || !p.isOpen ==> Dispatch(Render(p), i) == []
    ensures p.isOpen && p.isLoading != Some(true) ==> OnClose in Dispatch(Render(p), i)
    ensures p.isOpen && p.isLoading != Some(true) ==> Dispatch(Render(p), ClickConfirm) == [OnConfirm, OnClose]
  {
  }
}

=== FILE: product_management.dfy ===
/** The product management page: an in-memory product list moderated
    through confirmation dialogs, and an in-memory category list edited
    through a category dialog. */
module ProductManagement {
  import opened Common
  import opened Seqs
  import opened Text
  import Backend
  import opened ProductsApi
  import StatusBadge
  import ConfirmationModal

  datatype ProductStatus = Pending | Approved | Rejected | Flagged

  function StatusName(s: ProductStatus): string {
    match s
    case Pending => "pending"
    case Approved => "approved"
    case Rejected => "rejected"
    case Flagged => "flagged"
  }

  /** A product as the page keeps it; `category` is the category's name. */
  datatype Product = Product(
    id: string,
    name: string,
    seller: string,
    seller_id: string,
    category: string,
    status: ProductStatus,
    created_at: string)

  datatype ProductAction = ApproveProduct | RejectProduct | FlagProduct

  datatype ProductModal = ProductModal(isOpen: bool, action: ProductAction, productId: Option<string>)

  datatype CategoryModalKind = Add | Edit

  datatype CategoryModal = CategoryModal(isOpen: bool, kind: CategoryModalKind, category: Option<Category>)

  /** The three inputs of the category dialog. */
  datatype CategoryForm = CategoryForm(name: string, slug: string, parent: Option<string>)

  datatype Page = Page(
    products: seq<Product>,
    categories: seq<Category>,
    statusFilter: string,
    categoryFilter: string,
    modal: ProductModal,
    categoryModal: CategoryModal,
    form: CategoryForm,
    rejectReason: string)

  const CLOSED := ProductModal(false, ApproveProduct, None)
  const CATEGORY_CLOSED := CategoryModal(false, Add, None)
  const EMPTY_FORM := CategoryForm("", "", None)

  function Initial(products: seq<Product>, categories: seq<Category>): (p: Page)
    ensures p.statusFilter == "all" && p.categoryFilter == "all" && p.rejectReason == ""
    ensures !p.modal.isOpen && p.modal.productId.None? && !p.categoryModal.isOpen
    ensures p.products == products && p.categories == categories
  {
    Page(products, categories, "all", "all", CLOSED, CATEGORY_CLOSED, EMPTY_FORM, "")
  }

  // ---------------------------------------------------------------------
  // Products

  /** Whether a product passes both filters. */
  predicate Shown(x: Product, statusFilter: string, categoryFilter: string) {
    (statusFilter == "all" || StatusName(x.status) == statusFilter)
    && (categoryFilter == "all" || x.category == categoryFilter)
  }

  /** `filteredProducts`. */
  function FilteredProducts(products: seq<Product>, statusFilter: string, categoryFilter: string): (r: seq<Product>)
    ensures forall x :: x in r <==>
              x in products
              && (statusFilter == "all" || StatusName(x.status) == statusFilter)
              && (categoryFilter == "all" || x.category == categoryFilter)
    ensures |r| <= |products|
  {
    Filter(products, (x: Product) => Shown(x, statusFilter, categoryFilter))
  }

  /** With both filters at "all" the whole list is shown; filtering keeps the
      list's order. */
  lemma FilteredProductsOrder(a: seq<Product>, b: seq<Product>, statusFilter: string, categoryFilter: string)
    ensures FilteredProducts(a, "all", "all") == a
    ensures FilteredProducts(a + b, statusFilter, categoryFilter)
         == FilteredProducts(a, statusFilter, categoryFilter) + FilteredProducts(b, statusFilter, categoryFilter)
  {
    FilterKeepsAll(a, (x: Product) => Shown(x, "all", "all"));
    FilterAppend(a, b, (x: Product) => Shown(x, statusFilter, categoryFilter));
  }

  /** `handleAction(type, productId)`: opens the dialog for the action;
      choosing reject also clears the reason text. */
  function HandleAction(p: Page, action: ProductAction, productId: string): (r: Page)
    ensures r.modal == ProductModal(true, action, Some(productId))
    ensures action == RejectProduct ==> r.rejectReason == ""
    ensures action != RejectProduct ==> r.rejectReason == p.rejectReason
    ensures r.products == p.products && r.categories == p.categories
  {
    p.(modal := ProductModal(true, action, Some(productId)),
       rejectReason := if action == RejectProduct then "" else p.rejectReason)
  }

  /** Typing in the rejection dialog's text area. */
  function TypeRejectReason(p: Page, text: string): (r: Page)
    ensures r.rejectReason == text && r.modal == p.modal && r.products == p.products
    ensures r.categories == p.categories && r.statusFilter == p.statusFilter
    ensures r.categoryFilter == p.categoryFilter && r.categoryModal == p.categoryModal && r.form == p.form
  {
    p.(rejectReason := text)
  }

  /** Cancel or dismiss of any of the three product dialogs. */
  function CloseModal(p: Page): (r: Page)
    ensures !r.modal.isOpen && r.modal.action == p.modal.action && r.modal.productId == p.modal.productId
    ensures r.products == p.products && r.rejectReason == p.rejectReason
  {
    p.(modal := p.modal.(isOpen := false))
  }

  /** The status each action writes. */
  function Target(action: ProductAction): (s: ProductStatus)
    ensures action == ApproveProduct <==> s == Approved
    ensures action == RejectProduct <==> s == Rejected
    ensures action == FlagProduct <==> s == Flagged
  {
    match action
    case ApproveProduct => Approved
    case RejectProduct => Rejected
    case FlagProduct => Flagged
  }

  /** `confirmAction()`: without a (non-empty) product id nothing happens;
      otherwise the product with that id takes the action's status, every
      other product is left alone, and the dialog resets. The reason typed
      for a rejection is not looked at. */
  function ConfirmAction(p: Page): (r: Page)
    ensures !Truthy(p.modal.productId) ==> r == p
    ensures Truthy(p.modal.productId) ==> r.modal == ProductModal(false, ApproveProduct, None)
    ensures r.categories == p.categories && r.rejectReason == p.rejectReason
    ensures |r.products| == |p.products|
    ensures Truthy(p.modal.productId) ==> forall i :: 0 <= i < |p.products| ==>
      if p.products[i].id == p.modal.productId.value then
        r.products[i] == p.products[i].(status := Target(p.modal.action))
      else r.products[i] == p.products[i]
  {
    if !Truthy(p.modal.productId) then p
    else
      var id := p.modal.productId.value;
      var status := Target(p.modal.action);
      var f := (x: Product) => x.(status := status);
      UpdateWhereSpec(p.products, (x: Product) => x.id == id, f);
      p.(products := UpdateWhere(p.products, (x: Product) => x.id == id, f), modal := CLOSED)
  }

  /** The dialogs' descriptions. */
  const FLAG_DESCRIPTION := "Are you sure you want to flag this product for review? It will be hidden from the marketplace until reviewed."
  const APPROVE_DESCRIPTION := "Are you sure you want to approve this product? It will be visible on the marketplace."

  /** The confirmation dialog the page renders for approve and flag, each
      open only for its own action. Reject has a dialog of its own, so for it
      no confirmation dialog is open. No `isLoading` is passed, so the dialog
      is never locked, and no cancel label. */
  function DialogProps(p: Page): (r: ConfirmationModal.Props)
    ensures r.isOpen == (p.modal.isOpen && p.modal.action != RejectProduct)
    ensures r.isLoading.None? && r.cancelLabel.None?
    ensures p.modal.action == FlagProduct ==>
      r.title == "Flag Product" && r.confirmLabel == Some("Flag Product")
      && r.variant == Some(ConfirmationModal.Destructive) && r.description == FLAG_DESCRIPTION
    ensures p.modal.action == ApproveProduct ==>
      r.title == "Approve Product" && r.confirmLabel == Some("Approve")
      && r.variant == Some(ConfirmationModal.DefaultVariant) && r.description == APPROVE_DESCRIPTION
  {
    var open := p.modal.isOpen && p.modal.action != RejectProduct;
    if p.modal.action == FlagProduct then
      ConfirmationModal.Props(open, "Flag Product",
        FLAG_DESCRIPTION,
        Some("Flag Product"), None, Some(ConfirmationModal.Destructive), None)
    else
      ConfirmationModal.Props(open, "Approve Product",
        APPROVE_DESCRIPTION,
        Some("Approve"), None, Some(ConfirmationModal.DefaultVariant), None)
  }

  /** One dialog callback run during a click on a dialog rendered from
      `render`, applied to the state `acc` the earlier callbacks of the same
      click left; the later write to a state slot wins. */
  function Reach(render: Page, acc: Page, cb: ConfirmationModal.Callback): Page {
    match cb
    case OnConfirm =>
      if !Truthy(render.modal.productId) then acc
      else
        var q := ConfirmAction(render);
        acc.(products := q.products, modal := q.modal)
    case OnClose => acc.(modal := CloseModal(render).modal)
  }

  /** The callbacks of one click, in order. */
  function Settle(render: Page, acc: Page, cbs: seq<ConfirmationModal.Callback>): Page
    decreases |cbs|
  {
    if |cbs| == 0 then acc else Settle(render, Reach(render, acc, cbs[0]), cbs[1..])
  }

  /** Confirming and then closing, both from the same render, leaves what
      `confirmAction` wrote except for the modal, which the close sets. */
  lemma SettleConfirmThenClose(p: Page)
    ensures Settle(p, p, [ConfirmationModal.OnConfirm, ConfirmationModal.OnClose])
         == ConfirmAction(p).(modal := CloseModal(p).modal)
  {
    var cbs := [ConfirmationModal.OnConfirm, ConfirmationModal.OnClose];
    assert cbs[1..] == [ConfirmationModal.OnClose] && cbs[1..][1..] == [];
  }

  /** A click on the confirm button of the open product dialog. The
      rejection dialog's "Reject Product" is a plain button that only calls
      `confirmAction`, whose reset stands. The approve and flag dialogs also
      run `onClose` from the same render afterwards, which overwrites that
      reset: the modal ends closed with the action and the id it had. With
      the modal closed there is no button to click, and nothing changes. */
  function ConfirmClick(p: Page): (r: Page)
    ensures !p.modal.isOpen ==> r == p
    ensures p.modal.isOpen ==> r.products == ConfirmAction(p).products
    ensures r.categories == p.categories && r.rejectReason == p.rejectReason
    ensures p.modal.isOpen && p.modal.action == RejectProduct ==> r.modal == ConfirmAction(p).modal
    ensures p.modal.isOpen && p.modal.action != RejectProduct ==>
              r.modal == ProductModal(false, p.modal.action, p.modal.productId)
  {
    if p.modal.isOpen && p.modal.action == RejectProduct then ConfirmAction(p)
    else
      var cbs := ConfirmationModal.Dispatch(ConfirmationModal.Render(DialogProps(p)), ConfirmationModal.ClickConfirm);
      ConfirmationModal.LoadingLocksDialog(DialogProps(p), ConfirmationModal.ClickConfirm);
      SettleConfirmThenClose(p);
      Settle(p, p, cbs)
  }

  /** The rejection dialog's confirm is not gated on the reason, and the
      reason never reaches the product list: confirming with any two
      reasons gives the same products. */
  lemma ConfirmIgnoresReason(p: Page, a: string, b: string)
    ensures ConfirmAction(p.(rejectReason := a)).products == ConfirmAction(p.(rejectReason := b)).products
    ensures Truthy(p.modal.productId) && p.modal.action == RejectProduct ==>
              forall i :: 0 <= i < |p.products| && p.products[i].id == p.modal.productId.value ==>
                ConfirmAction(p.(rejectReason := "")).products[i].status == Rejected
  {
  }

  /** Moderation touches only the target: products with another id are the
      same products in the same order afterwards. */
  lemma ConfirmActionFrame(p: Page)
    requires Truthy(p.modal.productId)
    ensures Filter(ConfirmAction(p).products, (x: Product) => x.id != p.modal.productId.value)
         == Filter(p.products, (x: Product) => x.id != p.modal.productId.value)
  {
    var id := p.modal.productId.value;
    var status := Target(p.modal.action);
    UpdateWhereFrame(p.products, (x: Product) => x.id == id, (x: Product) => x.id != id,
                     (x: Product) => x.(status := status));
  }

  /** The row's action menu. */
  function MenuActions(x: Product): (r: seq<ProductAction>)
    ensures ApproveProduct in r <==> x.status == Pending
    ensures RejectProduct in r <==> x.status == Pending
    ensures FlagProduct in r <==> x.status != Flagged
  {
    (if x.status == Pending then [ApproveProduct, RejectProduct] else [])
    + (if x.status != Flagged then [FlagProduct] else [])
  }

  /** The status column's `statusMap`: labels are the capitalised status
      names; the four statuses get four distinct badge variants. */
  function StatusBadgeOf(s: ProductStatus): (r: (string, StatusBadge.Variant))
    ensures r.0 == Capitalize(StatusName(s))
    ensures s == Pending <==> r.1 == StatusBadge.Pending
    ensures s == Approved <==> r.1 == StatusBadge.Success
    ensures s == Rejected <==> r.1 == StatusBadge.Error
    ensures s == Flagged <==> r.1 == StatusBadge.Warning
  {
    match s
    case Pending => ("Pending", StatusBadge.Pending)
    case Approved => ("Approved", StatusBadge.Success)
    case Rejected => ("Rejected", StatusBadge.Error)
    case Flagged => ("Flagged", StatusBadge.Warning)
  }

  /** The count on the "Flagged Items" tab. */
  function FlaggedCount(products: seq<Product>): (n: nat)
    ensures n <= |products|
    ensures n == 0 <==> forall i :: 0 <= i < |products| ==> products[i].status != Flagged
  {
    Count(products, (x: Product) => x.status == Flagged)
  }

  /** The tab count is the length of the list the status filter "flagged"
      shows under any category "all". */
  lemma FlaggedCountMatchesFilter(products: seq<Product>)
    ensures FlaggedCount(products) == |FilteredProducts(products, "flagged", "all")|
  {
    FilterSameSet(products, (x: Product) => x.status == Flagged, (x: Product) => Shown(x, "flagged", "all"));
  }

  // ---------------------------------------------------------------------
  // Categories

  /** `categories.filter(cat => cat.parent_id === null)`: every parentless
      category, as often as the list holds it. */
  function TopLevel(categories: seq<Category>): (r: seq<Category>)
    ensures forall c :: c in r <==> c in categories && c.parent_id.None?
    ensures forall c :: multiset(r)[c] == if c.parent_id.None? then multiset(categories)[c] else 0
  {
    FilterMultiset(categories, (c: Category) => c.parent_id.None?);
    Filter(categories, (c: Category) => c.parent_id.None?)
  }

  /** The top-level list keeps the categories' order: the top-level
      categories of a prefix come before those of the rest. */
  lemma {:induction false} TopLevelOrder(a: seq<Category>, b: seq<Category>)
    ensures TopLevel(a + b) == TopLevel(a) + TopLevel(b)
  {
    FilterAppend(a, b, (c: Category) => c.parent_id.None?);
  }

  /** The category filter's options after "all": the top-level names. */
  function CategoryFilterOptions(categories: seq<Category>): (r: seq<string>)
    ensures |r| == |TopLevel(categories)|
    ensures forall i :: 0 <= i < |r| ==> r[i] == TopLevel(categories)[i].name
  {
    var top := TopLevel(categories);
    seq(|top|, i requires 0 <= i < |top| => top[i].name)
  }

  /** The parent select's options after "No parent": the top-level ids. */
  function ParentOptions(categories: seq<Category>): (r: seq<string>)
    ensures |r| == |TopLevel(categories)|
    ensures forall i :: 0 <= i < |r| ==> r[i] == TopLevel(categories)[i].id
  {
    var top := TopLevel(categories);
    seq(|top|, i requires 0 <= i < |top| => top[i].id)
  }

  /** Only top-level categories are offered as parents, and the one being
      edited is not excluded: a top-level category is a parent choice for
      itself. */
  lemma ParentOptionsExactlyTopLevel(categories: seq<Category>, c: Category)
    ensures c in categories && c.parent_id.None? ==> c.id in ParentOptions(categories)
    ensures c in categories && c.parent_id.None? ==> c.name in CategoryFilterOptions(categories)
    ensures forall id :: id in ParentOptions(categories) ==>
              exists k :: 0 <= k < |categories| && categories[k].id == id && categories[k].parent_id.None?
  {
    var top := TopLevel(categories);
    if c in categories && c.parent_id.None? {
      var k :| 0 <= k < |top| && top[k] == c;
      assert ParentOptions(categories)[k] == c.id;
      assert CategoryFilterOptions(categories)[k] == c.name;
    }
    forall id | id in ParentOptions(categories)
      ensures exists k :: 0 <= k < |categories| && categories[k].id == id && categories[k].parent_id.None?
    {
      var j :| 0 <= j < |top| && ParentOptions(categories)[j] == id;
      assert top[j] in top;
      var k :| 0 <= k < |categories| && categories[k] == top[j];
    }
  }

  /** The parent select's value: `newCategoryParent || ""`. */
  function ParentSelectValue(parent: Option<string>): (v: string)
    ensures parent.None? ==> v == ""
    ensures parent.Some? ==> v == parent.value
  {
    parent.GetOr("")
  }

  /** The parent select's change handler: "" means no parent. */
  function ParentFromSelect(value: string): (parent: Option<string>)
    ensures parent.None? <==> value == ""
    ensures parent.Some? ==> parent.value == value
  {
    if value == "" then None else Some(value)
  }

  /** The select value and the stored parent convert into each other; the
      only stored value that does not survive is an empty-string parent,
      which reads back as no parent. */
  lemma ParentSelectRoundTrip(value: string, parent: Option<string>)
    ensures ParentSelectValue(ParentFromSelect(value)) == value
    ensures parent != Some("") ==> ParentFromSelect(ParentSelectValue(parent)) == parent
    ensures ParentFromSelect(ParentSelectValue(Some(""))) == None
  {
  }

  /** `handleCategoryAction(type, category)`: editing a given category loads
      its fields into the form; anything else clears the form and opens the
      dialog without a category (even for "edit"). */
  function HandleCategoryAction(p: Page, kind: CategoryModalKind, category: Option<Category>): (r: Page)
    ensures kind == Edit && category.Some? ==>
              r.form == CategoryForm(category.value.name, category.value.slug, category.value.parent_id)
              && r.categoryModal == CategoryModal(true, Edit, category)
    ensures !(kind == Edit && category.Some?) ==>
              r.form == CategoryForm("", "", None) && r.categoryModal == CategoryModal(true, kind, None)
    ensures r.categories == p.categories && r.products == p.products
  {
    if kind == Edit && category.Some? then
      var c := category.value;
      p.(form := CategoryForm(c.name, c.slug, c.parent_id), categoryModal := CategoryModal(true, Edit, category))
    else
      p.(form := EMPTY_FORM, categoryModal := CategoryModal(true, kind, None))
  }

  /** The slug of a new category: the typed slug when there is one, else the
      name lower-cased with each whitespace run turned into "-". */
  function SlugFor(name: string, slug: string): (r: string)
    ensures slug != "" ==> r == slug
  {
    if slug != "" then slug else ReplaceSpaceRuns(Lower(name), '-')
  }

  /** A generated slug holds no whitespace and no upper-case letter, is no
      longer than the name, and is the name itself when the name is already
      lower-case without whitespace: nothing else is stripped. */
  lemma GeneratedSlugShape(name: string)
    ensures var s := SlugFor(name, "");
            |s| <= |name|
            && (forall i :: 0 <= i < |s| ==> !IsSpace(s[i]) && !IsUpper(s[i]))
            && ((forall i :: 0 <= i < |name| ==> !IsSpace(name[i]) && !IsUpper(name[i])) ==> s == name)
  {
    var s := SlugFor(name, "");
    ReplaceSpaceRunsSpec(Lower(name), '-');
    ReplaceSpaceRunsLower(name, '-');
    LowerIdempotent(ReplaceSpaceRuns(name, '-'));
    if forall i :: 0 <= i < |name| ==> !IsSpace(name[i]) && !IsUpper(name[i]) {
      assert Lower(name) == name;
    }
  }

  /** The id a new category gets: "c" followed by the list's length plus
      one, in decimal without leading zeros. */
  function NewCategoryId(categories: seq<Category>): (id: string)
    ensures |id| >= 2 && id[0] == 'c' && id[1] != '0'
    ensures forall i :: 1 <= i < |id| ==> IsDigit(id[i])
    ensures DigitsValue(id[1..]) == |categories| + 1
  {
    var digits := NatToString(|categories| + 1);
    NatToStringRoundTrip(|categories| + 1);
    assert ("c" + digits)[1..] == digits;
    "c" + digits
  }

  /** Two lists get the same new id exactly when they are equally long. */
  lemma {:induction false} NewCategoryIdInjective(a: seq<Category>, b: seq<Category>)
    ensures NewCategoryId(a) == NewCategoryId(b) <==> |a| == |b|
  {
    if NewCategoryId(a) == NewCategoryId(b) {
      assert NewCategoryId(a)[1..] == NewCategoryId(b)[1..];
    }
  }

  /** `saveCategoryChanges()`. Adding appends a category with a fresh
      count-based id, the derived slug, the chosen parent and no products.
      Editing with a category replaces name, slug (verbatim, possibly empty)
      and parent of the categories with its id. Editing without one changes
      nothing. The dialog closes in every case. */
  function SaveCategoryChanges(p: Page): (r: Page)
    ensures r.categoryModal == CategoryModal(false, Add, None)
    ensures r.products == p.products && r.form == p.form
    ensures p.categoryModal.kind == Add ==>
              r.categories == p.categories
                + [Category(NewCategoryId(p.categories), p.form.name, SlugFor(p.form.name, p.form.slug), p.form.parent, 0)]
    ensures p.categoryModal.kind == Edit && p.categoryModal.category.None? ==> r.categories == p.categories
    ensures p.categoryModal.kind == Edit && p.categoryModal.category.Some? ==>
              |r.categories| == |p.categories|
              && forall i :: 0 <= i < |p.categories| ==>
                   if p.categories[i].id == p.categoryModal.category.value.id then
                     r.categories[i].id == p.categories[i].id
                     && r.categories[i].products_count == p.categories[i].products_count
                     && r.categories[i].name == p.form.name
                     && r.categories[i].slug == p.form.slug
                     && r.categories[i].parent_id == p.form.parent
                   else r.categories[i] == p.categories[i]
  {
    var categories :=
      if p.categoryModal.kind == Add then
        p.categories + [Category(NewCategoryId(p.categories), p.form.name, SlugFor(p.form.name, p.form.slug), p.form.parent, 0)]
      else if p.categoryModal.category.Some? then
        var id := p.categoryModal.category.value.id;
        var f := (c: Category) => c.(name := p.form.name, slug := p.form.slug, parent_id := p.form.parent);
        UpdateWhereSpec(p.categories, (c: Category) => c.id == id, f);
        UpdateWhere(p.categories, (c: Category) => c.id == id, f)
      else p.categories;
    p.(categories := categories, categoryModal := CATEGORY_CLOSED)
  }

  /** `deleteCategory(id)`: removes the categories with that id and nothing
      else; other categories, including children of the removed one, are
      kept as they are. */
  function DeleteCategory(p: Page, id: string): (r: Page)
    ensures forall c :: c in r.categories <==> c in p.categories && c.id != id
    ensures |r.categories| == |p.categories| - Count(p.categories, (c: Category) => c.id == id)
    ensures r.products == p.products && r.categoryModal == p.categoryModal
  {
    FilterCountComplement(p.categories, (c: Category) => c.id == id, (c: Category) => c.id != id);
    p.(categories := Filter(p.categories, (c: Category) => c.id != id))
  }

  /** The parent column of the category table: a dash for no parent, else
      the name of the first category with the parent id, else nothing. */
  datatype ParentCell = Dash | ParentName(name: string) | Blank

  function ParentCellOf(categories: seq<Category>, c: Category): (r: ParentCell)
    ensures !Truthy(c.parent_id) <==> r == Dash
    ensures r.Blank? <==> Truthy(c.parent_id) && forall i :: 0 <= i < |categories| ==> categories[i].id != c.parent_id.value
    ensures r.ParentName? ==> exists k :: 0 <= k < |categories| && categories[k].id == c.parent_id.value
                                          && categories[k].name == r.name
                                          && forall j :: 0 <= j < k ==> categories[j].id != c.parent_id.value
  {
    if !Truthy(c.parent_id) then Dash
    else
      match FirstOf(categories, (x: Category) => x.id == c.parent_id.value, Backend.Answered)
      case Found(x) => ParentName(x.name)
      case _ => Blank
  }

  /** Deleting a parent leaves its children in place, still pointing at the
      removed id, so their parent cell goes blank. */
  lemma DeleteLeavesChildrenDangling(p: Page, id: string, child: Category)
    requires child in p.categories && child.id != id && child.parent_id == Some(id) && id != ""
    ensures child in DeleteCategory(p, id).categories
    ensures ParentCellOf(DeleteCategory(p, id).categories, child) == Blank
  {
    var r := DeleteCategory(p, id).categories;
    forall i | 0 <= i < |r| ensures r[i].id != id {
      assert r[i] in r;
    }
  }

  /** The generated id depends only on the list's length, so it can repeat
      an id still in use: after deleting "c1" from [c1, c2], adding a
      category gives it the id "c2" again. */
  lemma NewCategoryIdCanCollide(c1: Category, c2: Category, form: CategoryForm)
    requires c1.id == "c1" && c2.id == "c2"
    ensures var p := Page([], [c1, c2], "all", "all", CLOSED, CategoryModal(true, Add, None), form, "");
            var q := SaveCategoryChanges(DeleteCategory(p, "c1"));
            |q.categories| == 2 && q.categories[0].id == q.categories[1].id
  {
    var p := Page([], [c1, c2], "all", "all", CLOSED, CategoryModal(true, Add, None), form, "");
    var d := DeleteCategory(p, "c1");
    assert c1 !in d.categories && c2 in d.categories;
    assert d.categories == [c2] by {
      assert |d.categories| == 1 by {
        assert Count([c1, c2], (c: Category) => c.id == "c1") == 1 by {
          assert Filter([c1, c2], (c: Category) => c.id == "c1") == [c1] by {
            FilterAppend([c1], [c2], (c: Category) => c.id == "c1");
            assert [c1, c2] == [c1] + [c2];
            assert [c1][1..] == [] && [c2][1..] == [];
          }
        }
      }
    }
    assert NatToString(2) == "2";
  }

  /** Slugs are derived word by word: a name made of a whitespace-free
      word, one space and the rest gives the lower-cased word, "-" and the
      rest's slug. Nothing but whitespace is dropped, so "Smart Devices"
      gives "smart-devices" while "Home & Kitchen" gives "home-&-kitchen". */
  lemma SlugOfWords(word: string, rest: string)
    requires forall i :: 0 <= i < |word| ==> !IsSpace(word[i])
    requires |rest| == 0 || !IsSpace(rest[0])
    ensures SlugFor(word + [' '] + rest, "") == Lower(word) + ['-'] + SlugFor(rest, "")
  {
    ReplaceSpaceRunsLower(word + [' '] + rest, '-');
    ReplaceSpaceRunsLower(rest, '-');
    ReplaceSpaceRunsWord(word, rest, '-');
    assert Lower(word + ['-'] + ReplaceSpaceRuns(rest, '-'))
        == Lower(word) + ['-'] + Lower(ReplaceSpaceRuns(rest, '-'));
  }
}

=== FILE: products_api.dfy ===
/** Data access over the `products` and `categories` tables. Every function
    catches whatever the service does and returns a plain value (`[]`,
    `null` or nothing): no call in this module can fail, which the types of
    the functions below say by having no error case. */
module ProductsApi {
  import opened Common
  import opened Seqs
  import opened Backend

  /** A row of `products`, reduced to the columns the admin pages read. */
  datatype ProductRow = ProductRow(id: string, name: string, seller_id: string, category_id: string)

  /** A product category: the table row and the record the category page
      keeps in memory have the same shape. `parent_id` is `null` for a
      top-level category. */
  datatype Category = Category(
    id: string,
    name: string,
    slug: string,
    parent_id: Option<string>,
    products_count: int)

  /** `fetchAllProducts()`: the service's `data` is returned as it is, so a
      `null` payload stays `null`; only an error becomes `[]`. */
  function FetchAllProducts(rows: seq<ProductRow>, reply: Reply): (r: Option<seq<ProductRow>>)
    ensures reply.Answered? ==> r == Some(rows)
    ensures reply.AnsweredNull? <==> r.None?
    ensures reply.Failed? ==> r == Some([])
  {
    match reply
    case Answered => Some(rows)
    case AnsweredNull => None
    case Failed(_) => Some([])
  }

  /** `fetchAllProductCategories()`, same shape as `FetchAllProducts`. */
  function FetchAllProductCategories(rows: seq<Category>, reply: Reply): (r: Option<seq<Category>>)
    ensures reply.Answered? ==> r == Some(rows)
    ensures reply.AnsweredNull? <==> r.None?
    ensures reply.Failed? ==> r == Some([])
  {
    match reply
    case Answered => Some(rows)
    case AnsweredNull => None
    case Failed(_) => Some([])
  }

  /** `data[0]` of an `eq("id", id)` select, inside the try/catch: a `null`
      payload makes `data[0]` throw, which the catch turns into `null`. */
  function FirstOf<T(!new)>(rows: seq<T>, p: T -> bool, reply: Reply): (r: Lookup<T>)
    ensures r.Found? ==> reply.Answered? && exists k :: 0 <= k < |rows| && rows[k] == r.row && p(rows[k])
                                              && forall j :: 0 <= j < k ==> !p(rows[j])
    ensures r.Undefined? <==> reply.Answered? && forall i :: 0 <= i < |rows| ==> !p(rows[i])
    ensures r.Null? <==> !reply.Answered?
  {
    match reply
    case Answered =>
      var matches := Filter(rows, p);
      if |matches| == 0 then Undefined
      else
        FilterHeadIsFirst(rows, p);
        Found(matches[0])
    case _ => Null
  }

  /** `fetchProductById(id)`. */
  function FetchProductById(rows: seq<ProductRow>, id: string, reply: Reply): (r: Lookup<ProductRow>)
    ensures r.Found? ==> reply.Answered? && exists k :: 0 <= k < |rows| && rows[k] == r.row && r.row.id == id
                                              && forall j :: 0 <= j < k ==> rows[j].id != id
    ensures r.Undefined? <==> reply.Answered? && forall i :: 0 <= i < |rows| ==> rows[i].id != id
    ensures r.Null? <==> !reply.Answered?
  {
    FirstOf(rows, (x: ProductRow) => x.id == id, reply)
  }

  /** `fetchProductCategoryById(id)`. */
  function FetchProductCategoryById(rows: seq<Category>, id: string, reply: Reply): (r: Lookup<Category>)
    ensures r.Found? ==> reply.Answered? && exists k :: 0 <= k < |rows| && rows[k] == r.row && r.row.id == id
                                              && forall j :: 0 <= j < k ==> rows[j].id != id
    ensures r.Undefined? <==> reply.Answered? && forall i :: 0 <= i < |rows| ==> rows[i].id != id
    ensures r.Null? <==> !reply.Answered?
  {
    FirstOf(rows, (x: Category) => x.id == id, reply)
  }

  /** `createProductCategory(category)`: the inserted row comes back, or
      `null` when the service refuses and the table is left alone. */
  function CreateProductCategory(rows: seq<Category>, category: Category, ack: Ack): (w: Write<Category, Option<Category>>)
    ensures ack.Done? ==> w.table == rows + [category] && w.value == Some(category)
    ensures ack.Rejected? ==> w.table == rows && w.value.None?
  {
    match ack
    case Done => Write(rows + [category], Some(category))
    case Rejected(_) => Write(rows, None)
  }

  /** `updateProductCategory(category)`: `.update(category).eq("id",
      category.id).single()` replaces the one row with that id by the given
      record and returns it. A service error, or an id that does not match
      exactly one row (which `.single()` refuses), gives `null` and no
      change. */
  function UpdateProductCategory(rows: seq<Category>, category: Category, ack: Ack): (w: Write<Category, Option<Category>>)
    ensures |w.table| == |rows|
    ensures w.value.Some? <==> ack.Done? && Count(rows, (x: Category) => x.id == category.id) == 1
    ensures w.value.Some? ==> w.value == Some(category)
                              && forall i :: 0 <= i < |rows| ==>
                                   w.table[i] == if rows[i].id == category.id then category else rows[i]
    ensures w.value.None? ==> w.table == rows
  {
    var p := (x: Category) => x.id == category.id;
    if ack.Done? && Count(rows, p) == 1 then
      UpdateWhereSpec(rows, p, (x: Category) => category);
      Write(UpdateWhere(rows, p, (x: Category) => category), Some(category))
    else Write(rows, None)
  }

  /** `deleteProductCategory(id)`: removes the rows with that id, or nothing
      on an error; either way the caller gets nothing back, so it cannot
      tell the two apart. */
  function DeleteProductCategory(rows: seq<Category>, id: string, ack: Ack): (w: Write<Category, ()>)
    ensures ack.Done? ==> forall x :: x in w.table <==> x in rows && x.id != id
    ensures ack.Done? ==> |w.table| == |rows| - Count(rows, (x: Category) => x.id == id)
    ensures ack.Rejected? ==> w.table == rows
  {
    match ack
    case Done =>
      FilterCountComplement(rows, (x: Category) => x.id == id, (x: Category) => x.id != id);
      Write(Filter(rows, (x: Category) => x.id != id), ())
    case Rejected(_) => Write(rows, ())
  }
}

=== FILE: query_cache.dfy ===
/** The client-side query cache, reduced to what the hooks decide: query
    keys, the set of invalidation filters applied since the last fetch, and
    the cached entries. Refetch scheduling, deduplication and stale timers
    belong to the cache library and are not modelled. */
module QueryCache {

  /** One element of a query key array: a string, or `undefined`. */
  datatype KeyPart = Str(s: string) | Undef

  type QueryKey = seq<KeyPart>

  /** An opaque cached payload, or the `null` that `setQueryData` stores. */
  datatype Entry = NullEntry | Payload(tag: string)

  /** `invalidated` holds the filters `invalidateQueries` has applied;
      `written` the keys `setQueryData` has filled since a filter last
      matched them, which the library marks valid again. */
  datatype Cache = Cache(invalidated: set<QueryKey>, written: set<QueryKey>, data: map<QueryKey, Entry>)

  const Empty := Cache({}, {}, map[])

  /** `invalidateQueries({queryKey})` matches every key that starts with the
      given one (the library's default, non-exact matching). */
  predicate IsPrefix(filter: QueryKey, key: QueryKey) {
    |filter| <= |key| && key[..|filter|] == filter
  }

  /** A key is stale when some invalidation filter applied to the cache
      matches it and no `setQueryData` on that key came after. */
  predicate IsStale(c: Cache, key: QueryKey) {
    key !in c.written && exists f :: f in c.invalidated && IsPrefix(f, key)
  }

  /** `queryClient.invalidateQueries({queryKey: filter})`. */
  function Invalidate(c: Cache, filter: QueryKey): (r: Cache)
    ensures r.data == c.data
    ensures r.invalidated == c.invalidated + {filter}
    ensures forall key :: IsStale(r, key) <==> IsStale(c, key) || IsPrefix(filter, key)
  {
    var kept := set k | k in c.written && !IsPrefix(filter, k);
    var r := Cache(c.invalidated + {filter}, kept, c.data);
    assert forall key :: IsPrefix(filter, key) ==> IsStale(r, key) by {
      forall key | IsPrefix(filter, key) ensures IsStale(r, key) {
        assert filter in r.invalidated;
      }
    }
    assert forall key :: !IsPrefix(filter, key) ==> (IsStale(r, key) <==> IsStale(c, key)) by {
      forall key | !IsPrefix(filter, key) ensures IsStale(r, key) <==> IsStale(c, key) {
        if IsStale(r, key) {
          var f :| f in r.invalidated && IsPrefix(f, key);
          assert f in c.invalidated;
        }
      }
    }
    r
  }

  /** `queryClient.setQueryData(key, value)`: stores the value and, as a
      successful write does in the library, marks that one query valid. */
  function SetQueryData(c: Cache, key: QueryKey, e: Entry): (r: Cache)
    ensures r.invalidated == c.invalidated
    ensures !IsStale(r, key)
    ensures forall k :: k != key ==> (IsStale(r, k) <==> IsStale(c, k))
    ensures key in r.data && r.data[key] == e
    ensures forall k :: k != key ==> (k in r.data <==> k in c.data)
    ensures forall k :: k != key && k in c.data ==> r.data[k] == c.data[k]
  {
    Cache(c.invalidated, c.written + {key}, c.data[key := e])
  }
}

/** Query keys and `enabled` rules of the seller queries. */
module SellerQueries {
  import opened Common
  import opened Seqs
  import opened Backend
  import opened SellersApi
  import opened QueryCache

  const SELLER_VERIFICATION_KEY: QueryKey := [Str("seller-verification")]
  const VERIFIED_SELLERS_KEY: QueryKey := [Str("verified-sellers")]
  const ALL_SELLERS_KEY: QueryKey := [Str("all-sellers")]

  /** `["seller-details", id]`, where `id` may be `undefined`. */
  function SellerDetailsKey(id: Option<string>): QueryKey {
    [Str("seller-details"), if id.Some? then Str(id.value) else Undef]
  }

  /** `["sellers-by-status", status]`. */
  function SellersByStatusKey(status: string): QueryKey {
    [Str("sellers-by-status"), Str(status)]
  }

  /** Distinct statuses are cached under distinct keys, and no by-status key
      is a details key or one of the three constant keys. */
  lemma SellerKeysDistinct(a: string, b: string, id: Option<string>)
    ensures SellersByStatusKey(a) == SellersByStatusKey(b) <==> a == b
    ensures SellersByStatusKey(a) != SellerDetailsKey(id)
    ensures SellersByStatusKey(a) != ALL_SELLERS_KEY && SellersByStatusKey(a) != VERIFIED_SELLERS_KEY
    ensures SellersByStatusKey(a) != SELLER_VERIFICATION_KEY
    ensures SellerDetailsKey(id) != ALL_SELLERS_KEY
  {
    assert SellersByStatusKey(a)[0] != SellerDetailsKey(id)[0];
  }

  /** `enabled: !!id`. */
  predicate DetailsEnabled(id: Option<string>) {
    Truthy(id)
  }

  /** `enabled: !!status && status !== "all"`. */
  predicate ByStatusEnabled(status: string) {
    status != "" && status != "all"
  }

  const MISSING_ID := "Seller ID is required"

  /** The details `queryFn`: a missing (or empty) id throws before any
      request; otherwise it is `fetchSellerDetails(id)`, which yields the
      one row carrying the id or reports the id it could not fetch. */
  function DetailsQueryFn(rows: seq<SellerRow>, id: Option<string>, ack: Ack): (r: Result<SellerRow>)
    ensures !Truthy(id) ==> r == Err("Seller ID is required")
    ensures r.Ok? <==> Truthy(id) && ack.Done? && Count(rows, (x: SellerRow) => x.id == id.value) == 1
    ensures r.Ok? ==> r.value in rows && r.value.id == id.value
    ensures Truthy(id) && r.Err? ==> r.message == "Failed to fetch seller with ID: " + id.value
  {
    if !Truthy(id) then Err(MISSING_ID) else FetchSellerDetails(rows, id.value, ack)
  }

  /** Whenever the details query is enabled its function never reports the
      missing id; whenever it is disabled that is the only thing it could
      report. */
  lemma DetailsGuardAgreesWithEnabled(rows: seq<SellerRow>, id: Option<string>, ack: Ack)
    ensures DetailsEnabled(id) ==> DetailsQueryFn(rows, id, ack) != Err(MISSING_ID)
    ensures !DetailsEnabled(id) ==> DetailsQueryFn(rows, id, ack) == Err(MISSING_ID)
  {
    if DetailsEnabled(id) {
      var r := FetchSellerDetails(rows, id.value, ack);
      if r.Err? {
        assert r.message[0] == 'F';
        assert MISSING_ID[0] == 'S';
      }
    }
  }

  /** The by-status `queryFn`. */
  function ByStatusQueryFn(rows: seq<SellerRow>, status: string, reply: Reply): (r: seq<SellerRow>)
    ensures reply.Answered? ==> forall x :: x in r <==> x in rows && x.status == status
    ensures reply.Answered? ==>
              forall x :: multiset(r)[x] == if x.status == status then multiset(rows)[x] else 0
    ensures reply.Answered? && (forall i :: 0 <= i < |rows| ==> rows[i].status == status) ==> r == rows
    ensures !reply.Answered? ==> r == []
  {
    var r := FetchSellersWithStatus(rows, status, reply);
    if reply.Answered? && (forall i :: 0 <= i < |rows| ==> rows[i].status == status) then
      FetchSellersWithStatusUniform(rows, status);
      r
    else r
  }

  /** The guard turns away only requests that could not match: when every
      row carries a real status, a disabled status would fetch nothing,
      while an enabled one carried by some row fetches that row. */
  lemma DisabledStatusFetchesNothing(rows: seq<SellerRow>, status: string)
    requires forall i :: 0 <= i < |rows| ==> rows[i].status != "" && rows[i].status != "all"
    ensures !ByStatusEnabled(status) ==> ByStatusQueryFn(rows, status, Answered) == []
    ensures forall i :: 0 <= i < |rows| && rows[i].status == status ==>
      ByStatusEnabled(status) && rows[i] in ByStatusQueryFn(rows, status, Answered)
  {
  }
}

/** `useUserQuery`: the session, then the user, then the profile. */
module UserQuery {
  import opened Common
  import opened Seqs
  import opened Backend
  import opened AuthApi
  import opened QueryCache

  /** The cached user record. */
  datatype UserData = UserData(user: AuthUser, profile: Option<ProfileRow>)

  /** A request the query function issued, in order. */
  datatype Call = GetSessionCall | GetUserCall | ProfileSelect(id: string)

  datatype Run = Run(result: Option<UserData>, calls: seq<Call>)

  datatype QueryOptions = QueryOptions(key: QueryKey, staleTimeMs: nat, refetchOnWindowFocus: bool)

  const USER_KEY: QueryKey := [Str("user")]

  /** The options `useUserQuery` passes. */
  function Options(): (o: QueryOptions)
    ensures o.key == [Str("user")] && o.staleTimeMs == 300000 && o.refetchOnWindowFocus
  {
    QueryOptions(USER_KEY, 1000 * 60 * 5, true)
  }

  /** The profile select `.eq("id", user.id).single()`: a row only when
      exactly one row has the id. */
  function SelectProfile(profiles: seq<ProfileRow>, id: string, ack: Ack): (r: Result<ProfileRow>)
    ensures r.Ok? <==> ack.Done? && Count(profiles, (p: ProfileRow) => p.id == id) == 1
    ensures r.Ok? ==> r.value in profiles && r.value.id == id
  {
    var matches := Filter(profiles, (p: ProfileRow) => p.id == id);
    if ack.Rejected? then Err(ack.message)
    else if |matches| == 1 then
      assert matches[0] in matches;
      Ok(matches[0])
    else Err("single row expected")
  }

  /** The `queryFn` of `useUserQuery`. */
  function QueryFn(session: SessionReply, user: UserReply, profiles: seq<ProfileRow>, ack: Ack): (r: Run)
    ensures GetSession(session).1.Some? || GetSession(session).0.None? ==>
              r == Run(None, [GetSessionCall])
    ensures GetSession(session).1.None? && GetSession(session).0.Some?
            && (GetCurrentUser(user).1.Some? || GetCurrentUser(user).0.None?) ==>
              r == Run(None, [GetSessionCall, GetUserCall])
    ensures r.result.Some? ==> GetSession(session).0.Some? && Some(r.result.value.user) == GetCurrentUser(user).0
    ensures r.result.Some? ==> r.calls == [GetSessionCall, GetUserCall, ProfileSelect(r.result.value.user.id)]
    ensures (GetSession(session).1.None? && GetSession(session).0.Some?
             && GetCurrentUser(user).1.None? && GetCurrentUser(user).0.Some?) ==> r.result.Some?
    ensures r.result.Some? ==>
              (r.result.value.profile.Some? <==> SelectProfile(profiles, r.result.value.user.id, ack).Ok?)
    ensures r.result.Some? && r.result.value.profile.Some? ==>
              r.result.value.profile.value == SelectProfile(profiles, r.result.value.user.id, ack).value
  {
    var (s, sessionError) := GetSession(session);
    if sessionError.Some? || s.None? then Run(None, [GetSessionCall])
    else
      var (u, userError) := GetCurrentUser(user);
      if userError.Some? || u.None? then Run(None, [GetSessionCall, GetUserCall])
      else
        var calls := [GetSessionCall, GetUserCall, ProfileSelect(u.value.id)];
        match SelectProfile(profiles, u.value.id, ack)
        case Err(_) => Run(Some(UserData(u.value, None)), calls)
        case Ok(p) => Run(Some(UserData(u.value, Some(p))), calls)
  }

  /** A signed-in user with a failing profile lookup is still a user: the
      result keeps the user and only drops the profile. */
  lemma ProfileErrorKeepsUser(s: Session, u: AuthUser, profiles: seq<ProfileRow>, m: string)
    ensures QueryFn(SessionOk(Some(s)), UserReturned(Some(u), None), profiles, Rejected(m)).result
         == Some(UserData(u, None))
  {
  }

  /** An `error` returned (not thrown) by `getUser` alongside a user is
      ignored all the way up: the query still yields that user. */
  lemma ReturnedUserErrorIgnored(s: Session, u: AuthUser, e: string, profiles: seq<ProfileRow>, ack: Ack)
    ensures QueryFn(SessionOk(Some(s)), UserReturned(Some(u), Some(e)), profiles, ack).result.Some?
    ensures QueryFn(SessionOk(Some(s)), UserReturned(Some(u), Some(e)), profiles, ack)
         == QueryFn(SessionOk(Some(s)), UserReturned(Some(u), None), profiles, ack)
  {
  }
}

/** What each auth mutation does to the cache when it settles. */
module AuthMutations {
  import opened Common
  import opened Backend
  import opened AuthApi
  import opened QueryCache

  datatype AuthMutation = SignUpMutation | SignInMutation | SignOutMutation | UpdateProfileMutation

  const USER: QueryKey := [Str("user")]
  const PROFILE: QueryKey := [Str("profile")]

  /** The filters each `onSuccess` invalidates. */
  function SuccessInvalidations(m: AuthMutation): set<QueryKey> {
    if m.UpdateProfileMutation? then {USER, PROFILE} else {USER}
  }

  /** `onSuccess`: invalidate `["user"]` (and `["profile"]` after a profile
      update); a sign-out then stores `null` under `["user"]`, which leaves
      that one query valid. Every other entry keeps its value. */
  function OnSuccess(m: AuthMutation, c: Cache): (r: Cache)
    ensures r.invalidated == c.invalidated + (if m.UpdateProfileMutation? then {[Str("user")], [Str("profile")]} else {[Str("user")]})
    ensures forall key :: IsStale(r, key) <==>
              if m.SignOutMutation? && key == [Str("user")] then false
              else IsStale(c, key) || IsPrefix([Str("user")], key)
                   || (m.UpdateProfileMutation? && IsPrefix([Str("profile")], key))
    ensures m.SignOutMutation? ==> [Str("user")] in r.data && r.data[[Str("user")]] == NullEntry
    ensures m.SignOutMutation? ==> forall k :: k != [Str("user")] ==> (k in r.data <==> k in c.data)
    ensures m.SignOutMutation? ==> forall k :: k != [Str("user")] && k in c.data ==> r.data[k] == c.data[k]
    ensures !m.SignOutMutation? ==> r.data == c.data
  {
    var c1 := Invalidate(c, USER);
    match m
    case SignOutMutation => SetQueryData(c1, USER, NullEntry)
    case UpdateProfileMutation => Invalidate(c1, PROFILE)
    case _ => c1
  }

  /** `onError` only logs. */
  function OnError(m: AuthMutation, c: Cache): (r: Cache)
    ensures r == c
  {
    c
  }

  /** The sign-in mutation wraps `signIn`, which always resolves, so its
      `onSuccess` runs whatever the service answered, a refused password
      included: the response carries the refusal and the user query is
      stale either way. */
  function RunSignIn(creds: SignInCredentials, reply: AuthReply, c: Cache): (r: (AuthResponse, Cache))
    ensures r.0.error.Some? <==> reply.AuthFailed?
    ensures reply.AuthFailed? ==> r.0 == AuthResponse(None, None, Some(reply.message))
    ensures reply.AuthOk? ==> r.0.session == reply.session
    ensures r.1.data == c.data
    ensures forall key :: IsStale(r.1, key) <==> IsStale(c, key) || IsPrefix([Str("user")], key)
  {
    (SignIn(creds, reply), OnSuccess(SignInMutation, c))
  }

  /** A refused sign-in still invalidates the user query. */
  lemma FailedSignInInvalidatesUser(creds: SignInCredentials, m: string, c: Cache)
    ensures RunSignIn(creds, AuthFailed(m), c).0.error == Some(m)
    ensures IsStale(RunSignIn(creds, AuthFailed(m), c).1, USER)
  {
    assert IsPrefix(USER, USER);
  }

  /** A sign-out leaves `null` cached under `["user"]` as valid data, while
      a sign-in of any outcome leaves `["user"]` stale. */
  lemma SignOutUserNotStale(c: Cache)
    ensures !IsStale(OnSuccess(SignOutMutation, c), USER)
    ensures OnSuccess(SignOutMutation, c).data[USER] == NullEntry
    ensures IsStale(OnSuccess(SignInMutation, c), USER)
  {
    assert IsPrefix(USER, USER);
  }
}

/** What the category mutations do to the cache. */
module ProductMutations {
  import opened Common
  import opened Seqs
  import opened Backend
  import opened ProductsApi
  import opened QueryCache

  const PRODUCT_CATEGORIES: QueryKey := [Str("productCategories")]

  /** `onSuccess` of both category mutations: invalidate
      `["productCategories"]` and nothing else. */
  function OnCategorySuccess(c: Cache): (r: Cache)
    ensures r.invalidated == c.invalidated + {[Str("productCategories")]}
    ensures r.data == c.data
    ensures forall key :: IsStale(r, key) <==> IsStale(c, key) || IsPrefix([Str("productCategories")], key)
  {
    Invalidate(c, PRODUCT_CATEGORIES)
  }

  /** `useCreateProductMutation`: `createProductCategory` returns `null`
      instead of throwing, so the invalidation runs after a refused write
      as well. */
  function RunCreateCategory(rows: seq<Category>, cat: Category, ack: Ack, c: Cache)
    : (r: (Write<Category, Option<Category>>, Cache))
    ensures ack.Done? ==> r.0.table == rows + [cat] && r.0.value == Some(cat)
    ensures ack.Rejected? ==> r.0.table == rows && r.0.value.None?
    ensures r.1.data == c.data
    ensures forall key :: IsStale(r.1, key) <==> IsStale(c, key) || IsPrefix([Str("productCategories")], key)
  {
    (CreateProductCategory(rows, cat, ack), OnCategorySuccess(c))
  }

  /** `useUpdateProductCategoryMutation`, same shape: a write `.single()`
      refuses still invalidates. */
  function RunUpdateCategory(rows: seq<Category>, cat: Category, ack: Ack, c: Cache)
    : (r: (Write<Category, Option<Category>>, Cache))
    ensures r.0.value.Some? <==> ack.Done? && Count(rows, (x: Category) => x.id == cat.id) == 1
    ensures r.0.value.Some? ==> r.0.value == Some(cat) && |r.0.table| == |rows|
                                && forall i :: 0 <= i < |rows| ==>
                                     r.0.table[i] == if rows[i].id == cat.id then cat else rows[i]
    ensures r.0.value.None? ==> r.0.table == rows
    ensures r.1.data == c.data
    ensures forall key :: IsStale(r.1, key) <==> IsStale(c, key) || IsPrefix([Str("productCategories")], key)
  {
    (UpdateProductCategory(rows, cat, ack), OnCategorySuccess(c))
  }

  /** The product list and the per-id category entries are never made
      stale by a category write: only keys starting with
      "productCategories" are. */
  lemma CategoryWritesStaleKeys(c: Cache, key: QueryKey, id: string)
    ensures IsStale(OnCategorySuccess(c), key) <==> IsStale(c, key) || IsPrefix(PRODUCT_CATEGORIES, key)
    ensures !IsStale(c, [Str("products")]) ==> !IsStale(OnCategorySuccess(c), [Str("products")])
    ensures !IsStale(c, [Str("productCategory"), Str(id)]) ==>
              !IsStale(OnCategorySuccess(c), [Str("productCategory"), Str(id)])
  {
    assert !IsPrefix(PRODUCT_CATEGORIES, [Str("products")]) by {
      assert "products" != "productCategories" by {
        assert |"products"| != |"productCategories"|;
      }
      assert [Str("products")][..1] == [Str("products")];
    }
    assert !IsPrefix(PRODUCT_CATEGORIES, [Str("productCategory"), Str(id)]) by {
      assert "productCategory" != "productCategories" by {
        assert |"productCategory"| != |"productCategories"|;
      }
    }
  }
}

=== FILE: security.dfy ===
/** The security page: the overall score computed from the score items, and
    the tables that turn suspicious-activity and compliance values into
    badges. */
module Security {
  import opened Common
  import opened Text
  import StatusBadge

  datatype ActivityType = Review | Transaction | Login | Account
  datatype Risk = High | Medium | Low
  datatype ActivityStatus = PendingReview | Investigating | Resolved

  function TypeName(t: ActivityType): string {
    match t
    case Review => "review"
    case Transaction => "transaction"
    case Login => "login"
    case Account => "account"
  }

  function RiskName(r: Risk): string {
    match r
    case High => "high"
    case Medium => "medium"
    case Low => "low"
  }

  function StatusName(s: ActivityStatus): string {
    match s
    case PendingReview => "pending"
    case Investigating => "investigating"
    case Resolved => "resolved"
  }

  datatype Activity = Activity(
    id: string,
    kind: ActivityType,
    description: string,
    user: string,
    timestamp: string,
    risk: Risk,
    status: ActivityStatus)

  datatype ScoreItem = ScoreItem(name: string, score: int, maxScore: int)

  /** The two `reduce` sums. */
  function TotalScore(items: seq<ScoreItem>): int {
    if |items| == 0 then 0 else TotalScore(items[..|items| - 1]) + items[|items| - 1].score
  }

  function MaxScore(items: seq<ScoreItem>): int {
    if |items| == 0 then 0 else MaxScore(items[..|items| - 1]) + items[|items| - 1].maxScore
  }

  /** `Math.round(num / den)` for a positive denominator, on exact
      rationals: the integer nearest to the quotient, halves rounded up. */
  function RoundQuotient(num: int, den: int): (r: int)
    requires den > 0
    ensures 2 * den * r <= 2 * num + den < 2 * den * (r + 1)
  {
    (2 * num + den) / (2 * den)
  }

  /** `Math.round(totalScore / maxPossibleScore * 100)`. A zero maximum
      divides by zero and gives no finite number (NaN for 0/0, an infinity
      otherwise); a negative one flips both signs. */
  function OverallScore(items: seq<ScoreItem>): (r: Option<int>)
    ensures r.None? <==> MaxScore(items) == 0
    ensures MaxScore(items) > 0 ==> r == Some(RoundQuotient(100 * TotalScore(items), MaxScore(items)))
    ensures MaxScore(items) < 0 ==> r == Some(RoundQuotient(-100 * TotalScore(items), -MaxScore(items)))
  {
    var t := TotalScore(items);
    var m := MaxScore(items);
    if m == 0 then None
    else if m > 0 then Some(RoundQuotient(100 * t, m))
    else Some(RoundQuotient(-100 * t, -m))
  }

  /** Scores within their maxima sum to a total within the summed maximum. */
  lemma {:induction false} TotalWithinMax(items: seq<ScoreItem>)
    requires forall i :: 0 <= i < |items| ==> 0 <= items[i].score <= items[i].maxScore
    ensures 0 <= TotalScore(items) <= MaxScore(items)
    ensures (forall i :: 0 <= i < |items| ==> items[i].score == items[i].maxScore) ==>
              TotalScore(items) == MaxScore(items)
    decreases |items|
  {
    if |items| > 0 {
      var init := items[..|items| - 1];
      assert forall i :: 0 <= i < |init| ==> init[i] == items[i];
      TotalWithinMax(init);
    }
  }

  lemma MulMonotone(d: int, x: int, y: int)
    requires d >= 0 && x <= y
    ensures d * x <= d * y
  {
    assert d * y == d * x + d * (y - x);
  }

  /** Rounding a quotient between 0 and 100 stays between 0 and 100, and a
      quotient of exactly 100 rounds to 100. */
  lemma {:induction false} RoundPercentage(num: int, den: int)
    requires den > 0 && 0 <= num <= 100 * den
    ensures 0 <= RoundQuotient(num, den) <= 100
    ensures num == 100 * den ==> RoundQuotient(num, den) == 100
  {
    var r := RoundQuotient(num, den);
    var d := 2 * den;
    if r > 100 {
      MulMonotone(d, 101, r);
    }
    if r < 0 {
      MulMonotone(d, r + 1, 0);
    }
    if num == 100 * den && r < 100 {
      MulMonotone(d, r + 1, 100);
    }
  }

  /** With every item between 0 and its maximum, the score is a percentage
      between 0 and 100, and every item at its maximum gives 100. */
  lemma ScoreIsPercentage(items: seq<ScoreItem>)
    requires forall i :: 0 <= i < |items| ==> 0 <= items[i].score <= items[i].maxScore
    requires MaxScore(items) > 0
    ensures OverallScore(items).Some?
    ensures 0 <= OverallScore(items).value <= 100
    ensures (forall i :: 0 <= i < |items| ==> items[i].score == items[i].maxScore) ==>
              OverallScore(items) == Some(100)
  {
    TotalWithinMax(items);
    RoundPercentage(100 * TotalScore(items), MaxScore(items));
  }

  /** The five items the page scores. */
  const PAGE_ITEMS := [
    ScoreItem("Authentication", 95, 100),
    ScoreItem("Data Encryption", 100, 100),
    ScoreItem("Access Control", 85, 100),
    ScoreItem("Vulnerability Management", 80, 100),
    ScoreItem("Incident Response", 90, 100)]

  /** 450 of 500 points: the page shows 90. */
  lemma PageScore()
    ensures OverallScore(PAGE_ITEMS) == Some(90)
  {
    var items := PAGE_ITEMS;
    assert TotalScore(items[..1]) == 95 && MaxScore(items[..1]) == 100;
    assert items[..2][..1] == items[..1];
    assert TotalScore(items[..2]) == 195 && MaxScore(items[..2]) == 200;
    assert items[..3][..2] == items[..2];
    assert TotalScore(items[..3]) == 280 && MaxScore(items[..3]) == 300;
    assert items[..4][..3] == items[..3];
    assert TotalScore(items[..4]) == 360 && MaxScore(items[..4]) == 400;
    assert items[..4] == items[..|items| - 1];
    assert TotalScore(items) == 450 && MaxScore(items) == 500;
  }

  /** The risk column's `variantMap`. */
  function RiskVariant(r: Risk): (v: StatusBadge.Variant)
    ensures r == High <==> v == StatusBadge.Error
    ensures r == Medium <==> v == StatusBadge.Warning
    ensures r == Low <==> v == StatusBadge.Info
  {
    match r
    case High => StatusBadge.Error
    case Medium => StatusBadge.Warning
    case Low => StatusBadge.Info
  }

  /** The alert list's nested conditional on the risk string: anything that
      is neither "high" nor "medium" falls through to info. */
  function AlertRiskVariant(risk: string): (v: StatusBadge.Variant)
    ensures v == StatusBadge.Error <==> risk == "high"
    ensures v == StatusBadge.Warning <==> risk == "medium"
    ensures v == StatusBadge.Info <==> risk != "high" && risk != "medium"
  {
    if risk == "high" then StatusBadge.Error
    else if risk == "medium" then StatusBadge.Warning
    else StatusBadge.Info
  }

  /** The table and the alert list colour every risk the same way. */
  lemma RiskMapsAgree(r: Risk)
    ensures AlertRiskVariant(RiskName(r)) == RiskVariant(r)
  {
    assert RiskName(Low) != "high" && RiskName(Low) != "medium";
  }

  /** The status column's `variantMap`. */
  function ActivityStatusVariant(s: ActivityStatus): (v: StatusBadge.Variant)
    ensures s == PendingReview <==> v == StatusBadge.Pending
    ensures s == Investigating <==> v == StatusBadge.Warning
    ensures s == Resolved <==> v == StatusBadge.Success
  {
    match s
    case PendingReview => StatusBadge.Pending
    case Investigating => StatusBadge.Warning
    case Resolved => StatusBadge.Success
  }

  /** The compliance badge: success for "compliant", warning for anything
      else. */
  function ComplianceVariant(status: string): (v: StatusBadge.Variant)
    ensures v == StatusBadge.Success <==> status == "compliant"
    ensures v == StatusBadge.Warning <==> status != "compliant"
  {
    if status == "compliant" then StatusBadge.Success else StatusBadge.Warning
  }

  /** The risk, status and type labels are their values capitalised; they
      keep the value's length and differ from it only in the first
      character. */
  function Label(value: string): (l: string)
    ensures |l| == |value|
    ensures |value| > 0 ==> l[0] == UpperChar(value[0]) && l[1..] == value[1..]
  {
    CapitalizeSpec(value);
    Capitalize(value)
  }

  /** Distinct risks and distinct statuses get distinct badge colours. */
  lemma VariantMapsInjective(a: Risk, b: Risk, s: ActivityStatus, t: ActivityStatus)
    ensures StatusBadge.ColorClass(RiskVariant(a)) == StatusBadge.ColorClass(RiskVariant(b)) <==> a == b
    ensures StatusBadge.ColorClass(ActivityStatusVariant(s)) == StatusBadge.ColorClass(ActivityStatusVariant(t)) <==> s == t
  {
    StatusBadge.ColorClassInjective(RiskVariant(a), RiskVariant(b));
    StatusBadge.ColorClassInjective(ActivityStatusVariant(s), ActivityStatusVariant(t));
  }

  /** `suspiciousActivities.slice(0, 3)`: the first three activities, or all
      of them when there are fewer. */
  function RecentAlerts(activities: seq<Activity>): (r: seq<Activity>)
    ensures |r| == if |activities| < 3 then |activities| else 3
    ensures forall i :: 0 <= i < |r| ==> r[i] == activities[i]
  {
    if |activities| < 3 then activities else activities[..3]
  }
}

=== FILE: seller_cards.dfy ===
/** The status badge the seller details views derive from a raw status
    string, shared by `VerificationInfoCard` and `SellerDetailsHeader`. */
module SellerBadge {
  import opened Common
  import opened Text
  import StatusBadge

  /** "pending" gets the pending colour; every other string, "rejected" and
      "suspended" included, gets the success colour. The label is the status
      with its first character upper-cased. */
  function BadgeFor(status: string): (r: (StatusBadge.Variant, string))
    ensures r.0 == StatusBadge.Pending <==> status == "pending"
    ensures r.0 == StatusBadge.Pending || r.0 == StatusBadge.Success
    ensures |r.1| == |status|
    ensures |status| > 0 ==> r.1[0] == UpperChar(status[0]) && r.1[1..] == status[1..]
  {
    CapitalizeSpec(status);
    (if status == "pending" then StatusBadge.Pending else StatusBadge.Success, Capitalize(status))
  }

  /** The badge as rendered: the pending colour exactly for "pending", the
      success colour for anything else, under the capitalised status. */
  function Badge(status: string): (b: StatusBadge.Badge)
    ensures b.colorClass == StatusBadge.ColorClass(StatusBadge.Pending) <==> status == "pending"
    ensures status != "pending" ==> b.colorClass == StatusBadge.ColorClass(StatusBadge.Success)
    ensures |b.text| == |status|
    ensures |status| > 0 ==> b.text[0] == UpperChar(status[0]) && b.text[1..] == status[1..]
  {
    StatusBadge.ColorClassInjective(BadgeFor(status).0, StatusBadge.Pending);
    StatusBadge.Render(Some(BadgeFor(status).0), BadgeFor(status).1)
  }

  /** A "rejected" seller shows the same colour as a "verified" one, under a
      different label. */
  lemma RejectedLooksVerified()
    ensures Badge("rejected").colorClass == Badge("verified").colorClass
    ensures Badge("rejected").text != Badge("verified").text
  {
    assert Badge("rejected").text[0] == 'R';
    assert Badge("verified").text[0] == 'V';
  }
}

/** `VerificationInfoCard`. */
module VerificationInfoCard {
  import opened Common
  import opened SellerBadge
  import StatusBadge

  datatype Props = Props(
    documentType: string,
    documentUrl: string,
    governmentIdType: string,
    governmentIdUrl: string,
    status: string,
    verifiedBy: Option<string>,
    verificationDate: Option<string>,
    notes: string)

  datatype Card = Card(
    badge: StatusBadge.Badge,
    verifiedBy: Option<string>,
    notes: string,
    showActions: bool)

  /** Approve/Reject appear only for exactly "pending"; the "Verified By"
      block only when `verifiedBy` is a non-empty string; the notes are
      shown as given. */
  function Render(p: Props): (c: Card)
    ensures c.showActions <==> p.status == "pending"
    ensures c.showActions <==> c.badge.colorClass == StatusBadge.ColorClass(StatusBadge.Pending)
    ensures c.verifiedBy.Some? <==> Truthy(p.verifiedBy)
    ensures c.verifiedBy.Some? ==> c.verifiedBy == p.verifiedBy
    ensures c.notes == p.notes
    ensures c.badge == Badge(p.status)
  {
    StatusBadge.ColorClassInjective(BadgeFor(p.status).0, StatusBadge.Pending);
    Card(Badge(p.status), if Truthy(p.verifiedBy) then p.verifiedBy else None, p.notes, p.status == "pending")
  }

  /** What the card's controls ask of the page. Notes edits are forwarded
      as typed. */
  datatype Request = NotesChanged(notes: string) | ApproveRequested | RejectRequested

  datatype Control = NotesInput(text: string) | ApproveButton | RejectButton

  function Use(p: Props, control: Control): (r: Option<Request>)
    ensures control.NotesInput? ==> r == Some(NotesChanged(control.text))
    ensures control == ApproveButton ==> (r.Some? <==> Render(p).showActions) && (r.Some? ==> r.value == ApproveRequested)
    ensures control == RejectButton ==> (r.Some? <==> Render(p).showActions) && (r.Some? ==> r.value == RejectRequested)
  {
    match control
    case NotesInput(t) => Some(NotesChanged(t))
    case ApproveButton => if Render(p).showActions then Some(ApproveRequested) else None
    case RejectButton => if Render(p).showActions then Some(RejectRequested) else None
  }
}

/** `SellerDetailsHeader`. */
module SellerDetailsHeader {
  import opened SellerBadge
  import StatusBadge
  import VerificationInfoCard

  datatype Header = Header(title: string, subtitle: string, badge: StatusBadge.Badge)

  function Render(businessName: string, sellerId: string, status: string): (h: Header)
    ensures h.title == businessName
    ensures h.subtitle == "Seller ID: " + sellerId
    ensures h.badge == Badge(status)
  {
    Header(businessName, "Seller ID: " + sellerId, Badge(status))
  }

  /** The header and the verification card show the same badge for the same
      status. */
  lemma HeaderMatchesCard(businessName: string, sellerId: string, p: VerificationInfoCard.Props)
    ensures Render(businessName, sellerId, p.status).badge == VerificationInfoCard.Render(p).badge
  {
  }
}

/** `DocumentPreview`. */
module DocumentPreview {
  import opened Common
  import opened Text

  const IMAGE_EXTENSIONS := [".jpg", ".jpeg", ".png", ".gif", ".webp"]

  /** `/\.(jpg|jpeg|png|gif|webp)$/i.test(url)`. */
  predicate IsImage(url: string) {
    exists e :: e in IMAGE_EXTENSIONS && EndsWith(Lower(url), e)
  }

  /** `url.toLowerCase().endsWith('.pdf')`. */
  predicate IsPdf(url: string) {
    EndsWith(Lower(url), ".pdf")
  }

  /** A string ending in `e` ends in every tail of `e`. */
  lemma EndsWithTail(l: string, e: string, k: nat)
    requires k <= |e|
    ensures EndsWith(l, e) ==> |l| >= k && l[|l| - k..] == e[|e| - k..]
  {
    if EndsWith(l, e) {
      assert l[|l| - k..] == l[|l| - |e|..][|e| - k..];
    }
  }

  /** The test is case-insensitive. */
  lemma IsImageIgnoresCase(url: string)
    ensures IsImage(Lower(url)) <==> IsImage(url)
  {
    LowerIdempotent(url);
  }

  /** The test looks at the very end of the URL: an image URL ends, in
      either case, with "g", "f" or "p". */
  lemma IsImageLastChar(url: string)
    ensures IsImage(url) ==> |url| > 0 && LowerChar(url[|url| - 1]) in {'g', 'f', 'p'}
  {
    forall e | e in IMAGE_EXTENSIONS
      ensures EndsWith(Lower(url), e) ==> |url| > 0 && LowerChar(url[|url| - 1]) in {'g', 'f', 'p'}
    {
      EndsWithTail(Lower(url), e, 1);
    }
  }

  /** An upper-case extension counts. */
  lemma UpperCaseExtensionIsImage(base: string)
    ensures IsImage(base + ".JPG")
  {
    var u := base + ".JPG";
    LowerAppend(base, ".JPG");
    assert Lower(".JPG") == ".jpg";
    assert Lower(u)[|u| - 4..] == ".jpg";
    assert ".jpg" in IMAGE_EXTENSIONS;
  }

  /** A query string or fragment after the extension hides it. */
  lemma SuffixAfterExtensionNotImage(base: string)
    ensures !IsImage(base + ".jpg?w=1") && !IsImage(base + ".png#1")
  {
    var a, b := base + ".jpg?w=1", base + ".png#1";
    IsImageLastChar(a);
    IsImageLastChar(b);
    assert a[|a| - 1] == '1' && b[|b| - 1] == '1';
  }

  datatype Props = Props(
    title: string,
    description: Option<string>,
    documentType: string,
    documentUrl: string,
    expiryDate: Option<string>,
    certificationNumber: Option<string>)

  /** What the card shows: the image (or a file icon when `None`), the
      optional lines, and the URL the "View Document" button opens. */
  datatype Preview = Preview(
    title: string,
    description: Option<string>,
    image: Option<string>,
    documentTypeLine: string,
    certificationLine: Option<string>,
    showsExpiry: bool,
    opens: string)

  function Render(p: Props): (v: Preview)
    ensures v.image.Some? <==> IsImage(p.documentUrl)
    ensures v.image.Some? ==> v.image.value == p.documentUrl
    ensures v.certificationLine.Some? <==> Truthy(p.certificationNumber)
    ensures v.certificationLine.Some? ==>
              v.certificationLine.value == "Certification Number: " + p.certificationNumber.value
    ensures v.showsExpiry <==> Truthy(p.expiryDate)
    ensures v.description.Some? <==> Truthy(p.description)
    ensures v.opens == p.documentUrl
  {
    Preview(
      p.title,
      if Truthy(p.description) then p.description else None,
      if IsImage(p.documentUrl) then Some(p.documentUrl) else None,
      "Document Type: " + p.documentType,
      if Truthy(p.certificationNumber) then Some("Certification Number: " + p.certificationNumber.value) else None,
      Truthy(p.expiryDate),
      p.documentUrl)
  }

  /** `isPdf` is computed but never used: two non-image documents, a PDF and
      anything else, render the same card apart from the URL the button
      opens. */
  lemma PdfNotDistinguished(p: Props, pdf: string, other: string)
    requires IsPdf(pdf) && !IsImage(other)
    ensures !IsImage(pdf)
    ensures Render(p.(documentUrl := pdf)).(opens := "") == Render(p.(documentUrl := other)).(opens := "")
  {
    forall e | e in IMAGE_EXTENSIONS ensures !EndsWith(Lower(pdf), e) {
      EndsWithTail(Lower(pdf), ".pdf", 2);
      EndsWithTail(Lower(pdf), e, 2);
    }
  }
}

/** `PersonalInfoCard`. */
module PersonalInfoCard {
  import opened Common
  import opened Seqs
  import opened Text

  /** `[first, middle, last, suffix]`, an absent part as "". */
  function NameParts(first: string, middle: Option<string>, last: string, suffix: Option<string>): seq<string> {
    [first, middle.GetOr(""), last, suffix.GetOr("")]
  }

  function NonEmpty(s: string): bool {
    s != ""
  }

  /** `.filter(Boolean).join(" ")`. */
  function FullName(first: string, middle: Option<string>, last: string, suffix: Option<string>): string {
    Join(Filter(NameParts(first, middle, last, suffix), NonEmpty), ' ')
  }

  /** Joining non-empty parts gives "" only for no parts. */
  lemma {:induction false} JoinEmptyIff(parts: seq<string>, sep: char)
    requires forall i :: 0 <= i < |parts| ==> parts[i] != ""
    ensures Join(parts, sep) == "" <==> |parts| == 0
    decreases |parts|
  {
    if |parts| > 1 {
      assert |Join(parts, sep)| >= |parts[0]|;
    }
  }

  /** Four parts join to "" exactly when all four are empty. */
  lemma KeptPartsEmptyIff(parts: seq<string>)
    requires |parts| == 4
    ensures Join(Filter(parts, NonEmpty), ' ') == "" <==>
              parts[0] == "" && parts[1] == "" && parts[2] == "" && parts[3] == ""
  {
    var kept := Filter(parts, NonEmpty);
    forall i | 0 <= i < |kept| ensures kept[i] != "" {
      assert kept[i] in kept;
    }
    JoinEmptyIff(kept, ' ');
    FilterEmptyIff(parts, NonEmpty);
  }

  /** The full name is empty exactly when every part is empty or absent. */
  lemma FullNameEmptyIff(first: string, middle: Option<string>, last: string, suffix: Option<string>)
    ensures FullName(first, middle, last, suffix) == "" <==>
              first == "" && !Truthy(middle) && last == "" && !Truthy(suffix)
  {
    KeptPartsEmptyIff(NameParts(first, middle, last, suffix));
  }

  /** When no part contains a space, splitting the full name on " " gives
      back exactly the non-empty parts in order: kept parts are separated by
      exactly one space and dropped parts leave no separator. */
  lemma FullNameSplits(first: string, middle: Option<string>, last: string, suffix: Option<string>)
    requires ' ' !in first && ' ' !in last
    requires middle.Some? ==> ' ' !in middle.value
    requires suffix.Some? ==> ' ' !in suffix.value
    requires FullName(first, middle, last, suffix) != ""
    ensures Split(FullName(first, middle, last, suffix), ' ') == Filter(NameParts(first, middle, last, suffix), NonEmpty)
  {
    var parts := NameParts(first, middle, last, suffix);
    var kept := Filter(parts, NonEmpty);
    assert |kept| > 0;
    forall i | 0 <= i < |kept| ensures ' ' !in kept[i] {
      assert kept[i] in parts;
    }
    SplitJoin(kept, ' ');
  }

  datatype Info = Info(fullName: string, email: string, phone: string, website: Option<string>)

  /** The card: the website row only for a non-empty website. */
  function Render(first: string, middle: Option<string>, last: string, suffix: Option<string>,
                  email: string, phone: string, website: Option<string>): (v: Info)
    ensures v.website.Some? <==> Truthy(website)
    ensures v.website.Some? ==> v.website == website
    ensures v.fullName == FullName(first, middle, last, suffix) && v.email == email && v.phone == phone
  {
    Info(FullName(first, middle, last, suffix), email, phone, if Truthy(website) then website else None)
  }
}

=== FILE: seller_management.dfy ===
/** The seller management page: an in-memory seller list, a status filter,
    and a confirmation modal through which a seller is approved, suspended
    or deleted. */
module SellerManagement {
  import opened Common
  import opened Seqs
  import opened Text
  import StatusBadge
  import ConfirmationModal

  datatype SellerStatus = Pending | Verified | Suspended | Rejected

  /** The status as the string the page stores and filters on. */
  function StatusName(s: SellerStatus): string {
    match s
    case Pending => "pending"
    case Verified => "verified"
    case Suspended => "suspended"
    case Rejected => "rejected"
  }

  datatype Seller = Seller(
    id: string,
    business_name: string,
    full_name: string,
    status: SellerStatus,
    document_type: string,
    created_at: string,
    verified_by: Option<string>,
    verification_date: Option<string>)

  datatype Action = Approve | Suspend | Delete

  datatype ModalState = ModalState(isOpen: bool, action: Action, sellerId: Option<string>)

  const CLOSED := ModalState(false, Approve, None)

  const ADMIN_NAME := "Admin User"

  /** The page state: the list, the status filter and the modal. */
  datatype Page = Page(sellers: seq<Seller>, statusFilter: string, modal: ModalState)

  function Initial(sellers: seq<Seller>): (p: Page)
    ensures p.statusFilter == "all" && p.modal == ModalState(false, Approve, None) && p.sellers == sellers
  {
    Page(sellers, "all", CLOSED)
  }

  /** `filteredSellers`. The filter is the select's string value; a value
      that names no status matches nothing. */
  function FilteredSellers(sellers: seq<Seller>, filter: string): (r: seq<Seller>)
    ensures filter == "all" ==> r == sellers
    ensures filter != "all" ==> forall x :: x in r <==> x in sellers && StatusName(x.status) == filter
    ensures filter != "all" ==> |r| == Count(sellers, (x: Seller) => StatusName(x.status) == filter)
  {
    if filter == "all" then sellers else Filter(sellers, (x: Seller) => StatusName(x.status) == filter)
  }

  /** Filtering keeps the list's order: the filtered concatenation is the
      concatenation of the filtered halves. */
  lemma {:induction false} FilteredSellersOrder(a: seq<Seller>, b: seq<Seller>, filter: string)
    ensures FilteredSellers(a + b, filter) == FilteredSellers(a, filter) + FilteredSellers(b, filter)
  {
    if filter != "all" {
      FilterAppend(a, b, (x: Seller) => StatusName(x.status) == filter);
    }
  }

  /** `handleAction(type, sellerId)`. */
  function HandleAction(p: Page, action: Action, sellerId: string): (r: Page)
    ensures r.modal == ModalState(true, action, Some(sellerId))
    ensures r.sellers == p.sellers && r.statusFilter == p.statusFilter
  {
    p.(modal := ModalState(true, action, Some(sellerId)))
  }

  /** The dialogs' `onClose`: hides the modal, keeping its action and id. */
  function CloseModal(p: Page): (r: Page)
    ensures !r.modal.isOpen && r.modal.action == p.modal.action && r.modal.sellerId == p.modal.sellerId
    ensures r.sellers == p.sellers && r.statusFilter == p.statusFilter
  {
    p.(modal := p.modal.(isOpen := false))
  }

  /** An approval as the page writes it: status, approver and date. */
  function Approved(s: Seller, now: string): Seller {
    s.(status := Verified, verified_by := Some(ADMIN_NAME), verification_date := Some(now))
  }

  /** The change `confirmAction` makes to one seller, for approve and
      suspend. */
  function Apply(s: Seller, action: Action, id: string, now: string): Seller {
    if s.id != id then s
    else match action
      case Approve => Approved(s, now)
      case Suspend => s.(status := Suspended)
      case Delete => s
  }

  /** `confirmAction()`. With no (or an empty) seller id it returns at once,
      leaving even the modal as it is. Otherwise it applies the modal's
      action to the seller with that id, whatever that seller's current
      status, and resets the modal to closed / approve / no id. */
  function ConfirmAction(p: Page, now: string): (r: Page)
    ensures !Truthy(p.modal.sellerId) ==> r == p
    ensures Truthy(p.modal.sellerId) ==> r.modal == ModalState(false, Approve, None)
    ensures r.statusFilter == p.statusFilter
    ensures Truthy(p.modal.sellerId) && p.modal.action != Delete ==>
      |r.sellers| == |p.sellers|
      && forall i :: 0 <= i < |p.sellers| ==>
           if p.sellers[i].id == p.modal.sellerId.value then
             r.sellers[i].id == p.sellers[i].id
             && r.sellers[i].business_name == p.sellers[i].business_name
             && r.sellers[i].full_name == p.sellers[i].full_name
             && r.sellers[i].document_type == p.sellers[i].document_type
             && r.sellers[i].created_at == p.sellers[i].created_at
             && (p.modal.action == Approve ==>
                   r.sellers[i].status == Verified && r.sellers[i].verified_by == Some("Admin User")
                   && r.sellers[i].verification_date == Some(now))
             && (p.modal.action == Suspend ==>
                   r.sellers[i].status == Suspended && r.sellers[i].verified_by == p.sellers[i].verified_by
                   && r.sellers[i].verification_date == p.sellers[i].verification_date)
           else r.sellers[i] == p.sellers[i]
    ensures Truthy(p.modal.sellerId) && p.modal.action == Delete ==>
      forall x :: x in r.sellers <==> x in p.sellers && x.id != p.modal.sellerId.value
  {
    if !Truthy(p.modal.sellerId) then p
    else
      var id := p.modal.sellerId.value;
      var action := p.modal.action;
      if action == Delete then Page(Filter(p.sellers, (x: Seller) => x.id != id), p.statusFilter, CLOSED)
      else
        UpdateWhereSpec(p.sellers, (x: Seller) => x.id == id, (x: Seller) => Apply(x, action, id, now));
        Page(UpdateWhere(p.sellers, (x: Seller) => x.id == id, (x: Seller) => Apply(x, action, id, now)),
             p.statusFilter, CLOSED)
  }

  /** Approve and suspend touch only the target: the sellers with another
      id are the same sellers in the same order afterwards. */
  lemma ConfirmActionFrame(p: Page, now: string)
    requires Truthy(p.modal.sellerId) && p.modal.action != Delete
    ensures Filter(ConfirmAction(p, now).sellers, (x: Seller) => x.id != p.modal.sellerId.value)
         == Filter(p.sellers, (x: Seller) => x.id != p.modal.sellerId.value)
  {
    var id := p.modal.sellerId.value;
    var action := p.modal.action;
    UpdateWhereFrame(p.sellers, (x: Seller) => x.id == id, (x: Seller) => x.id != id,
                     (x: Seller) => Apply(x, action, id, now));
  }

  /** Delete keeps every other seller in order and removes exactly the
      sellers with the target id. */
  lemma {:induction false} ConfirmDeleteCount(p: Page, now: string)
    requires Truthy(p.modal.sellerId) && p.modal.action == Delete
    ensures ConfirmAction(p, now).sellers == Filter(p.sellers, (x: Seller) => x.id != p.modal.sellerId.value)
    ensures |ConfirmAction(p, now).sellers|
         == |p.sellers| - Count(p.sellers, (x: Seller) => x.id == p.modal.sellerId.value)
  {
    var id := p.modal.sellerId.value;
    FilterCountComplement(p.sellers, (x: Seller) => x.id == id, (x: Seller) => x.id != id);
  }

  /** There is no status check at confirm time: a modal opened for approval
      approves the target seller even if it is suspended or rejected. */
  lemma ConfirmApproveIgnoresStatus(s: Seller, rest: seq<Seller>, now: string)
    requires s.id != ""
    ensures var p := Page([s] + rest, "all", ModalState(true, Approve, Some(s.id)));
            ConfirmAction(p, now).sellers[0] == Approved(s, now)
  {
  }

  /** The dialogs' descriptions. */
  const APPROVE_DESCRIPTION := "Are you sure you want to approve this seller? They will be able to list products on the marketplace."
  const SUSPEND_DESCRIPTION := "Are you sure you want to suspend this seller? Their products will be hidden from the marketplace."
  const DELETE_DESCRIPTION := "Are you sure you want to delete this seller? This action cannot be undone."

  /** The confirmation dialog the page renders for the modal's action; the
      other two are rendered closed. It passes no `isLoading`, so the dialog
      is never locked, and no cancel label. Only approving is not styled as
      destructive. */
  function DialogProps(p: Page): (r: ConfirmationModal.Props)
    ensures r.isOpen == p.modal.isOpen && r.isLoading.None? && r.cancelLabel.None?
    ensures r.variant.Some? && (r.variant.value == ConfirmationModal.Destructive <==> p.modal.action != Approve)
    ensures p.modal.action == Approve ==>
      r.title == "Approve Seller" && r.confirmLabel == Some("Approve") && r.description == APPROVE_DESCRIPTION
    ensures p.modal.action == Suspend ==>
      r.title == "Suspend Seller" && r.confirmLabel == Some("Suspend") && r.description == SUSPEND_DESCRIPTION
    ensures p.modal.action == Delete ==>
      r.title == "Delete Seller" && r.confirmLabel == Some("Delete") && r.description == DELETE_DESCRIPTION
  {
    var open := p.modal.isOpen;
    match p.modal.action
    case Approve =>
      ConfirmationModal.Props(open, "Approve Seller",
        APPROVE_DESCRIPTION,
        Some("Approve"), None, Some(ConfirmationModal.DefaultVariant), None)
    case Suspend =>
      ConfirmationModal.Props(open, "Suspend Seller",
        SUSPEND_DESCRIPTION,
        Some("Suspend"), None, Some(ConfirmationModal.Destructive), None)
    case Delete =>
      ConfirmationModal.Props(open, "Delete Seller",
        DELETE_DESCRIPTION,
        Some("Delete"), None, Some(ConfirmationModal.Destructive), None)
  }

  /** One dialog callback run during a click on a dialog rendered from
      `render`, applied to the state `acc` the earlier callbacks of the same
      click left. Both callbacks read the state of that render, and each
      state setter replaces its slot, so the later write to a slot wins. */
  function Reach(render: Page, acc: Page, cb: ConfirmationModal.Callback, now: string): Page {
    match cb
    case OnConfirm =>
      if !Truthy(render.modal.sellerId) then acc
      else
        var q := ConfirmAction(render, now);
        acc.(sellers := q.sellers, modal := q.modal)
    case OnClose => acc.(modal := CloseModal(render).modal)
  }

  /** The callbacks of one click, in order. */
  function Settle(render: Page, acc: Page, cbs: seq<ConfirmationModal.Callback>, now: string): Page
    decreases |cbs|
  {
    if |cbs| == 0 then acc else Settle(render, Reach(render, acc, cbs[0], now), cbs[1..], now)
  }

  /** Confirming and then closing, both from the same render, leaves what
      `confirmAction` wrote except for the modal, which the close sets. */
  lemma SettleConfirmThenClose(p: Page, now: string)
    ensures Settle(p, p, [ConfirmationModal.OnConfirm, ConfirmationModal.OnClose], now)
         == ConfirmAction(p, now).(modal := CloseModal(p).modal)
  {
    var cbs := [ConfirmationModal.OnConfirm, ConfirmationModal.OnClose];
    assert cbs[1..] == [ConfirmationModal.OnClose] && cbs[1..][1..] == [];
  }

  /** A click on the dialog's confirm button: `confirmAction` and then the
      dialog's `onClose`, built from the same render. The sellers are what
      `confirmAction` wrote, but its reset of the modal is overwritten: the
      modal ends closed with the action and the id it had. With the modal
      closed there is no button to click, and nothing changes. */
  function ConfirmClick(p: Page, now: string): (r: Page)
    ensures !p.modal.isOpen ==> r == p
    ensures p.modal.isOpen ==> r.sellers == ConfirmAction(p, now).sellers
    ensures p.modal.isOpen ==> r.modal == ModalState(false, p.modal.action, p.modal.sellerId)
    ensures r.statusFilter == p.statusFilter
  {
    var cbs := ConfirmationModal.Dispatch(ConfirmationModal.Render(DialogProps(p)), ConfirmationModal.ClickConfirm);
    ConfirmationModal.LoadingLocksDialog(DialogProps(p), ConfirmationModal.ClickConfirm);
    SettleConfirmThenClose(p, now);
    Settle(p, p, cbs, now)
  }

  /** The entries of the row's action menu. */
  function MenuActions(s: Seller): (r: seq<Action>)
    ensures Approve in r <==> s.status == Pending
    ensures Suspend in r <==> s.status != Suspended
    ensures Delete in r
    ensures |r| > 0 && r[|r| - 1] == Delete
  {
    (if s.status == Pending then [Approve] else [])
    + (if s.status != Suspended then [Suspend] else [])
    + [Delete]
  }

  /** The status column's `statusMap`: every status has an entry whose label
      is the status name capitalised, and distinct statuses get distinct
      badge colours. */
  function StatusBadgeOf(s: SellerStatus): (r: (string, StatusBadge.Variant))
    ensures r.0 == Capitalize(StatusName(s))
    ensures s == Pending <==> r.1 == StatusBadge.Pending
    ensures s == Verified <==> r.1 == StatusBadge.Success
    ensures s == Suspended <==> r.1 == StatusBadge.Warning
    ensures s == Rejected <==> r.1 == StatusBadge.Error
  {
    match s
    case Pending => ("Pending", StatusBadge.Pending)
    case Verified => ("Verified", StatusBadge.Success)
    case Suspended => ("Suspended", StatusBadge.Warning)
    case Rejected => ("Rejected", StatusBadge.Error)
  }

  /** Distinct statuses render as distinct badges. */
  lemma StatusBadgeDistinct(a: SellerStatus, b: SellerStatus)
    ensures StatusBadge.ColorClass(StatusBadgeOf(a).1) == StatusBadge.ColorClass(StatusBadgeOf(b).1) <==> a == b
  {
    StatusBadge.ColorClassInjective(StatusBadgeOf(a).1, StatusBadgeOf(b).1);
  }
}

=== FILE: sellers_api.dfy ===
/** Data access over the `seller_verifications` table. List fetchers
    normalise every failure to an empty list; the single-row fetch and both
    writes rethrow. */
module SellersApi {
  import opened Common
  import opened Seqs
  import opened Backend

  /** A row of `seller_verifications`, reduced to the columns the admin
      reads or writes; every other column is carried along unchanged by
      each operation, like `business_name` here. */
  datatype SellerRow = SellerRow(
    id: string,
    business_name: string,
    status: string,
    remarks: string,
    verified_by: string,
    verification_date: string)

  const ADMIN_NAME := "Admin User"

  /** The rows an `.eq("status", status)` select answers with. */
  function WithStatus(rows: seq<SellerRow>, status: string): seq<SellerRow> {
    Filter(rows, (r: SellerRow) => r.status == status)
  }

  /** `fetchSellersWithStatus(status)`. */
  function FetchSellersWithStatus(rows: seq<SellerRow>, status: string, reply: Reply): (r: seq<SellerRow>)
    ensures reply.Answered? ==> forall x :: x in r <==> x in rows && x.status == status
    ensures reply.Answered? ==> |r| == Count(rows, (x: SellerRow) => x.status == status)
    ensures reply.Answered? ==>
              forall x :: multiset(r)[x] == if x.status == status then multiset(rows)[x] else 0
    ensures !reply.Answered? ==> r == []
  {
    match reply
    case Answered =>
      FilterMultiset(rows, (x: SellerRow) => x.status == status);
      WithStatus(rows, status)
    case AnsweredNull => []
    case Failed(_) => []
  }

  /** `fetchSellerVerification()`: the pending applications. */
  function FetchSellerVerification(rows: seq<SellerRow>, reply: Reply): (r: seq<SellerRow>)
    ensures r == FetchSellersWithStatus(rows, "pending", reply)
  {
    match reply
    case Answered => WithStatus(rows, "pending")
    case _ => []
  }

  /** `fetchVerifiedSellers()`. */
  function FetchVerifiedSellers(rows: seq<SellerRow>, reply: Reply): (r: seq<SellerRow>)
    ensures r == FetchSellersWithStatus(rows, "verified", reply)
  {
    match reply
    case Answered => WithStatus(rows, "verified")
    case _ => []
  }

  /** `fetchAllSellers()`. */
  function FetchAllSellers(rows: seq<SellerRow>, reply: Reply): (r: seq<SellerRow>)
    ensures reply.Answered? ==> r == rows
    ensures !reply.Answered? ==> r == []
  {
    if reply.Answered? then rows else []
  }

  /** The by-status fetch keeps the table's order: fetching from a table
      split in two is fetching from each half in turn. */
  lemma {:induction false} FetchSellersWithStatusOrder(a: seq<SellerRow>, b: seq<SellerRow>, status: string)
    ensures FetchSellersWithStatus(a + b, status, Answered)
         == FetchSellersWithStatus(a, status, Answered) + FetchSellersWithStatus(b, status, Answered)
  {
    FilterAppend(a, b, (r: SellerRow) => r.status == status);
  }

  /** Fetching with the status every row has returns the whole table. */
  lemma FetchSellersWithStatusUniform(rows: seq<SellerRow>, status: string)
    requires forall i :: 0 <= i < |rows| ==> rows[i].status == status
    ensures FetchSellersWithStatus(rows, status, Answered) == rows
  {
    FilterKeepsAll(rows, (r: SellerRow) => r.status == status);
  }

  function DetailsError(id: string): string {
    "Failed to fetch seller with ID: " + id
  }

  /** `fetchSellerDetails(id)`: `.eq("id", id).single()` answers a row only
      when exactly one row has that id; anything else, and any service
      error, becomes the same thrown message. */
  function FetchSellerDetails(rows: seq<SellerRow>, id: string, ack: Ack): (r: Result<SellerRow>)
    ensures r.Ok? <==> ack.Done? && Count(rows, (x: SellerRow) => x.id == id) == 1
    ensures r.Ok? ==> r.value in rows && r.value.id == id
    ensures r.Err? ==> r.message == "Failed to fetch seller with ID: " + id
  {
    var matches := Filter(rows, (x: SellerRow) => x.id == id);
    if ack.Done? && |matches| == 1 then
      assert matches[0] in matches;
      Ok(matches[0])
    else Err(DetailsError(id))
  }

  /** The row an approval, rejection or suspension writes. */
  function Stamp(row: SellerRow, status: string, now: string): SellerRow {
    row.(status := status, verified_by := ADMIN_NAME, verification_date := now)
  }

  /** `updateSellerVerification(id, status)`: every row with that id gets
      the status, "Admin User" and the timestamp, whatever the status is;
      a service error is rethrown and nothing is written. */
  function UpdateSellerVerification(rows: seq<SellerRow>, id: string, status: string, now: string, ack: Ack)
    : (w: Write<SellerRow, Result<()>>)
    ensures ack.Rejected? ==> w.table == rows && w.value == Err(ack.message)
    ensures ack.Done? ==> w.value == Ok(())
    ensures |w.table| == |rows|
    ensures ack.Done? ==> forall i :: 0 <= i < |rows| ==>
      if rows[i].id == id then
        w.table[i].id == id && w.table[i].business_name == rows[i].business_name
        && w.table[i].remarks == rows[i].remarks && w.table[i].status == status
        && w.table[i].verified_by == "Admin User" && w.table[i].verification_date == now
      else w.table[i] == rows[i]
  {
    match ack
    case Rejected(m) => Write(rows, Err(m))
    case Done =>
      var t := UpdateWhere(rows, (x: SellerRow) => x.id == id, (x: SellerRow) => Stamp(x, status, now));
      UpdateWhereSpec(rows, (x: SellerRow) => x.id == id, (x: SellerRow) => Stamp(x, status, now));
      Write(t, Ok(()))
  }

  /** `deleteSellerVerification(id)`: removes exactly the rows with that id,
      keeping the others in order; a service error is rethrown and nothing
      is removed. */
  function DeleteSellerVerification(rows: seq<SellerRow>, id: string, ack: Ack): (w: Write<SellerRow, Result<()>>)
    ensures ack.Rejected? ==> w.table == rows && w.value == Err(ack.message)
    ensures ack.Done? ==> w.value == Ok(())
    ensures ack.Done? ==> forall x :: x in w.table <==> x in rows && x.id != id
    ensures ack.Done? ==> |w.table| == |rows| - Count(rows, (x: SellerRow) => x.id == id)
    ensures ack.Done? ==>
              forall x :: multiset(w.table)[x] == if x.id != id then multiset(rows)[x] else 0
  {
    match ack
    case Rejected(m) => Write(rows, Err(m))
    case Done =>
      FilterCountComplement(rows, (x: SellerRow) => x.id == id, (x: SellerRow) => x.id != id);
      FilterMultiset(rows, (x: SellerRow) => x.id != id);
      Write(Filter(rows, (x: SellerRow) => x.id != id), Ok(()))
  }

  /** Deleting keeps the surviving rows in table order: deleting from a
      table split in two is deleting from each half in turn. */
  lemma {:induction false} DeleteSellerVerificationOrder(a: seq<SellerRow>, b: seq<SellerRow>, id: string)
    ensures DeleteSellerVerification(a + b, id, Done).table
         == DeleteSellerVerification(a, id, Done).table + DeleteSellerVerification(b, id, Done).table
  {
    FilterAppend(a, b, (x: SellerRow) => x.id != id);
  }

  /** An update only touches the target: the rows with another id are the
      same rows in the same order afterwards. */
  lemma UpdateSellerVerificationFrame(rows: seq<SellerRow>, id: string, status: string, now: string)
    ensures Filter(UpdateSellerVerification(rows, id, status, now, Done).table, (x: SellerRow) => x.id != id)
         == Filter(rows, (x: SellerRow) => x.id != id)
  {
    var p := (x: SellerRow) => x.id == id;
    var f := (x: SellerRow) => Stamp(x, status, now);
    UpdateWhereFrame(rows, p, (x: SellerRow) => x.id != id, f);
  }
}

=== FILE: seqs.dfy ===
/** The two list shapes every page and every table call uses:
    `rows.filter(p)` and `rows.map(r => p(r) ? f(r) : r)`. */
module Seqs {

  /** `s.filter(p)`. */
  function Filter<T(!new)>(s: seq<T>, p: T -> bool): (r: seq<T>)
    ensures |r| <= |s|
    ensures forall x :: x in r <==> x in s && p(x)
  {
    if |s| == 0 then []
    else (if p(s[0]) then [s[0]] else []) + Filter(s[1..], p)
  }

  /** Filtering distributes over concatenation, which is what "in original
      order" means: the kept elements of a prefix come before those of the
      rest. */
  lemma {:induction false} FilterAppend<T(!new)>(a: seq<T>, b: seq<T>, p: T -> bool)
    ensures Filter(a + b, p) == Filter(a, p) + Filter(b, p)
    decreases |a|
  {
    if |a| > 0 {
      assert (a + b)[1..] == a[1..] + b;
      FilterAppend(a[1..], b, p);
    } else {
      assert a + b == b;
    }
  }

  /** Filtering keeps each element that passes as many times as it occurs,
      and drops every other. */
  lemma {:induction false} FilterMultiset<T(!new)>(s: seq<T>, p: T -> bool)
    ensures forall x :: multiset(Filter(s, p))[x] == if p(x) then multiset(s)[x] else 0
    decreases |s|
  {
    if |s| > 0 {
      FilterMultiset(s[1..], p);
      assert s == [s[0]] + s[1..];
      assert multiset(s) == multiset([s[0]]) + multiset(s[1..]);
      var head := if p(s[0]) then [s[0]] else [];
      assert multiset(Filter(s, p)) == multiset(head) + multiset(Filter(s[1..], p));
    }
  }

  /** A filter that keeps everything is the identity. */
  lemma {:induction false} FilterKeepsAll<T(!new)>(s: seq<T>, p: T -> bool)
    requires forall i :: 0 <= i < |s| ==> p(s[i])
    ensures Filter(s, p) == s
    decreases |s|
  {
    if |s| > 0 {
      FilterKeepsAll(s[1..], p);
    }
  }

  /** Filtering twice by the same predicate is filtering once. */
  lemma {:induction false} FilterIdempotent<T(!new)>(s: seq<T>, p: T -> bool)
    ensures Filter(Filter(s, p), p) == Filter(s, p)
  {
    var r := Filter(s, p);
    assert forall i :: 0 <= i < |r| ==> p(r[i]) by {
      forall i | 0 <= i < |r| ensures p(r[i]) {
        assert r[i] in r;
      }
    }
    FilterKeepsAll(r, p);
  }

  /** Filters by two predicates compose into a filter by their conjunction. */
  lemma {:induction false} FilterFilter<T(!new)>(s: seq<T>, p: T -> bool, q: T -> bool)
    ensures Filter(Filter(s, p), q) == Filter(s, x => p(x) && q(x))
    decreases |s|
  {
    if |s| > 0 {
      FilterFilter(s[1..], p, q);
      if p(s[0]) {
        assert Filter(s, p) == [s[0]] + Filter(s[1..], p);
        assert Filter(s, p)[1..] == Filter(s[1..], p);
      } else {
        assert Filter(s, p) == Filter(s[1..], p);
      }
    }
  }

  /** `s.map(x => p(x) ? f(x) : x)`. */
  function UpdateWhere<T(!new)>(s: seq<T>, p: T -> bool, f: T -> T): (r: seq<T>)
    ensures |r| == |s|
  {
    seq(|s|, i requires 0 <= i < |s| => if p(s[i]) then f(s[i]) else s[i])
  }

  /** Updating changes the matching elements and only them, position by
      position; with no match it is the identity. */
  lemma UpdateWhereSpec<T(!new)>(s: seq<T>, p: T -> bool, f: T -> T)
    ensures forall i :: 0 <= i < |s| && p(s[i]) ==> UpdateWhere(s, p, f)[i] == f(s[i])
    ensures forall i :: 0 <= i < |s| && !p(s[i]) ==> UpdateWhere(s, p, f)[i] == s[i]
    ensures (forall i :: 0 <= i < |s| ==> !p(s[i])) ==> UpdateWhere(s, p, f) == s
  {
  }

  /** When the update keeps elements outside `p` outside it, the elements
      outside `p` (those satisfying its complement `q`) are exactly the ones
      there were, in the same order. */
  lemma {:induction false} UpdateWhereFrame<T(!new)>(s: seq<T>, p: T -> bool, q: T -> bool, f: T -> T)
    requires forall x :: q(x) == !p(x)
    requires forall x :: p(x) ==> p(f(x))
    ensures Filter(UpdateWhere(s, p, f), q) == Filter(s, q)
    decreases |s|
  {
    if |s| > 0 {
      var u := UpdateWhere(s, p, f);
      assert u[1..] == UpdateWhere(s[1..], p, f);
      UpdateWhereFrame(s[1..], p, q, f);
    }
  }

  /** Number of elements satisfying `p`. */
  function Count<T(!new)>(s: seq<T>, p: T -> bool): (n: nat)
    ensures n <= |s|
    ensures n == |Filter(s, p)|
    ensures n == 0 <==> forall i :: 0 <= i < |s| ==> !p(s[i])
  {
    if |s| == 0 then 0
    else (if p(s[0]) then 1 else 0) + Count(s[1..], p)
  }

  /** Nothing is kept exactly when no element satisfies `p`. */
  lemma FilterEmptyIff<T(!new)>(s: seq<T>, p: T -> bool)
    ensures |Filter(s, p)| == 0 <==> forall i :: 0 <= i < |s| ==> !p(s[i])
  {
    assert Count(s, p) == |Filter(s, p)|;
  }

  /** Elements kept by a predicate plus those kept by its complement make
      up the whole sequence. */
  lemma {:induction false} FilterCountComplement<T(!new)>(s: seq<T>, p: T -> bool, q: T -> bool)
    requires forall x :: q(x) == !p(x)
    ensures |Filter(s, q)| == |s| - Count(s, p)
    decreases |s|
  {
    if |s| > 0 {
      FilterCountComplement(s[1..], p, q);
    }
  }

  /** Two predicates that agree select the same elements. */
  lemma {:induction false} FilterSameSet<T(!new)>(s: seq<T>, p: T -> bool, q: T -> bool)
    requires forall x :: p(x) == q(x)
    ensures Filter(s, p) == Filter(s, q)
    decreases |s|
  {
    if |s| > 0 {
      FilterAppend([s[0]], s[1..], p);
      FilterAppend([s[0]], s[1..], q);
      assert s == [s[0]] + s[1..];
      FilterSameSet(s[1..], p, q);
      assert Filter([s[0]], p) == Filter([s[0]], q) by {
        assert [s[0]][1..] == [];
      }
    }
  }
}

=== FILE: status_badge.dfy ===
/** `StatusBadge`: a pill whose colour comes from one of six variants. */
module StatusBadge {
  import opened Common

  datatype Variant = Default | Success | Warning | Error | Info | Pending

  /** The variant prop, defaulted to "default" when absent. */
  function ResolveVariant(v: Option<Variant>): (r: Variant)
    ensures v.None? ==> r == Default
    ensures v.Some? ==> r == v.value
  {
    v.GetOr(Default)
  }

  /** The colour classes the class map selects for a variant. */
  function ColorClass(v: Variant): string {
    match v
    case Default => "bg-gray-100 text-gray-800"
    case Success => "bg-green-100 text-green-800"
    case Warning => "bg-yellow-100 text-yellow-800"
    case Error => "bg-red-100 text-red-800"
    case Info => "bg-blue-100 text-blue-800"
    case Pending => "bg-purple-100 text-purple-800"
  }

  /** The fourth and sixth characters of a variant's class. */
  function Key(v: Variant): (char, char) {
    match v
    case Default => ('g', 'a')
    case Success => ('g', 'e')
    case Warning => ('y', 'l')
    case Error => ('r', 'd')
    case Info => ('b', 'u')
    case Pending => ('p', 'r')
  }

  lemma KeyOfClass(v: Variant)
    ensures |ColorClass(v)| > 5 && ColorClass(v)[3] == Key(v).0 && ColorClass(v)[5] == Key(v).1
  {
    match v
    case Default =>
    case Success =>
    case Warning =>
    case Error =>
    case Info =>
    case Pending =>
  }

  /** Every variant selects a colour class, and distinct variants select
      distinct classes, so the colour alone tells the variant. */
  lemma ColorClassInjective(a: Variant, b: Variant)
    ensures |ColorClass(a)| > 0
    ensures ColorClass(a) == ColorClass(b) <==> a == b
  {
    KeyOfClass(a);
    KeyOfClass(b);
    if a != b {
      assert Key(a) != Key(b);
    }
  }

  /** A rendered badge: its colour class and its text. */
  datatype Badge = Badge(colorClass: string, text: string)

  /** `<StatusBadge variant label />`: the label text is shown as given. */
  function Render(variant: Option<Variant>, text: string): (b: Badge)
    ensures b.text == text
    ensures variant.None? ==> b.colorClass == ColorClass(Default)
    ensures variant.Some? ==> b.colorClass == ColorClass(variant.value)
  {
    Badge(ColorClass(ResolveVariant(variant)), text)
  }
}

=== FILE: text.dfy ===
/** String helpers shared by the views. Strings are `seq<char>`; case mapping
    is ASCII only and "whitespace" is the ASCII part of JavaScript's `\s`
    class (space, tab, line feed, vertical tab, form feed, carriage return),
    which is also the set `String.prototype.trim` removes from ASCII text. */
module Text {

  predicate IsSpace(c: char) {
    c == ' ' || '\t' <= c <= '\r'
  }

  predicate IsUpper(c: char) {
    'A' <= c <= 'Z'
  }

  predicate IsLower(c: char) {
    'a' <= c <= 'z'
  }

  /** `toLowerCase` on one character. */
  function LowerChar(c: char): char {
    if IsUpper(c) then (c as int + 32) as char else c
  }

  /** `toUpperCase` on one character. */
  function UpperChar(c: char): char {
    if IsLower(c) then (c as int - 32) as char else c
  }

  /** `s.toLowerCase()`. */
  function Lower(s: string): (r: string)
    ensures |r| == |s|
    ensures forall i :: 0 <= i < |s| ==> r[i] == LowerChar(s[i])
  {
    seq(|s|, i requires 0 <= i < |s| => LowerChar(s[i]))
  }

  /** Lower-casing works character by character, so it distributes over
      concatenation. */
  lemma LowerAppend(a: string, b: string)
    ensures Lower(a + b) == Lower(a) + Lower(b)
  {
  }

  /** Lower-casing leaves no upper-case letter behind and is idempotent. */
  lemma LowerIdempotent(s: string)
    ensures forall i :: 0 <= i < |s| ==> !IsUpper(Lower(s)[i])
    ensures Lower(Lower(s)) == Lower(s)
  {
  }

  /** `s.charAt(0).toUpperCase() + s.slice(1)`: the label helper used by
      every status badge. */
  function Capitalize(s: string): string {
    if |s| == 0 then "" else [UpperChar(s[0])] + s[1..]
  }

  /** What a capitalised label is: same length, first character upper-cased,
      the rest untouched; applying it twice changes nothing more. */
  lemma CapitalizeSpec(s: string)
    ensures |Capitalize(s)| == |s|
    ensures |s| > 0 ==> Capitalize(s)[0] == UpperChar(s[0]) && !IsLower(Capitalize(s)[0])
    ensures |s| > 0 ==> Capitalize(s)[1..] == s[1..]
    ensures Capitalize(Capitalize(s)) == Capitalize(s)
  {
  }

  /** The longest whitespace-free suffix reached by skipping leading whitespace
      (`trimStart`). */
  function DropSpaces(s: string): (r: string)
    ensures |r| <= |s|
    ensures |s| > 0 && IsSpace(s[0]) ==> |r| < |s|
    ensures |r| > 0 ==> !IsSpace(r[0])
    ensures r == s[|s| - |r|..]
    ensures forall i :: 0 <= i < |s| - |r| ==> IsSpace(s[i])
  {
    if |s| > 0 && IsSpace(s[0]) then DropSpaces(s[1..]) else s
  }

  /** Every character of `s` is whitespace. */
  predicate AllSpace(s: string) {
    forall i :: 0 <= i < |s| ==> IsSpace(s[i])
  }

  /** `trimEnd`. */
  function DropTrailingSpaces(s: string): (r: string)
    ensures |r| <= |s|
    ensures r == s[..|r|]
    ensures |r| > 0 ==> !IsSpace(r[|r| - 1])
    ensures forall i :: |r| <= i < |s| ==> IsSpace(s[i])
  {
    if |s| > 0 && IsSpace(s[|s| - 1]) then DropTrailingSpaces(s[..|s| - 1]) else s
  }

  /** `s.trim()`. */
  function Trim(s: string): string {
    DropTrailingSpaces(DropSpaces(s))
  }

  /** The trimmed string is empty exactly when the input is all whitespace
      (the empty string included). */
  lemma {:induction false} TrimEmptyIff(s: string)
    ensures Trim(s) == "" <==> AllSpace(s)
  {
    var d := DropSpaces(s);
    var n := |s| - |d|;
    var t := DropTrailingSpaces(d);
    if |t| == 0 {
      assert |d| == 0;
    } else {
      assert t[0] == d[0] == s[n];
    }
  }

  /** `s.replace(/\s+/g, sep)`: every maximal run of whitespace becomes one
      `sep`, every other character is kept. A whitespace character emits
      `sep` only when it ends its run. */
  function ReplaceSpaceRuns(s: string, sep: char): (r: string)
  {
    if |s| == 0 then ""
    else if IsSpace(s[0]) then
      (if |s| > 1 && IsSpace(s[1]) then [] else [sep]) + ReplaceSpaceRuns(s[1..], sep)
    else [s[0]] + ReplaceSpaceRuns(s[1..], sep)
  }

  /** With a non-whitespace separator the result holds no whitespace, is no
      longer than the input, and text without whitespace is left as it is. */
  lemma {:induction false} ReplaceSpaceRunsSpec(s: string, sep: char)
    requires !IsSpace(sep)
    ensures |ReplaceSpaceRuns(s, sep)| <= |s|
    ensures forall i :: 0 <= i < |ReplaceSpaceRuns(s, sep)| ==> !IsSpace(ReplaceSpaceRuns(s, sep)[i])
    ensures (forall i :: 0 <= i < |s| ==> !IsSpace(s[i])) ==> ReplaceSpaceRuns(s, sep) == s
  {
    if |s| > 0 {
      ReplaceSpaceRunsSpec(s[1..], sep);
      var head := if IsSpace(s[0]) then (if |s| > 1 && IsSpace(s[1]) then [] else [sep]) else [s[0]];
      var rest := ReplaceSpaceRuns(s[1..], sep);
      assert ReplaceSpaceRuns(s, sep) == head + rest;
      forall i | 0 <= i < |head + rest| ensures !IsSpace((head + rest)[i]) {
        if i >= |head| {
          assert (head + rest)[i] == rest[i - |head|];
        }
      }
      if forall i :: 0 <= i < |s| ==> !IsSpace(s[i]) {
        assert forall i :: 0 <= i < |s[1..]| ==> !IsSpace(s[1..][i]) by {
          forall i | 0 <= i < |s[1..]| ensures !IsSpace(s[1..][i]) {
            assert s[1..][i] == s[i + 1];
          }
        }
        assert s == [s[0]] + s[1..];
      }
    }
  }

  /** One space between a whitespace-free word and text that does not start
      with whitespace becomes exactly one separator. */
  lemma {:induction false} ReplaceSpaceRunsWord(a: string, b: string, sep: char)
    requires forall i :: 0 <= i < |a| ==> !IsSpace(a[i])
    requires |b| == 0 || !IsSpace(b[0])
    ensures ReplaceSpaceRuns(a + [' '] + b, sep) == a + [sep] + ReplaceSpaceRuns(b, sep)
    decreases |a|
  {
    var s := a + [' '] + b;
    if |a| == 0 {
      assert s[1..] == b;
    } else {
      assert s[0] == a[0];
      assert s[1..] == a[1..] + [' '] + b;
      ReplaceSpaceRunsWord(a[1..], b, sep);
      assert a == [a[0]] + a[1..];
    }
  }

  lemma LowerCharKeepsSpace(c: char)
    ensures IsSpace(LowerChar(c)) <==> IsSpace(c)
  {
  }

  /** Lower-casing and collapsing whitespace runs commute when the separator
      is not an upper-case letter: the category slug (lower, then replace)
      and the download filename (replace, then lower) are the same kind of
      transformation. */
  lemma {:induction false} ReplaceSpaceRunsLower(s: string, sep: char)
    requires !IsUpper(sep)
    ensures ReplaceSpaceRuns(Lower(s), sep) == Lower(ReplaceSpaceRuns(s, sep))
  {
    if |s| > 0 {
      var l := Lower(s);
      LowerCharKeepsSpace(s[0]);
      if |s| > 1 {
        LowerCharKeepsSpace(s[1]);
      }
      assert l[1..] == Lower(s[1..]);
      ReplaceSpaceRunsLower(s[1..], sep);
      var head := if IsSpace(s[0]) then (if |s| > 1 && IsSpace(s[1]) then [] else [sep]) else [s[0]];
      var rest := ReplaceSpaceRuns(s[1..], sep);
      assert ReplaceSpaceRuns(s, sep) == head + rest;
      var lhead := if IsSpace(l[0]) then (if |l| > 1 && IsSpace(l[1]) then [] else [sep]) else [l[0]];
      assert ReplaceSpaceRuns(l, sep) == lhead + ReplaceSpaceRuns(l[1..], sep);
      assert lhead == Lower(head);
      LowerAppend(head, rest);
    }
  }

  /** `s.endsWith(suffix)`. */
  predicate EndsWith(s: string, suffix: string) {
    |suffix| <= |s| && s[|s| - |suffix|..] == suffix
  }

  /** `parts.join([sep])`. */
  function Join(parts: seq<string>, sep: char): string {
    if |parts| == 0 then ""
    else if |parts| == 1 then parts[0]
    else parts[0] + [sep] + Join(parts[1..], sep)
  }

  /** Index of the first `c` in `s`. */
  function IndexOf(s: string, c: char): (k: nat)
    requires c in s
    ensures k < |s| && s[k] == c && c !in s[..k]
  {
    if s[0] == c then 0 else 1 + IndexOf(s[1..], c)
  }

  /** `s.split([sep])`: never empty, "" splits to [""]. */
  function Split(s: string, sep: char): (r: seq<string>)
    ensures |r| > 0
    decreases |s|
  {
    if sep !in s then [s]
    else
      var k := IndexOf(s, sep);
      [s[..k]] + Split(s[k + 1..], sep)
  }

  /** Joining parts that do not contain the separator can be undone by
      splitting on it. */
  lemma {:induction false} SplitJoin(parts: seq<string>, sep: char)
    requires |parts| > 0
    requires forall i :: 0 <= i < |parts| ==> sep !in parts[i]
    ensures Split(Join(parts, sep), sep) == parts
    decreases |parts|
  {
    if |parts| > 1 {
      var j := Join(parts, sep);
      var rest := Join(parts[1..], sep);
      assert j == parts[0] + [sep] + rest;
      assert j[..|parts[0]|] == parts[0];
      FirstIndexOf(j, sep, |parts[0]|);
      assert j[|parts[0]| + 1..] == rest;
      SplitJoin(parts[1..], sep);
    }
  }

  /** A position holding `c` with no `c` before it is the first index of `c`. */
  lemma {:induction false} FirstIndexOf(s: string, c: char, m: nat)
    requires m < |s| && s[m] == c && c !in s[..m]
    ensures IndexOf(s, c) == m
    decreases m
  {
    if m > 0 {
      assert s[0] in s[..m];
      assert s[1..][..m - 1] == s[1..m];
      assert forall x :: x in s[1..m] ==> x in s[..m];
      FirstIndexOf(s[1..], c, m - 1);
    }
  }

  predicate IsDigit(c: char) {
    '0' <= c <= '9'
  }

  /** `String(n)` for a natural number: decimal digits, with a leading zero
      only for zero itself. */
  function NatToString(n: nat): (r: string)
    ensures |r| > 0
    ensures forall i :: 0 <= i < |r| ==> IsDigit(r[i])
    ensures r[0] == '0' <==> n == 0
    decreases n
  {
    if n < 10 then ["0123456789"[n]]
    else NatToString(n / 10) + ["0123456789"[n % 10]]
  }

  /** The number a string of decimal digits denotes, read left to right. */
  function DigitsValue(s: string): nat
    requires forall i :: 0 <= i < |s| ==> IsDigit(s[i])
    decreases |s|
  {
    if |s| == 0 then 0
    else
      assert IsDigit(s[|s| - 1]);
      10 * DigitsValue(s[..|s| - 1]) + (s[|s| - 1] as int - '0' as int)
  }

  lemma DigitChar(d: nat)
    requires d < 10
    ensures "0123456789"[d] as int - '0' as int == d
  {
  }

  /** Reading back the digits of `n` gives `n`. */
  lemma {:induction false} NatToStringRoundTrip(n: nat)
    ensures DigitsValue(NatToString(n)) == n
    decreases n
  {
    DigitChar(n % 10);
    if n >= 10 {
      var r := NatToString(n);
      assert r[..|r| - 1] == NatToString(n / 10);
      NatToStringRoundTrip(n / 10);
    }
  }

  /** Distinct numbers are written differently. */
  lemma {:induction false} NatToStringInjective(a: nat, b: nat)
    ensures NatToString(a) == NatToString(b) <==> a == b
  {
    if NatToString(a) == NatToString(b) {
      NatToStringRoundTrip(a);
      NatToStringRoundTrip(b);
    }
  }
}
